=== FILE: README.md ===
# HuGo peripheral cores in Dafny

This project models five small cores of the HuGo firmware and proves
properties of them.

- **The BLE peripheral** (`Ble` in `tools/devel/___ble.py`). It covers:
  - the power-save countdown driven by scheduler ticks;
  - radio start and stop;
  - the advertising payload;
  - radio events (connect with MTU retries, disconnect, GATT write routing to the shell and the virtual keyboard);
  - one-time construction of the shell and the keyboard;
  - `disconnect` and `notify_log`.

  Modules: `AdvPayload`, `Ble` and `BleProps`.
- **The tiny-block I2C slave decoder** (`hugo_tiny_wire.h`). It covers:
  - the receive handler with its short, foreign, own and base-id frames and every base-id command;
  - the request handler that drains the reply buffer;
  - the start-up address choice.

  Modules: `TinyWire` and `TinyWireProps`.
- **The master side of the same protocol** (`BlockBase` in `tools/devel/___block_base.py`). It covers:
  - the `[type_id, command] + data` frame;
  - the type gate;
  - reads;
  - the module-version query and how the block is classified from it;
  - the address change.

  Module: `BlockBase`. Module `Protocol` joins this side to the decoder: a master write is fed to the slave's receive handler, and the slave's reply is read back.
- **The SSD1306 OLED driver** (`components/display/ssd1306.c`). It covers:
  - the 128x64 framebuffer of eight pages;
  - `set_point` and `get_point`;
  - the clean operation;
  - the init command stream;
  - the page-by-page flush;
  - the start-up order of events.

  Module: `Ssd1306`.
- **Text layout** (`_print_text` in `components/display/graphics.c`):
  - the glyph loops;
  - NUL termination;
  - line wrap;
  - the height cut-off;
  - the two font front ends.

  Module: `Graphics`. The `while` loop is `Graphics.LayoutFrom`, which gives the glyph placements (character and cell corner) in the order they are drawn. `Graphics.Draw` runs the three glyph loops for each placement, giving the `set_point` calls. The module also renders a sequence of pixel writes onto the SSD1306 panel.

Every operation is a pure function. It returns the new state, the calls it made into collaborators (recorded as an effect trace) and, where the source can raise, the error. The following become parameters ("oracles"):
- what the radio, the bus, EEPROM, the shell and the `.ino` callbacks answer;
- the command codes defined in `hugo_defines.h`, which is not part of this model.

Bytes are `bv8`. A value stored into a C `uint8_t` is reduced modulo 256 explicitly (`TinyWire.U8`). Two cases are `Undefined` instead of wrapping:
- a `uint8_t` loop index that would wrap before it reaches its terminator (`GET_EXT_COUNT` with 256 or more lists) loops forever;
- a value that indexes an array directly is not stored in a `uint8_t` first.

Where the code and its own documentation differ, the model follows the code:
- **Flags at radio start.** `advertising_payload` is a `classmethod` whose first parameter is `limited_disc`. At radio start `cls` binds to it, so `limited_disc` is truthy and the flags byte is 0x05. With the default arguments it is 0x06. A flags value of 0x04 cannot come from this encoder, because it always sets one of the two discoverable bits.
- **Shell reply notification.** After a shell write, the reply is notified whenever the shell returned something other than `None`, including an empty reply.
- **`get_point` reads a byte.** `_get_point` converts the whole column byte to `bool`. It does not read the single pixel bit (`Ssd1306.GetPointSeesWholeColumn`).

One statement does not compile as written: the `ACTIVATE_EXTENSION` statement at `hugo_tiny_wire.h:104` lacks its semicolon. Here the model follows the evident intent, an unchecked index into the NULL-terminated array of address lists.

## Model

| member | source | states |
|---|---|---|
| `AdvPayload.EncodeRecord` | tools/devel/___ble.py:210-212 | An AD structure is its value length plus one, its AD type, then its value: two bytes longer than the value. |
| `AdvPayload.EncodeRecordsAppend` | tools/devel/___ble.py:210-212 | Appending to the payload appends encodings: the encoding of a concatenated record run is the concatenation of the encodings. |
| `AdvPayload.DecodeEncode` | tools/devel/___ble.py:210-212 | An independent AD-structure decoder reads back exactly the records that were encoded, in order. |
| `AdvPayload.EncodeDecode` | tools/devel/___ble.py:210-212 | Every byte string the decoder accepts is the encoding of the records it decodes to, so encoder and decoder are mutual inverses. |
| `AdvPayload.FlagsByte` | tools/devel/___ble.py:214-217 | Bit 0 is set iff discovery is limited and bit 1 iff it is general; bit 2 iff BR/EDR is unsupported, bits 3-4 iff it is; the top three bits are clear. |
| `AdvPayload.PackI16LE` | tools/devel/___ble.py:226-227 | `struct.pack("<h")` succeeds iff the value is in the signed 16-bit range, and then yields two bytes whose little-endian value is the two's-complement encoding. |
| `AdvPayload.Append` | tools/devel/___ble.py:210-212 | `_append` fails iff an earlier step failed, the value failed to pack, or the length byte overflows; otherwise it extends the payload by the record's encoding. |
| `AdvPayload.AdvertisingPayload` | tools/devel/___ble.py:205-229 | The payload fails exactly on a name of 255 bytes or more or an appearance outside 16 bits; otherwise it decodes to flags, then name, UUID marker and appearance each present iff its argument is truthy, each carrying its argument's value. |
| `AdvPayload.PayloadEncodes` | tools/devel/___ble.py:205-229 | The chain of conditional `_append` calls is the encoding of the intended record list. |
| `AdvPayload.AdvertisedShape` | tools/devel/___ble.py:205-229 | The intended record list has the documented type order and the value for each type. |
| `AdvPayload.PackThermometer` | tools/devel/___ble.py:59 | The generic-thermometer appearance 768 packs to `00 03`. |
| `AdvPayload.StartPayload` | tools/devel/___ble.py:132-134 | The payload built at radio start is the 19 bytes with flags 0x05, name "HuGo", UUID marker "HuGo" and appearance 768. |
| `AdvPayload.DefaultArgumentsPayload` | tools/devel/___ble.py:206 | With default flags, name "HuGo", no services and appearance 768, the payload is the 13 bytes `02 01 06 05 09 48 75 47 6F 03 19 00 03`. |
| `Ble.Least` | tools/devel/___ble.py:237-238 | The least handle of a non-empty connection set belongs to it and is below every other. |
| `Ble.Enumerate` | tools/devel/___ble.py:237-238 | Iterating the connection set visits each tracked handle exactly once, and nothing else. |
| `Ble.DisconnectEffects` | tools/devel/___ble.py:236-238 | One `gap_disconnect` per tracked handle: exactly one for each, and none for any other. |
| `Ble.NotifyEffects` | tools/devel/___ble.py:241-243 | One `gatts_notify` of the message on the log handle per tracked handle: exactly one for each, none elsewhere. |
| `Ble.SetPowerSaveTimeouts` | tools/devel/___ble.py:92-97 | The plan's three durations are taken over; an open connection's zero countdown survives, otherwise the countdown restarts from the initial time-up. |
| `Ble.Init` | tools/devel/___ble.py:84-89 | Start-up registers the plan callback, seeds the countdown with the plan's initial time-up, schedules the first tick and adds the log sink, with no radio and no links. |
| `Ble.StartBle` | tools/devel/___ble.py:123-136 | Radio start creates, activates and configures the radio, installs the event handler, registers the service, empties the link set, builds the start payload and advertises it. |
| `Ble.StopBle` | tools/devel/___ble.py:139-141 | Radio stop disconnects each tracked link exactly once and then deactivates the radio, calling nothing else. |
| `Ble.CheckTimeToPowerSave` | tools/devel/___ble.py:100-120 | A tick fails only when the countdown expires before the radio was ever started; no tick builds the shell or the keyboard. |
| `Ble.WakeTick` | tools/devel/___ble.py:102-107 | A wake tick blocks power save first, then makes exactly the radio start-up calls with the start payload and no links, then reschedules itself in one tick; it keeps a running countdown or restarts an expired one from the running time-up. |
| `Ble.CountdownTick` | tools/devel/___ble.py:108-120 | An idle tick counts a positive countdown down; on reaching zero it stops the radio, unblocks power save and reschedules after the time-down; a zero countdown only reschedules. |
| `Ble.GetShell` | tools/devel/___ble.py:144-148 | The shell is constructed on first request only. |
| `Ble.GetKeyboard` | tools/devel/___ble.py:151-155 | The virtual keyboard is constructed on first request only. |
| `Ble.ExchangeMtuLoop` | tools/devel/___ble.py:164-171 | The retry loop succeeds iff one of the three attempts succeeds, stops right after the first success, and makes all three attempts otherwise. |
| `Ble.OnConnect` | tools/devel/___ble.py:160-176 | A connect zeroes the countdown. The MTU exchange is tried until the first success, at most three times, and a success ends the calls. The handle is tracked iff an exchange succeeded; otherwise it is disconnected exactly once after three attempts. |
| `Ble.OnDisconnect` | tools/devel/___ble.py:178-185 | A disconnect of an untracked handle raises KeyError and changes nothing; otherwise the handle is dropped, the countdown restarts when the last link goes, and advertising resumes. |
| `Ble.OnDisconnectDiscarding` | tools/devel/___ble.py:178-185 | The disconnect handler with a tolerant removal never raises. It always advertises again and restarts the countdown when no link is left, and on a tracked handle it equals the as-written handler. |
| `Ble.ShellWrite` | tools/devel/___ble.py:192-196 | A shell write hands the written bytes to the shell and notifies its reply exactly once on the writing link and handle; the shell is built at most once. |
| `Ble.KeyboardWrite` | tools/devel/___ble.py:198-200 | A keyboard write hands the written bytes to the keyboard, built at most once. |
| `Ble.OnWrite` | tools/devel/___ble.py:189-200 | A GATT write reads the value first, then builds the shell or keyboard exactly when the handle is theirs and they did not yet exist. |
| `Ble.WriteRouting` | tools/devel/___ble.py:189-200 | The shell sees the bytes iff they were written to the shell handle, and the keyboard iff written to its handle; a notification happens iff the shell replied, on the writing link and handle. |
| `Ble.OnIrq` | tools/devel/___ble.py:158-204 | Indicate-done, MTU-exchanged and unknown events change nothing; no event changes the plan, the radio or the payload. |
| `Ble.Disconnect` | tools/devel/___ble.py:236-238 | `disconnect()` before the first radio start raises AttributeError; after it, it disconnects each tracked link exactly once and changes no state. |
| `Ble.NotifyLog` | tools/devel/___ble.py:241-243 | `notify_log` before the first radio start raises AttributeError; after it, each tracked link gets the message exactly once on the log handle. |
| `BleProps.InitEstablishesInv` | tools/devel/___ble.py:84-97 | Start-up establishes the invariant: links only with a radio, and a live link means a zero countdown. |
| `BleProps.ApplyPreservesInv` | tools/devel/___ble.py:92-185 | Every tick, radio event, plan change and public call preserves the invariant. |
| `BleProps.RunPreservesInv` | tools/devel/___ble.py:92-185 | Any sequence of inputs preserves the invariant. |
| `BleProps.ConnectedBlocksPowerSave` | tools/devel/___ble.py:160-185 | In every reachable state, a tracked link keeps power save blocked. |
| `BleProps.EventBuildsOnce` | tools/devel/___ble.py:189-200 | A radio event builds the shell or keyboard exactly when it first needs it. |
| `BleProps.ApplyBuildsOnce` | tools/devel/___ble.py:144-155 | Every input builds the shell or keyboard exactly when it first needs it, and nothing unbuilds them. |
| `BleProps.RunBuildsOnce` | tools/devel/___ble.py:144-155 | Over any run, each of the shell and the keyboard is built once if it ends up built and never otherwise. |
| `BleProps.ShellAndKeyboardBuiltAtMostOnce` | tools/devel/___ble.py:144-155 | From start-up, no run builds the shell or the keyboard twice. |
| `BleProps.IdleCountdown` | tools/devel/___ble.py:108-120 | Below the countdown, k idle ticks subtract exactly k, change nothing else and only reschedule. |
| `BleProps.PowerSaveAfterCountdown` | tools/devel/___ble.py:108-120 | With no link and countdown n, exactly n idle ticks reach power save: the last stops the radio, unblocks power save and schedules a wake after the time-down. |
| `BleProps.BlockedStaysBlocked` | tools/devel/___ble.py:108-120 | A zero countdown holds power save blocked across any number of idle ticks. |
| `BleProps.FailedConnectKeepsPowerSaveBlocked` | tools/devel/___ble.py:160-176 | A central whose MTU exchanges all fail is not tracked, yet power save stays blocked under idle ticks. |
| `BleProps.FailedConnectStrandsPeripheral` | tools/devel/___ble.py:160-185 | As written, the disconnect event that follows a failed connect of the only central raises KeyError. After it the peripheral never advertises again and never reaches power save under idle ticks. |
| `BleProps.FailedConnectRecoversWhenDiscarding` | tools/devel/___ble.py:160-185 | With the tolerant disconnect handler, the same sequence advertises again and restarts the countdown, and that many idle ticks reach power save. |
| `TinyWire.TerminatorIndex` | src/tiny_blocks/tiny_block_base/hugo_tiny_wire.h:119-123 | The position found is a 0x00 and no earlier byte is 0x00. |
| `TinyWire.Entries` | src/tiny_blocks/tiny_block_base/hugo_tiny_wire.h:130-135 | The entries of an address list are its bytes before the first 0x00, none of them zero. |
| `TinyWire.CountEntries` | src/tiny_blocks/tiny_block_base/hugo_tiny_wire.h:119-128 | The `uint8_t` counting loop stops at the terminator and counts the entries exactly. |
| `TinyWire.CopyEntries` | src/tiny_blocks/tiny_block_base/hugo_tiny_wire.h:130-137 | The copying loop completes iff the entries fit the reply buffer's capacity, and then has copied exactly the entries before the terminator; otherwise it writes past the buffer (undefined). |
| `TinyWire.Receive` | src/tiny_blocks/tiny_block_base/hugo_tiny_wire.h:68-187 | A receive never changes the block id or the extension lists; short, foreign and own-type frames change nothing; a new active list is one of the lists or NULL; undefined behaviour arises only for base-id frames in extension builds. Among those, `GET_EXT_COUNT` is undefined exactly with 256 or more lists, and a two-byte `ACTIVATE_EXTENSION` frame is undefined. |
| `TinyWire.BaseCommand` | src/tiny_blocks/tiny_block_base/hugo_tiny_wire.h:84-185 | Only `ACTIVATE_EXTENSION` in the many-extension build changes the active list, and only to one of the lists or NULL. In that build, `GET_EXT_COUNT` is undefined exactly when there are 256 or more lists, because the `uint8_t` index wraps. `ACTIVATE_EXTENSION` without its index byte is undefined, because it indexes with -1. |
| `TinyWire.ExtensionCommand` | src/tiny_blocks/tiny_block_base/hugo_tiny_wire.h:87-137 | The extension cases exist only in the two extension builds; they keep the block id and the lists, and only `ACTIVATE_EXTENSION` changes the active list, to one of the lists or NULL. `GET_EXT_COUNT` is undefined exactly with 256 or more lists, and `ACTIVATE_EXTENSION` without its index byte is undefined. |
| `TinyWire.ActivateExtension` | src/tiny_blocks/tiny_block_base/hugo_tiny_wire.h:102-105 | An index below the count selects that list, the count itself selects NULL, and a larger index is undefined. |
| `TinyWire.SetPowerSave` | src/tiny_blocks/tiny_block_base/hugo_tiny_wire.h:155-182 | The level reaches the block exactly once. Off the ATtiny412, DEEP switches the shield off and remembers it, and NONE after DEEP switches it on and forgets it; the CPU sleeps iff DEEP and auto sleep is enabled. |
| `TinyWire.Request` | src/tiny_blocks/tiny_block_base/hugo_tiny_wire.h:55-60 | A request sends the reply buffer iff it is non-empty, and leaves it empty. |
| `TinyWire.Initialize` | src/tiny_blocks/tiny_block_base/hugo_tiny_wire.h:189-199 | Start-up empties the buffer, makes the first list active in extension builds, and listens on the EEPROM address unless it holds the erased value, then on the block type id. |
| `TinyWireProps.InitializeWellFormed` | src/tiny_blocks/tiny_block_base/hugo_tiny_wire.h:189-199 | Start-up with terminated lists yields well-formed statics. |
| `TinyWireProps.ReceivePreservesWellFormed` | src/tiny_blocks/tiny_block_base/hugo_tiny_wire.h:68-187 | Every defined receive keeps the statics well formed. |
| `TinyWireProps.ShortFrameIgnored` | src/tiny_blocks/tiny_block_base/hugo_tiny_wire.h:69-71 | A frame of fewer than two bytes is not read and changes nothing. |
| `TinyWireProps.ForeignFrameDrained` | src/tiny_blocks/tiny_block_base/hugo_tiny_wire.h:62-77 | A frame for another block type is read to its end (when it fits a `uint8_t` count), calls nothing and changes nothing. |
| `TinyWireProps.OwnFrameForwarded` | src/tiny_blocks/tiny_block_base/hugo_tiny_wire.h:79-82 | A frame for the block's own type is handed to the block's handler with its command and payload size, and leaves the reply buffer alone. |
| `TinyWireProps.BaseFrameDropsOldReply` | src/tiny_blocks/tiny_block_base/hugo_tiny_wire.h:84 | Every base-id command that fills no reply leaves the reply buffer empty, whatever it held before. |
| `TinyWireProps.UnknownBaseCommandDrains` | src/tiny_blocks/tiny_block_base/hugo_tiny_wire.h:183-184 | An unknown base-id command reads its whole payload, calls nothing, and leaves the buffer empty. |
| `TinyWireProps.OneExtensionCount` | src/tiny_blocks/tiny_block_base/hugo_tiny_wire.h:96-100 | In the one-extension build the extension count reply is 1. |
| `TinyWireProps.ExtensionsCount` | src/tiny_blocks/tiny_block_base/hugo_tiny_wire.h:86-95 | In the many-extension build the extension count reply is the number of address lists. |
| `TinyWireProps.AddrCountReply` | src/tiny_blocks/tiny_block_base/hugo_tiny_wire.h:119-128 | The address-count reply is the one byte counting the active list's entries. |
| `TinyWireProps.AddrListReply` | src/tiny_blocks/tiny_block_base/hugo_tiny_wire.h:130-137 | The address-list reply is the active list's entries when they fit the reply buffer, and undefined otherwise. |
| `TinyWireProps.AddrCountMatchesList` | src/tiny_blocks/tiny_block_base/hugo_tiny_wire.h:119-137 | The count reply is one byte. The list reply is defined iff that count fits the reply buffer, and then its length equals the count and it is the active list up to its terminator, with no zero entry. |
| `TinyWireProps.ChangeAddressNeedsPayload` | src/tiny_blocks/tiny_block_base/hugo_tiny_wire.h:139-151 | The address change writes EEPROM and resets via the watchdog iff the frame carries an address byte; otherwise it does nothing. |
| `TinyWireProps.SetPowerSaveFrame` | src/tiny_blocks/tiny_block_base/hugo_tiny_wire.h:155-182 | A power-save frame delivers its level (0xFF when absent) exactly once, with the shield switched as the DEEP/NONE rules say. |
| `TinyWireProps.VersionQueryRoundTrip` | src/tiny_blocks/tiny_block_base/hugo_tiny_wire.h:152-154 | A version query followed by a request returns exactly the version bytes the block filled in, and empties the buffer. |
| `TinyWireProps.RequestOnce` | src/tiny_blocks/tiny_block_base/hugo_tiny_wire.h:55-60 | A reply is sent once: a second request sends nothing. |
| `BlockBase.ToByte` | tools/devel/___block_base.py:44-54 | `to_bytes(1, 'big')` succeeds iff the value is in 0..255, and then preserves it. |
| `BlockBase.Frame` | tools/devel/___block_base.py:44-54 | The frame starts with the type id and the command, followed by the data only when it is truthy. |
| `BlockBase.FrameRoundTrip` | tools/devel/___block_base.py:44-54 | A frame parses back into exactly its type id, command and data. |
| `BlockBase.DefaultAddress` | tools/devel/___block_base.py:31-42 | The given address is used unless it is None or 0, when the type id is used. |
| `BlockBase.CheckTypeIsMembership` | tools/devel/___block_base.py:56-57 | The type gate (`BlockBase.CheckType`) passes exactly the base id and the block's own type id. |
| `BlockBase.RawTinyWrite` | tools/devel/___block_base.py:44-54 | The raw write raises iff the type id or the command is outside a byte; otherwise it writes one frame to the block's address and logs an error iff it failed while not silent. |
| `BlockBase.TinyWriteCommon` | tools/devel/___block_base.py:59-69 | A write failing the type gate only logs an error; one passing it is the raw write. |
| `BlockBase.TinyWriteBaseId` | tools/devel/___block_base.py:71-72 | A base-id write always passes the gate, and writes `[0xFA, command] + data` iff the command fits a byte. |
| `BlockBase.TinyWrite` | tools/devel/___block_base.py:74-75 | A write to the block's own type writes its frame iff id and command fit a byte. |
| `BlockBase.TinyReadCommon` | tools/devel/___block_base.py:77-98 | A read failing the gate touches no bus and yields None. Otherwise it writes the request, reads the expected length, returns what the bus gave, and logs a failed read unless silent. |
| `BlockBase.TinyReadBaseId` | tools/devel/___block_base.py:100-101 | A base-id read reads from the block's address and returns what the bus gave, iff the command fits a byte. |
| `BlockBase.TinyRead` | tools/devel/___block_base.py:103-104 | A non-silent read logs an error iff the write or the read failed. |
| `BlockBase.GetBlockVersion` | tools/devel/___block_base.py:111-118 | The version query is `[0xFA, 0xF7]` read for 3 bytes. No or empty data gives None, 1-2 bytes raise IndexError, otherwise the first three bytes are the version. |
| `BlockBase.NewBlock` | tools/devel/___block_base.py:31-42 | Construction queries the version at the chosen address and fails exactly when that query fails, with its error. Otherwise the block keeps the version read, warns iff the block is silent, errors iff its type byte differs, and accepts the type iff it matches. The trace is exactly the version query's write and read, followed by that one warning or error or nothing. |
| `BlockBase.AvailableIffVersionAnswered` | tools/devel/___block_base.py:120-121 | A constructed block is available iff the version read returned a non-empty answer, and a silent block is constructed as unavailable. |
| `BlockBase.ChangeBlockAddress` | tools/devel/___block_base.py:106-109 | The address change raises iff the new address is outside a byte; otherwise it writes `[0xFA, 0xFE, n]` to the old address and then uses n. The trace is exactly that write, followed by one logged error iff the write failed. |
| `Protocol.OwnWriteForwarded` | src/tiny_blocks/tiny_block_base/hugo_tiny_wire.h:79-82 | A master write to the block's type reaches the block's handler with the same command and the payload size, changing no decoder state. |
| `Protocol.ChangeAddressEndToEnd` | tools/devel/___block_base.py:106-109 | The master's address change makes the block store n and reset; afterwards both sides use n, unless n is EEPROM's erased value, when the block falls back to its type id. |
| `Protocol.VersionExchange` | tools/devel/___block_base.py:111-118 | A block answering the version query is recorded with its three version bytes, counted available, and accepted iff its type byte matches. |
| `Protocol.SilentBlockUnavailable` | tools/devel/___block_base.py:120-121 | A block that does not answer is unavailable, with a warning, and its type is not accepted. |
| `Protocol.WritesIgnoreTypeValidity` | tools/devel/___block_base.py:59-69 | Whether the version check accepted the block never changes what a write does. |
| `Ssd1306.CDiv` | components/display/ssd1306.c:70 | C division truncates toward zero, so it agrees with floor division on non-negative operands and negates it on negative ones. |
| `Ssd1306.BuffPos` | components/display/ssd1306.c:69-71 | An on-screen point maps to a byte inside the buffer, in its own column and its own page. |
| `Ssd1306.BuffPosShared` | components/display/ssd1306.c:69-71 | Two on-screen points share a byte iff they are in the same column and the same page. |
| `Ssd1306.Clean` | components/display/ssd1306.c:65-67 | Cleaning fills every byte with 0xFF when inverted and 0x00 otherwise. |
| `Ssd1306.SetPoint` | components/display/ssd1306.c:77-91 | `set_point` succeeds iff the point is on screen. A refused call changes nothing, and no call changes any byte but the point's own. |
| `Ssd1306.SetPointBits` | components/display/ssd1306.c:77-91 | An on-screen `set_point` changes only bit y mod 8 of its byte, setting it iff the colour differs from the inversion. |
| `Ssd1306.GetPoint` | components/display/ssd1306.c:73-75 | `get_point` is true iff any bit of the point's column byte is set, and is undefined off the buffer. |
| `Ssd1306.SetThenPixel` | components/display/ssd1306.c:77-91 | A drawn point reads back as the colour drawn, and every other point keeps its pixel. |
| `Ssd1306.CleanShowsBackground` | components/display/ssd1306.c:65-75 | After cleaning, every pixel shows the background, and `get_point` answers the inversion flag. |
| `Ssd1306.GetPointSeesWholeColumn` | components/display/ssd1306.c:73-75 | With one pixel of a page column set, `get_point` also reports its unset neighbour as set. |
| `Ssd1306.InitSequence` | components/display/ssd1306.c:44-53 | The init sequence is nine bytes, mode byte first. |
| `Ssd1306.InitAction` | components/display/ssd1306.c:43-55 | The init action is one command stream to 0x3C whose first byte selects inverted (0xA7) or normal (0xA6) mode. |
| `Ssd1306.InitSequencesDifferInModeOnly` | components/display/ssd1306.c:44-53 | The normal and inverted init sequences differ in the mode byte only. |
| `Ssd1306.Flush` | components/display/ssd1306.c:57-63 | The flush selects each of the eight pages in order and streams that page, so the streamed data is the whole buffer in order. |
| `Ssd1306.InitAsWritten` | components/display/ssd1306.c:105-121 | Start-up as written cleans the panel, reports 128x64 and stores the new event ids. It first raises the flush event with the id it had before registration. Then it registers the init and flush actions and raises the init event. The driver state and the last three effects are those of the corrected start-up `Ssd1306.Init`. |
| `Ssd1306.InitRaisesUnregisteredEvent` | components/display/ssd1306.c:105-121 | Start-up as written always raises an event no action was registered for, with id -1 from boot. |
| `Ssd1306.Init` | components/display/ssd1306.c:105-121 | Corrected start-up registers both actions before raising them, raises only registered events, and raises both init and flush. |
| `Ssd1306.InitShowsBlankPanel` | components/display/ssd1306.c:105-121 | After start-up the adapter reports 128x64 and every pixel shows the background. |
| `Graphics.Glyph` | components/display/graphics.c:44-56 | A glyph makes exactly `char_width * char_height_byte * 8` pixel writes. |
| `Graphics.GlyphCell` | components/display/graphics.c:44-56 | A pixel write belongs to a glyph iff it lies in the glyph's cell and has the colour its font bit selects. |
| `Graphics.DrawLength` | components/display/graphics.c:44-56 | Drawing a run of glyph placements makes exactly one glyph's worth of writes per placement. |
| `Graphics.DrawAppend` | components/display/graphics.c:33-60 | Drawing two runs of placements one after the other is drawing their concatenation. |
| `Graphics.DrawAt` | components/display/graphics.c:44-56 | The `k`-th glyph's worth of writes of a drawn run is the glyph of the `k`-th placement, at its place. |
| `Graphics.DrawOne` | components/display/graphics.c:44-56 | Drawing a single placement is drawing its glyph. |
| `Graphics.DrawWithinBox` | components/display/graphics.c:44-56 | When every glyph of a run starts inside the box, every pixel drawn lies within the box plus one glyph's overshoot. |
| `Graphics.GlyphWithinBox` | components/display/graphics.c:44-57 | A glyph started inside the box draws only inside it, overshooting right and bottom by at most a glyph. |
| `Graphics.LayoutAtMostOneGlyphEach` | components/display/graphics.c:33-60 | From any character on, the as-written layout (`Graphics.LayoutFrom`) places at most one glyph per remaining character. |
| `Graphics.LayoutWithinBox` | components/display/graphics.c:33-60 | From a cursor inside the box, every glyph the layout places starts left of `width` and above `height`. |
| `Graphics.LayoutAllWithinBox` | components/display/graphics.c:26-61 | Every glyph of the as-written layout starts inside the box. |
| `Graphics.PrintText` | components/display/graphics.c:26-61 | `_print_text` writes only within the box plus one glyph's overshoot. It draws at most one glyph per character. When a drawable text fits the first line, it is exactly the reference line (`Graphics.LinePlaces`, character `i` at `i` advances right of the origin) drawn glyph by glyph. |
| `Graphics.FitsOnLine` | components/display/graphics.c:35-57 | When every remaining character is drawable and the last one starts left of `width`, the layout never wraps from this cursor. |
| `Graphics.OneLineFrom` | components/display/graphics.c:35-59 | As written, a text that never wraps from a cursor on a row inside the box places one glyph per remaining character. |
| `Graphics.OneLineCount` | components/display/graphics.c:26-61 | As written, a drawable text that fits the first line places a glyph for every character. |
| `Graphics.OneLineIsLinePlaces` | components/display/graphics.c:35-59 | As written, from character `i` at column `i` advances, a fitting text is laid out at the reference places of its remaining characters. |
| `Graphics.OneLineLayout` | components/display/graphics.c:26-61 | As written, a text that fits the first line is laid out at the reference places: character `i` at `i` advances right of the origin, on the first row. |
| `Graphics.PrintTextOneLine` | components/display/graphics.c:26-61 | For a text that fits the first line, the `k`-th glyph's worth of writes of `_print_text` is the glyph of character `k`, drawn `k` advances right of the origin on the first row. |
| `Graphics.PrintTextOneLineSized` | components/display/graphics.c:26-61 | The same per-character positions, stated with the glyph size and advance given as numbers. |
| `Graphics.LayoutCongruent` | components/display/graphics.c:33-60 | Two layouts in the same box from the same cursor agree when the characters still ahead agree. |
| `Graphics.LayoutShiftDown` | components/display/graphics.c:37-53 | A layout started `d` rows lower is the layout in the box moved down by `d` and shortened by `d`. |
| `Graphics.NewlineStep` | components/display/graphics.c:35-39 | A newline moves to the next line at column 0 and continues with the text after it. |
| `Graphics.NewlineSplitsFrom` | components/display/graphics.c:33-60 | As written, a run that stays on its line followed by a newline lays out the run, then the rest of the text from column 0 one glyph height lower. |
| `Graphics.PrintTextNewline` | components/display/graphics.c:26-61 | `_print_text` of a fitting line, a newline and a rest is the line printed on its own followed by the rest printed in the box moved down one glyph height. |
| `Graphics.LayoutStopsAtNul` | components/display/graphics.c:33 | From any position, the layout ignores everything after the first NUL. |
| `Graphics.PrintTextStopsAtNul` | components/display/graphics.c:26-61 | Printing a text ignores everything after its first NUL. |
| `Graphics.WrapDropsCharacter` | components/display/graphics.c:35-59 | As written, the character that triggers an automatic wrap is not drawn: "ab" in a one-glyph-wide box places only `a`, at the origin, and draws only its glyph. |
| `Graphics.PrintTextWrapped` | components/display/graphics.c:26-61 | With the wrap corrected, `_print_text` writes only within the box plus one glyph's overshoot, and for a drawable text that fits the rows it writes one glyph's worth of pixels per character. |
| `Graphics.WrappedDrawsEveryCharacterFrom` | components/display/graphics.c:35-59 | With the wrap corrected, from a cursor with a row left for each remaining character, the layout has one placement per remaining drawable character (a count). |
| `Graphics.WrappedDrawsEveryCharacter` | components/display/graphics.c:35-59 | With the wrap corrected, a NUL- and newline-free text that fits the rows has one placement per character, the `k`-th placement carries character `k`, and one glyph's worth of pixels is drawn per character. |
| `Graphics.WrappedKeepsOrder` | components/display/graphics.c:35-59 | The corrected layout from any cursor keeps the text's order: its `k`-th placement carries the `k`-th remaining character. |
| `Graphics.WrappedGlyphAt` | components/display/graphics.c:35-59 | For a drawable text that fits the rows, the `k`-th glyph of the corrected `_print_text` is character `k` drawn at the `k`-th placement. |
| `Graphics.WrapKeepsCharacter` | components/display/graphics.c:35-59 | With the wrap corrected, "ab" in a one-glyph-wide box places `a` at the origin and `b` one line lower, and draws those two glyphs. |
| `Graphics.WrappedLayoutWithinBox` | components/display/graphics.c:33-60 | From a cursor inside the box, every glyph of the corrected layout starts inside the box. |
| `Graphics.WrappedWithinBox` | components/display/graphics.c:26-61 | Every glyph of the corrected layout starts inside the box. |
| `Graphics.WrappedCountWhenFits` | components/display/graphics.c:26-61 | The corrected layout places one glyph per character whenever the text fits the rows. |
| `Graphics.PrintText8x8` | components/display/graphics.c:63-66 | 8x8 text stays within the box plus 7 pixels and makes at most 64 writes per character. When the drawable text fits one line, it makes exactly 64 per character, and writes `64*i` to `64*i+63` are the glyph of character `i` at `x0 + 8*i` on the first row. |
| `Graphics.PrintText8x16` | components/display/graphics.c:68-71 | 8x16 text stays within the box plus 7/15 pixels and makes at most 128 writes per character. When the drawable text, with one blank column between glyphs, fits one line, it makes exactly 128 per character, and writes `128*i` to `128*i+127` are the glyph of character `i` at `x0 + 9*i` on the first row. |
| `Graphics.SetPoint` | components/display/graphics.c:16-19 | The graphics `set_point` succeeds iff the point is on the panel, and then the pixel shows the colour drawn. |
| `Graphics.GetPoint` | components/display/graphics.c:21-24 | The graphics `get_point` is the panel's answer: on screen, true iff the column byte is non-zero. |
| `Graphics.Render` | components/display/graphics.c:53 | Rendering pixel writes keeps the panel well formed and its inversion flag. |
| `Graphics.RenderUntouched` | components/display/graphics.c:53 | A point no write targets keeps its pixel. |
| `Graphics.RenderLastWriteWins` | components/display/graphics.c:53 | A targeted on-screen point shows the colour of the last write to it. |

## Left out

- The radio, `Planner`, `PowerMgmt` and `Logging`. These are collaborators. Their calls are recorded as effects and their answers are parameters. Console `print` output is not modelled.
- The shell and the virtual keyboard. Only their construction, and the bytes handed to them, are modelled. The shell's reply is a parameter.
- Event-loop concurrency. Each radio event and each tick is one atomic step, as MicroPython's scheduler runs them.
- The iteration order of a Python `set`. This order is unspecified, so `Ble.Enumerate` visits handles in ascending order. Every property about `disconnect`, `notify_log` and radio stop holds for any order: exactly one call per tracked handle.
- Physical I/O is recorded as effects, never performed. This covers:
  - the I2C bus;
  - EEPROM contents beyond the address byte;
  - the watchdog reset (`while(1)` after `wdt_enable`);
  - `sleep_cpu`, GPIO and the `.ino` callbacks.
- `hugo_defines.h` is not part of this model. The extension and power-save command codes are a parameter, and the theorems require them to be distinct. The base id 0xFA and the codes 0xF7 and 0xFE come from the master side. `EEPROM_DEFAULT_VALUE` is a parameter.
- `Wire.read()` past the received bytes returns -1. Stored into a `uint8_t` (the new address of `CHANGE_EXT_ADDRESS`, the level of `SET_POWER_SAVE`), it becomes 0xFF. `ACTIVATE_EXTENSION` uses it directly as an array index (`hugo_tiny_wire.h:104`), so a frame without its index byte reads `s_ext_addresses[-1]` and is `Undefined`.
- Undefined C behaviour is the `Undefined` outcome and is not explored further. Its cases are:
  - an extension index past the NULL terminator;
  - `ACTIVATE_EXTENSION` without its index byte, which indexes with -1;
  - `GET_EXT_COUNT` with 256 or more address lists, where the `uint8_t` index wraps and the loop does not end;
  - a NULL active list;
  - an address list with no terminator within a `uint8_t` index;
  - `GET_EXT_ADDR_LIST` with more entries than `s_buffer.data` holds, since the copy has no bound.
- The length of `s_buffer.data` is `Config.bufferCapacity`, a parameter, because its type `wire_buffer_t` is declared in `hugo_defines.h`. Only the address-list copy is checked against it. The one-byte replies and the three version bytes written by `HugoTinyWireFillModuleVersion` are assumed to fit.
- `HugoTinyWireProcessCommand`'s parameter type is not part of this model. Its payload size is passed as a `uint8_t`.
- `hugo_graphics_draw_elipse`: it uses floating-point trigonometry.
- Font tables are a function from offset to byte. Their contents, and reads past their end, are not modelled.
- Characters are unsigned bytes. A `char` above 0x7F gives a negative glyph offset in C on signed-`char` targets, and this is not modelled.
- Glyph sizes are non-negative.
- The display adapter struct of function pointers. Graphics calls the SSD1306 model's `set_point` and `get_point` directly.
- `hugo_graphics_init`: it only stores the adapter pointer.
- Python integer arguments beyond the documented ranges. Examples are the 16-bit appearance and the byte-sized ids; only the `struct.error`, `OverflowError` and `IndexError` paths are modelled.
- `Graphics.Render`: states only that the panel stays well formed. Pixel contents after rendering are given by `Graphics.RenderUntouched` and `Graphics.RenderLastWriteWins`.
- `Ssd1306.InitSequence`: states only the length and the mode byte. The remaining eight bytes are fixed constants, and `Ssd1306.InitSequencesDifferInModeOnly` relates the two variants.
- `Graphics.PrintText8x8`: the exact count and the position of every glyph are stated only for text that fits one line. Text with newlines is covered by `Graphics.PrintTextNewline`, which splits off a fitting first line. An automatic wrap loses a character (see Findings), and its layout is given by `Graphics.WrapDropsCharacter` only for the two-character case.
- `Graphics.PrintText8x16`: as for `Graphics.PrintText8x8`.
- `Graphics.PrintText`: as for `Graphics.PrintText8x8`.
- `AdvPayload.PackI16LE`: follows CPython, where `struct.pack("<h")` raises `struct.error` outside the signed 16-bit range. MicroPython's `struct.pack` keeps the low bits instead, and that truncation is not modelled.
- `AdvPayload.Append`: the length byte is packed with CPython's range check (`struct.error` at 256 or more). MicroPython would truncate it to 8 bits.
- `AdvPayload.AdvertisingPayload`: its error cases are those of `AdvPayload.PackI16LE` and `AdvPayload.Append`, so they follow CPython and not MicroPython's truncation.
- `BlockBase.ToByte`: follows CPython, where `int.to_bytes(1, 'big')` raises `OverflowError` outside 0..255. A MicroPython build that truncates instead is not modelled.
- `BlockBase.RawTinyWrite`: its `OverflowError` path comes from `BlockBase.ToByte` and follows CPython.
- `BlockBase.ChangeBlockAddress`: its `OverflowError` path comes from `BlockBase.ToByte` and follows CPython.
- The power-save levels `POWER_SAVE_NONE` (0) and `POWER_SAVE_DEEP` (2) come from the comment on `HugoTinyWirePowerSave` in `hugo_tiny_wire.h`. Their defining header, `hugo_defines.h`, is not part of this model.

## Findings

| source | as written | input that shows it | evidently intended | confidence | as-written member | corrected member |
|---|---|---|---|---|---|---|
| components/display/ssd1306.c:105-121 | `hugo_ssd1306_init` calls `_showtime()` (line 108), which raises the flush event with `s_flush_event_id`, before `_register_events()` (line 117) assigns that id. | The first call after boot raises event id -1, for which no action is registered. | Register both actions first, then raise the init and the flush events. | not executed | `Ssd1306.InitRaisesUnregisteredEvent` | `Ssd1306.Init` |
| tools/devel/___ble.py:178-185 | After all three MTU exchanges fail, `gap_disconnect` drops a handle that was never added to `_connections`. Its disconnect event then calls `_connections.remove`, which raises KeyError before the countdown restart (lines 181-182) and before `_advertise()` (line 185). | The only central connects and all three `gattc_exchange_mtu` calls raise `IOError`. The countdown stays 0, which never expires, and advertising never resumes. | Remove the handle tolerantly (`discard`), so that the failed link's disconnect restarts the countdown and advertises again. | not executed | `BleProps.FailedConnectStrandsPeripheral` | `BleProps.FailedConnectRecoversWhenDiscarding` |
| components/display/graphics.c:35-59 | The automatic wrap (`column >= width`) resets the cursor and then `++index` skips the character that triggered it. | `hugo_graphics_print_text_8x8` with width 8 and text "ab" draws only `a`. | Wrap without consuming the character, so that it is drawn at the start of the next line. | not executed | `Graphics.WrapDropsCharacter` | `Graphics.WrappedDrawsEveryCharacter` |

=== FILE: adv_payload.dfy ===
/** The BLE advertising payload of the peripheral: a run of AD structures
    (length byte, AD type byte, value), the format of the Bluetooth Core
    Specification, Volume 3, Part C, Section 11. The module gives the encoder
    that `Ble.advertising_payload` implements and an independent decoder,
    and proves what the decoder reads back from every payload. */
module AdvPayload {
  import opened Wrappers

  const ADV_TYPE_FLAGS: bv8 := 0x01
  const ADV_TYPE_NAME: bv8 := 0x09
  const ADV_TYPE_UUID16_COMPLETE: bv8 := 0x03
  const ADV_TYPE_APPEARANCE: bv8 := 0x19

  /** ASCII "HuGo": the local name used at the call site, and also the literal
      value the encoder writes into the UUID16 record whatever services are listed. */
  const HUGO_ASCII: Bytes := [0x48, 0x75, 0x47, 0x6F]

  /** org.bluetooth.characteristic.gap.appearance: generic thermometer. */
  const APPEARANCE_GENERIC_THERMOMETER: int := 768

  /** One AD structure. */
  datatype AdRecord = AdRecord(adType: bv8, value: Bytes)

  /** `struct.error`: a value does not fit the `struct.pack` format it is packed with. */
  datatype PackError = StructError

  /** The length byte `len(value) + 1` fits the unsigned format "B". */
  predicate Packable(r: AdRecord) {
    |r.value| + 1 < 256
  }

  predicate AllPackable(rs: seq<AdRecord>) {
    forall i | 0 <= i < |rs| :: Packable(rs[i])
  }

  function EncodeRecord(r: AdRecord): (b: Bytes)
    requires Packable(r)
    ensures |b| == |r.value| + 2
    ensures b[0] as int == |r.value| + 1
  {
    LengthByteValue(|r.value|);
    [LengthByte(|r.value|), r.adType] + r.value
  }

  /** The length byte `len(value) + 1` of a record whose value has `n` bytes,
      counted up one increment at a time so that reasoning about it needs no
      conversion from integers to bit-vectors. */
  function LengthByte(n: nat): bv8
    requires n < 255
  {
    if n == 0 then 1 else LengthByte(n - 1) + 1
  }

  lemma {:induction false} LengthByteValue(n: nat)
    requires n < 255
    ensures LengthByte(n) as int == n + 1
  {
    if n > 0 {
      LengthByteValue(n - 1);
    }
  }

  /** Every non-zero length byte is the one `LengthByte` produces. */
  lemma LengthByteOf(lb: bv8)
    requires 1 <= lb as int
    ensures LengthByte(lb as int - 1) == lb
  {
    LengthByteValue(lb as int - 1);
  }

  function EncodeRecords(rs: seq<AdRecord>): Bytes
    requires AllPackable(rs)
  {
    if rs == [] then [] else EncodeRecord(rs[0]) + EncodeRecords(rs[1..])
  }

  /** Reads a byte string back as AD structures; None when a length byte is
      zero or runs past the end. */
  function DecodeRecords(b: Bytes): Option<seq<AdRecord>>
    decreases |b|
  {
    if b == [] then Some([])
    else
      var len := b[0] as int;
      if len == 0 || |b| < len + 1 then None
      else
        match DecodeRecords(b[len + 1..])
        case None => None
        case Some(rest) => Some([AdRecord(b[1], b[2..len + 1])] + rest)
  }

  /** The AD types of a record run, in order. */
  function Types(rs: seq<AdRecord>): (ts: seq<bv8>)
    ensures |ts| == |rs|
    ensures forall i | 0 <= i < |rs| :: ts[i] == rs[i].adType
  {
    if rs == [] then [] else [rs[0].adType] + Types(rs[1..])
  }

  /** The value of the first record of type `t`, if any. */
  function ValueOf(rs: seq<AdRecord>, t: bv8): Option<Bytes> {
    if rs == [] then None
    else if rs[0].adType == t then Some(rs[0].value)
    else ValueOf(rs[1..], t)
  }

  lemma AllPackableAppend(a: seq<AdRecord>, b: seq<AdRecord>)
    requires AllPackable(a) && AllPackable(b)
    ensures AllPackable(a + b)
  {
    forall i | 0 <= i < |a + b|
      ensures Packable((a + b)[i])
    {
      if i < |a| {
        assert (a + b)[i] == a[i];
      } else {
        assert (a + b)[i] == b[i - |a|];
      }
    }
  }

  lemma AllPackableTail(rs: seq<AdRecord>)
    requires rs != [] && AllPackable(rs)
    ensures Packable(rs[0]) && AllPackable(rs[1..])
  {
    var t := rs[1..];
    forall i | 0 <= i < |t|
      ensures Packable(t[i])
    {
      assert t[i] == rs[i + 1];
    }
  }

  lemma {:induction false} EncodeRecordsAppend(a: seq<AdRecord>, b: seq<AdRecord>)
    requires AllPackable(a) && AllPackable(b)
    ensures AllPackable(a + b)
    ensures EncodeRecords(a + b) == EncodeRecords(a) + EncodeRecords(b)
  {
    AllPackableAppend(a, b);
    if a == [] {
      assert a + b == b;
    } else {
      var t := a[1..];
      AllPackableTail(a);
      assert (a + b)[0] == a[0];
      assert (a + b)[1..] == t + b;
      EncodeRecordsAppend(t, b);
      assert EncodeRecords(a + b) == EncodeRecord(a[0]) + EncodeRecords(t + b);
      assert EncodeRecords(a) == EncodeRecord(a[0]) + EncodeRecords(t);
    }
  }

  /** Decoding an encoded run gives back exactly the records, in order. */
  lemma {:induction false} DecodeEncode(rs: seq<AdRecord>)
    requires AllPackable(rs)
    ensures DecodeRecords(EncodeRecords(rs)) == Some(rs)
  {
    if rs != [] {
      var e := EncodeRecord(rs[0]);
      var tail := EncodeRecords(rs[1..]);
      var b := e + tail;
      var len := |rs[0].value| + 1;
      assert EncodeRecords(rs) == b;
      AllPackableTail(rs);
      assert b[0] as int == len;
      assert b[1] == rs[0].adType;
      assert b[len + 1..] == tail;
      assert b[2..len + 1] == rs[0].value;
      DecodeEncode(rs[1..]);
      assert rs == [rs[0]] + rs[1..];
    }
  }

  /** One step of the decoder on a byte string it accepts. */
  lemma DecodeHead(b: Bytes)
    requires b != [] && DecodeRecords(b).Some?
    ensures 1 <= b[0] as int && b[0] as int + 1 <= |b|
    ensures DecodeRecords(b[b[0] as int + 1..]).Some?
    ensures DecodeRecords(b).value == [AdRecord(b[1], b[2..b[0] as int + 1])] + DecodeRecords(b[b[0] as int + 1..]).value
  {
  }

  lemma SplitAt(b: Bytes, k: nat)
    requires k <= |b|
    ensures b[..k] + b[k..] == b
  {
  }

  lemma EncodeRecordsCons(r: AdRecord, rest: seq<AdRecord>)
    requires Packable(r) && AllPackable(rest)
    ensures AllPackable([r] + rest)
    ensures EncodeRecords([r] + rest) == EncodeRecord(r) + EncodeRecords(rest)
  {
    var rs := [r] + rest;
    assert rs[1..] == rest;
    forall i | 0 <= i < |rs|
      ensures Packable(rs[i])
    {
      if i > 0 {
        assert rs[i] == rest[i - 1];
      }
    }
  }

  /** A record whose encoding is a prefix of `b`, followed by records whose
      encoding is the rest of `b`, encode to `b`. */
  lemma ConsEncodes(head: AdRecord, rest: seq<AdRecord>, b: Bytes, k: nat)
    requires Packable(head) && AllPackable(rest) && k <= |b|
    requires EncodeRecord(head) == b[..k] && EncodeRecords(rest) == b[k..]
    ensures AllPackable([head] + rest)
    ensures EncodeRecords([head] + rest) == b
  {
    EncodeRecordsCons(head, rest);
    SplitAt(b, k);
  }

  lemma EncodeHead(b: Bytes)
    requires |b| > 0 && 2 <= b[0] as int + 1 <= |b|
    ensures Packable(AdRecord(b[1], b[2..b[0] as int + 1]))
    ensures EncodeRecord(AdRecord(b[1], b[2..b[0] as int + 1])) == b[..b[0] as int + 1]
  {
    var len := b[0] as int;
    var v := b[2..len + 1];
    HeadBytes(b, len);
    LengthByteOf(b[0]);
    assert |v| == len - 1;
  }

  lemma HeadBytes(b: Bytes, len: nat)
    requires 2 <= len + 1 <= |b|
    ensures b[..len + 1] == [b[0], b[1]] + b[2..len + 1]
  {
    var v := b[2..len + 1];
    forall k | 0 <= k < len + 1
      ensures b[..len + 1][k] == ([b[0], b[1]] + v)[k]
    {
      if k >= 2 {
        assert v[k - 2] == b[k];
      }
    }
  }

  /** The inductive step of `EncodeDecode`: if the tail after the first
      structure re-encodes to itself, so does the whole string. */
  lemma EncodeDecodeStep(b: Bytes)
    requires b != [] && DecodeRecords(b).Some?
    requires 1 <= b[0] as int && b[0] as int + 1 <= |b|
    requires AllPackable(DecodeRecords(b[b[0] as int + 1..]).value)
    requires EncodeRecords(DecodeRecords(b[b[0] as int + 1..]).value) == b[b[0] as int + 1..]
    ensures AllPackable(DecodeRecords(b).value)
    ensures EncodeRecords(DecodeRecords(b).value) == b
  {
    DecodeHead(b);
    var len := b[0] as int;
    EncodeHead(b);
    ConsEncodes(AdRecord(b[1], b[2..len + 1]), DecodeRecords(b[len + 1..]).value, b, len + 1);
  }

  /** Conversely, a byte string that decodes is the encoding of what it decodes to. */
  lemma {:induction false} EncodeDecode(b: Bytes)
    requires DecodeRecords(b).Some?
    ensures AllPackable(DecodeRecords(b).value)
    ensures EncodeRecords(DecodeRecords(b).value) == b
    decreases |b|
  {
    if b != [] {
      DecodeHead(b);
      EncodeDecode(b[b[0] as int + 1..]);
      EncodeDecodeStep(b);
    }
  }

  lemma {:induction false} TypesAppend(a: seq<AdRecord>, b: seq<AdRecord>)
    ensures Types(a + b) == Types(a) + Types(b)
  {
  }

  lemma {:induction false} ValueOfAppend(a: seq<AdRecord>, b: seq<AdRecord>, t: bv8)
    ensures ValueOf(a + b, t) == if ValueOf(a, t).Some? then ValueOf(a, t) else ValueOf(b, t)
  {
    if a != [] {
      assert (a + b)[0] == a[0];
      assert (a + b)[1..] == a[1..] + b;
      ValueOfAppend(a[1..], b, t);
    } else {
      assert a + b == b;
    }
  }

  /** The flags byte: LE Limited (bit 0) or LE General (bit 1) Discoverable
      Mode, plus either "BR/EDR not supported" (bit 2) or both simultaneous
      LE and BR/EDR bits (bits 3 and 4). */
  function FlagsByte(limitedDisc: bool, brEdr: bool): (f: bv8)
    ensures (f & 0x01 != 0) <==> limitedDisc
    ensures (f & 0x02 != 0) <==> !limitedDisc
    ensures (f & 0x04 != 0) <==> !brEdr
    ensures (f & 0x18 == 0x18) <==> brEdr
    ensures f & 0xE0 == 0
  {
    (if limitedDisc then 0x01 else 0x02) + (if brEdr then 0x18 else 0x04)
  }

  /** `struct.pack("<h", a)`: two bytes, little-endian two's complement, or
      `struct.error` outside the signed 16-bit range. */
  function PackI16LE(a: int): (r: Result<Bytes, PackError>)
    ensures r.Ok? <==> -0x8000 <= a < 0x8000
    ensures r.Ok? ==> |r.value| == 2
    ensures r.Ok? ==> r.value[0] as int + 256 * r.value[1] as int == (if a < 0 then a + 0x10000 else a)
  {
    if -0x8000 <= a < 0x8000 then
      var u := if a < 0 then a + 0x10000 else a;
      assert 0 <= u < 0x10000 && u == u % 256 + 256 * (u / 256);
      ByteOfNat(u % 256);
      ByteOfNat(u / 256);
      Ok([(u % 256) as bv8, (u / 256) as bv8])
    else Err(StructError)
  }

  /** Python truthiness of the `name` argument. */
  predicate HasName(name: Option<Bytes>) {
    name.Some? && |name.value| > 0
  }

  /** Python truthiness of the `services` argument. */
  predicate HasServices<S>(services: Option<seq<S>>) {
    services.Some? && |services.value| > 0
  }

  /** The nested `_append`: one AD structure added to the payload so far. */
  function Append(payload: Result<Bytes, PackError>, adType: bv8, value: Result<Bytes, PackError>): (r: Result<Bytes, PackError>)
    ensures r.Ok? <==> payload.Ok? && value.Ok? && |value.value| + 1 < 256
    ensures r.Ok? ==> r.value == payload.value + EncodeRecords([AdRecord(adType, value.value)])
  {
    if payload.Err? then payload
    else if value.Err? then Err(value.error)
    else if |value.value| + 1 < 256 then
      var rec := AdRecord(adType, value.value);
      assert EncodeRecords([rec]) == EncodeRecord(rec) + EncodeRecords([]);
      Ok(payload.value + EncodeRecord(rec))
    else Err(StructError)
  }

  /** The records the payload is meant to carry, in the order they are appended. */
  function AdvertisedRecords<S>(limitedDisc: bool, brEdr: bool, name: Option<Bytes>, services: Option<seq<S>>, appearanceLE: Bytes, appearance: int): seq<AdRecord> {
    [AdRecord(ADV_TYPE_FLAGS, [FlagsByte(limitedDisc, brEdr)])]
    + (if HasName(name) then [AdRecord(ADV_TYPE_NAME, name.value)] else [])
    + (if HasServices(services) then [AdRecord(ADV_TYPE_UUID16_COMPLETE, HUGO_ASCII)] else [])
    + (if appearance != 0 then [AdRecord(ADV_TYPE_APPEARANCE, appearanceLE)] else [])
  }

  /** `Ble.advertising_payload(limited_disc, br_edr, name, services, appearance)`:
      the flags record, then the name record when `name` is non-empty, then the
      UUID16 record when `services` is non-empty, then the appearance record
      when `appearance` is non-zero. */
  function AdvertisingPayload<S>(limitedDisc: bool, brEdr: bool, name: Option<Bytes>, services: Option<seq<S>>, appearance: int): (r: Result<Bytes, PackError>)
    ensures r.Ok? <==> (!HasName(name) || |name.value| < 255) && (appearance == 0 || -0x8000 <= appearance < 0x8000)
    ensures r.Ok? ==>
      && DecodeRecords(r.value).Some?
      && var recs := DecodeRecords(r.value).value;
      && Types(recs) == [ADV_TYPE_FLAGS]
                       + (if HasName(name) then [ADV_TYPE_NAME] else [])
                       + (if HasServices(services) then [ADV_TYPE_UUID16_COMPLETE] else [])
                       + (if appearance != 0 then [ADV_TYPE_APPEARANCE] else [])
      && ValueOf(recs, ADV_TYPE_FLAGS) == Some([FlagsByte(limitedDisc, brEdr)])
      && ValueOf(recs, ADV_TYPE_NAME) == (if HasName(name) then Some(name.value) else None)
      && ValueOf(recs, ADV_TYPE_UUID16_COMPLETE) == (if HasServices(services) then Some(HUGO_ASCII) else None)
      && ValueOf(recs, ADV_TYPE_APPEARANCE) == (if appearance != 0 then Some(PackI16LE(appearance).value) else None)
  {
    var flags := Append(Ok([]), ADV_TYPE_FLAGS, Ok([FlagsByte(limitedDisc, brEdr)]));
    var named := if HasName(name) then Append(flags, ADV_TYPE_NAME, Ok(name.value)) else flags;
    var listed := if HasServices(services) then Append(named, ADV_TYPE_UUID16_COMPLETE, Ok(HUGO_ASCII)) else named;
    var r := if appearance != 0 then Append(listed, ADV_TYPE_APPEARANCE, PackI16LE(appearance)) else listed;
    PayloadEncodes(limitedDisc, brEdr, name, services, appearance, flags, named, listed, r);
    if r.Ok? then
      var le := if appearance != 0 then PackI16LE(appearance).value else [];
      var recs := AdvertisedRecords(limitedDisc, brEdr, name, services, le, appearance);
      DecodeEncode(recs);
      AdvertisedShape(limitedDisc, brEdr, name, services, le, appearance);
      r
    else r
  }

  /** The chain of `_append` calls encodes `AdvertisedRecords`. */
  lemma PayloadEncodes<S>(limitedDisc: bool, brEdr: bool, name: Option<Bytes>, services: Option<seq<S>>, appearance: int,
                          flags: Result<Bytes, PackError>, named: Result<Bytes, PackError>,
                          listed: Result<Bytes, PackError>, r: Result<Bytes, PackError>)
    requires flags == Append(Ok([]), ADV_TYPE_FLAGS, Ok([FlagsByte(limitedDisc, brEdr)]))
    requires named == if HasName(name) then Append(flags, ADV_TYPE_NAME, Ok(name.value)) else flags
    requires listed == if HasServices(services) then Append(named, ADV_TYPE_UUID16_COMPLETE, Ok(HUGO_ASCII)) else named
    requires r == if appearance != 0 then Append(listed, ADV_TYPE_APPEARANCE, PackI16LE(appearance)) else listed
    ensures r.Ok? ==>
      var recs := AdvertisedRecords(limitedDisc, brEdr, name, services, if appearance != 0 then PackI16LE(appearance).value else [], appearance);
      AllPackable(recs) && r.value == EncodeRecords(recs)
  {
    var f := [AdRecord(ADV_TYPE_FLAGS, [FlagsByte(limitedDisc, brEdr)])];
    StageEncodes(Ok([]), [], true, ADV_TYPE_FLAGS, Ok([FlagsByte(limitedDisc, brEdr)]));
    assert [] + f == f;
    var nv := if HasName(name) then name.value else [];
    StageEncodes(flags, f, HasName(name), ADV_TYPE_NAME, Ok(nv));
    var n := if HasName(name) then [AdRecord(ADV_TYPE_NAME, name.value)] else [];
    StageEncodes(named, f + n, HasServices(services), ADV_TYPE_UUID16_COMPLETE, Ok(HUGO_ASCII));
    var u := if HasServices(services) then [AdRecord(ADV_TYPE_UUID16_COMPLETE, HUGO_ASCII)] else [];
    StageEncodes(listed, f + n + u, appearance != 0, ADV_TYPE_APPEARANCE, PackI16LE(appearance));
  }

  /** An `_append` made under condition `cond` adds its record exactly when `cond` holds. */
  lemma StageEncodes(p: Result<Bytes, PackError>, rs: seq<AdRecord>, cond: bool, adType: bv8, value: Result<Bytes, PackError>)
    requires p.Ok? ==> AllPackable(rs) && p.value == EncodeRecords(rs)
    ensures var q := if cond then Append(p, adType, value) else p;
      q.Ok? ==>
        var rs' := rs + (if cond then [AdRecord(adType, value.value)] else []);
        AllPackable(rs') && q.value == EncodeRecords(rs')
  {
    if cond {
      AppendEncodes(p, rs, adType, value);
    } else {
      assert rs + [] == rs;
    }
  }

  /** Order and contents of `AdvertisedRecords`, as the decoder sees them. */
  lemma AdvertisedShape<S>(limitedDisc: bool, brEdr: bool, name: Option<Bytes>, services: Option<seq<S>>, le: Bytes, appearance: int)
    ensures var recs := AdvertisedRecords(limitedDisc, brEdr, name, services, le, appearance);
      && Types(recs) == [ADV_TYPE_FLAGS]
                       + (if HasName(name) then [ADV_TYPE_NAME] else [])
                       + (if HasServices(services) then [ADV_TYPE_UUID16_COMPLETE] else [])
                       + (if appearance != 0 then [ADV_TYPE_APPEARANCE] else [])
      && ValueOf(recs, ADV_TYPE_FLAGS) == Some([FlagsByte(limitedDisc, brEdr)])
      && ValueOf(recs, ADV_TYPE_NAME) == (if HasName(name) then Some(name.value) else None)
      && ValueOf(recs, ADV_TYPE_UUID16_COMPLETE) == (if HasServices(services) then Some(HUGO_ASCII) else None)
      && ValueOf(recs, ADV_TYPE_APPEARANCE) == (if appearance != 0 then Some(le) else None)
  {
    AdvertisedTypes(limitedDisc, brEdr, name, services, le, appearance);
    AdvertisedValues(limitedDisc, brEdr, name, services, le, appearance);
  }

  lemma AdvertisedTypes<S>(limitedDisc: bool, brEdr: bool, name: Option<Bytes>, services: Option<seq<S>>, le: Bytes, appearance: int)
    ensures Types(AdvertisedRecords(limitedDisc, brEdr, name, services, le, appearance))
      == [ADV_TYPE_FLAGS]
         + (if HasName(name) then [ADV_TYPE_NAME] else [])
         + (if HasServices(services) then [ADV_TYPE_UUID16_COMPLETE] else [])
         + (if appearance != 0 then [ADV_TYPE_APPEARANCE] else [])
  {
    var f := [AdRecord(ADV_TYPE_FLAGS, [FlagsByte(limitedDisc, brEdr)])];
    var n := if HasName(name) then [AdRecord(ADV_TYPE_NAME, name.value)] else [];
    var u := if HasServices(services) then [AdRecord(ADV_TYPE_UUID16_COMPLETE, HUGO_ASCII)] else [];
    var a := if appearance != 0 then [AdRecord(ADV_TYPE_APPEARANCE, le)] else [];
    assert AdvertisedRecords(limitedDisc, brEdr, name, services, le, appearance) == f + n + u + a;
    TypesFour(f, n, u, a);
    TypesOne(f[0]);
    if HasName(name) { TypesOne(n[0]); }
    if HasServices(services) { TypesOne(u[0]); }
    if appearance != 0 { TypesOne(a[0]); }
  }

  lemma AdvertisedValues<S>(limitedDisc: bool, brEdr: bool, name: Option<Bytes>, services: Option<seq<S>>, le: Bytes, appearance: int)
    ensures var recs := AdvertisedRecords(limitedDisc, brEdr, name, services, le, appearance);
      && ValueOf(recs, ADV_TYPE_FLAGS) == Some([FlagsByte(limitedDisc, brEdr)])
      && ValueOf(recs, ADV_TYPE_NAME) == (if HasName(name) then Some(name.value) else None)
      && ValueOf(recs, ADV_TYPE_UUID16_COMPLETE) == (if HasServices(services) then Some(HUGO_ASCII) else None)
      && ValueOf(recs, ADV_TYPE_APPEARANCE) == (if appearance != 0 then Some(le) else None)
  {
    var f := [AdRecord(ADV_TYPE_FLAGS, [FlagsByte(limitedDisc, brEdr)])];
    var n := if HasName(name) then [AdRecord(ADV_TYPE_NAME, name.value)] else [];
    var u := if HasServices(services) then [AdRecord(ADV_TYPE_UUID16_COMPLETE, HUGO_ASCII)] else [];
    var a := if appearance != 0 then [AdRecord(ADV_TYPE_APPEARANCE, le)] else [];
    assert AdvertisedRecords(limitedDisc, brEdr, name, services, le, appearance) == f + n + u + a;
    RecordsValues(f, n, u, a);
  }

  /** One `_append` extends the encoding of the records appended so far by one record. */
  lemma AppendEncodes(p: Result<Bytes, PackError>, rs: seq<AdRecord>, adType: bv8, value: Result<Bytes, PackError>)
    requires p.Ok? ==> AllPackable(rs) && p.value == EncodeRecords(rs)
    ensures Append(p, adType, value).Ok? ==>
      && AllPackable(rs + [AdRecord(adType, value.value)])
      && Append(p, adType, value).value == EncodeRecords(rs + [AdRecord(adType, value.value)])
  {
    if Append(p, adType, value).Ok? {
      var rec := AdRecord(adType, value.value);
      assert AllPackable([rec]);
      EncodeRecordsAppend(rs, [rec]);
    }
  }

  lemma TypesOne(r: AdRecord)
    ensures Types([r]) == [r.adType]
  {
  }

  lemma TypesFour(f: seq<AdRecord>, n: seq<AdRecord>, u: seq<AdRecord>, a: seq<AdRecord>)
    ensures Types(f + n + u + a) == Types(f) + Types(n) + Types(u) + Types(a)
  {
    TypesAppend(f, n);
    TypesAppend(f + n, u);
    TypesAppend(f + n + u, a);
  }

  lemma RecordsValues(f: seq<AdRecord>, n: seq<AdRecord>, u: seq<AdRecord>, a: seq<AdRecord>)
    requires |f| == 1 && f[0].adType == ADV_TYPE_FLAGS
    requires |n| <= 1 && (|n| == 1 ==> n[0].adType == ADV_TYPE_NAME)
    requires |u| <= 1 && (|u| == 1 ==> u[0].adType == ADV_TYPE_UUID16_COMPLETE)
    requires |a| <= 1 && (|a| == 1 ==> a[0].adType == ADV_TYPE_APPEARANCE)
    ensures ValueOf(f + n + u + a, ADV_TYPE_FLAGS) == Some(f[0].value)
    ensures ValueOf(f + n + u + a, ADV_TYPE_NAME) == (if |n| == 1 then Some(n[0].value) else None)
    ensures ValueOf(f + n + u + a, ADV_TYPE_UUID16_COMPLETE) == (if |u| == 1 then Some(u[0].value) else None)
    ensures ValueOf(f + n + u + a, ADV_TYPE_APPEARANCE) == (if |a| == 1 then Some(a[0].value) else None)
  {
    ValueOfFour(f, n, u, a, ADV_TYPE_FLAGS);
    ValueOfFour(f, n, u, a, ADV_TYPE_NAME);
    ValueOfFour(f, n, u, a, ADV_TYPE_UUID16_COMPLETE);
    ValueOfFour(f, n, u, a, ADV_TYPE_APPEARANCE);
  }

  lemma ValueOfFour(f: seq<AdRecord>, n: seq<AdRecord>, u: seq<AdRecord>, a: seq<AdRecord>, t: bv8)
    ensures ValueOf(f + n + u + a, t) ==
      if ValueOf(f, t).Some? then ValueOf(f, t)
      else if ValueOf(n, t).Some? then ValueOf(n, t)
      else if ValueOf(u, t).Some? then ValueOf(u, t)
      else ValueOf(a, t)
  {
    ValueOfAppend(f, n, t);
    ValueOfAppend(f + n, u, t);
    ValueOfAppend(f + n + u, a, t);
  }

  /** The payload built at radio start: `cls` binds to `limited_disc`, which is
      therefore truthy, so the flags byte is 0x05 rather than the default 0x06;
      the UUID16 record carries "HuGo" and the appearance 768 is `00 03`. */
  const START_PAYLOAD: Bytes :=
    [0x02, 0x01, 0x05,
     0x05, 0x09, 0x48, 0x75, 0x47, 0x6F,
     0x05, 0x03, 0x48, 0x75, 0x47, 0x6F,
     0x03, 0x19, 0x00, 0x03]

  /** The appearance 768 packs to `00 03`. */
  lemma PackThermometer()
    ensures PackI16LE(APPEARANCE_GENERIC_THERMOMETER) == Ok([0x00, 0x03])
  {
    var r := PackI16LE(APPEARANCE_GENERIC_THERMOMETER);
    assert r.Ok? && r.value[0] as int + 256 * r.value[1] as int == 768;
    NatOfByte(r.value[0]);
    NatOfByte(r.value[1]);
  }

  /** The encodings of the records the two payloads below carry. */
  lemma KnownRecords()
    ensures EncodeRecord(AdRecord(ADV_TYPE_FLAGS, [0x05])) == [0x02, 0x01, 0x05]
    ensures EncodeRecord(AdRecord(ADV_TYPE_FLAGS, [0x06])) == [0x02, 0x01, 0x06]
    ensures EncodeRecord(AdRecord(ADV_TYPE_NAME, HUGO_ASCII)) == [0x05, 0x09, 0x48, 0x75, 0x47, 0x6F]
    ensures EncodeRecord(AdRecord(ADV_TYPE_UUID16_COMPLETE, HUGO_ASCII)) == [0x05, 0x03, 0x48, 0x75, 0x47, 0x6F]
    ensures EncodeRecord(AdRecord(ADV_TYPE_APPEARANCE, [0x00, 0x03])) == [0x03, 0x19, 0x00, 0x03]
  {
    assert LengthByte(1) == 0x02;
    assert LengthByte(2) == 0x03;
    assert LengthByte(4) == 0x05;
  }

  lemma StartPayload()
    ensures AdvertisingPayload(true, false, Some(HUGO_ASCII), Some([HUGO_ASCII]), APPEARANCE_GENERIC_THERMOMETER)
            == Ok(START_PAYLOAD)
  {
    assert FlagsByte(true, false) == 0x05;
    PackThermometer();
    StartChain();
    assert HasName(Some(HUGO_ASCII)) && HasServices(Some([HUGO_ASCII]));
  }

  /** The four `_append` calls made at radio start. */
  lemma StartChain()
    ensures Append(Append(Append(Append(Ok([]), ADV_TYPE_FLAGS, Ok([0x05])),
                                 ADV_TYPE_NAME, Ok(HUGO_ASCII)),
                          ADV_TYPE_UUID16_COMPLETE, Ok(HUGO_ASCII)),
                   ADV_TYPE_APPEARANCE, Ok([0x00, 0x03]))
            == Ok(START_PAYLOAD)
  {
    KnownRecords();
    var flags := Append(Ok([]), ADV_TYPE_FLAGS, Ok([0x05]));
    assert flags == Ok([] + EncodeRecord(AdRecord(ADV_TYPE_FLAGS, [0x05])));
    var named := Append(flags, ADV_TYPE_NAME, Ok(HUGO_ASCII));
    assert named == Ok(flags.value + EncodeRecord(AdRecord(ADV_TYPE_NAME, HUGO_ASCII)));
    var listed := Append(named, ADV_TYPE_UUID16_COMPLETE, Ok(HUGO_ASCII));
    assert listed == Ok(named.value + EncodeRecord(AdRecord(ADV_TYPE_UUID16_COMPLETE, HUGO_ASCII)));
    var r := Append(listed, ADV_TYPE_APPEARANCE, Ok([0x00, 0x03]));
    assert r == Ok(listed.value + EncodeRecord(AdRecord(ADV_TYPE_APPEARANCE, [0x00, 0x03])));
    assert r.value == START_PAYLOAD;
  }

  /** With the default arguments, name "HuGo", no services and appearance 768
      the payload is 13 bytes with flags 0x06. */
  lemma DefaultArgumentsPayload()
    ensures AdvertisingPayload<Bytes>(false, false, Some(HUGO_ASCII), None, APPEARANCE_GENERIC_THERMOMETER)
         == Ok([0x02, 0x01, 0x06, 0x05, 0x09, 0x48, 0x75, 0x47, 0x6F, 0x03, 0x19, 0x00, 0x03])
  {
    assert FlagsByte(false, false) == 0x06;
    PackThermometer();
    DefaultChain();
    assert HasName(Some(HUGO_ASCII)) && !HasServices<Bytes>(None);
  }

  /** The three `_append` calls made with the default arguments. */
  lemma DefaultChain()
    ensures Append(Append(Append(Ok([]), ADV_TYPE_FLAGS, Ok([0x06])),
                          ADV_TYPE_NAME, Ok(HUGO_ASCII)),
                   ADV_TYPE_APPEARANCE, Ok([0x00, 0x03]))
         == Ok([0x02, 0x01, 0x06, 0x05, 0x09, 0x48, 0x75, 0x47, 0x6F, 0x03, 0x19, 0x00, 0x03])
  {
    KnownRecords();
    var flags := Append(Ok([]), ADV_TYPE_FLAGS, Ok([0x06]));
    assert flags == Ok([] + EncodeRecord(AdRecord(ADV_TYPE_FLAGS, [0x06])));
    var named := Append(flags, ADV_TYPE_NAME, Ok(HUGO_ASCII));
    assert named == Ok(flags.value + EncodeRecord(AdRecord(ADV_TYPE_NAME, HUGO_ASCII)));
    var r := Append(named, ADV_TYPE_APPEARANCE, Ok([0x00, 0x03]));
    assert r == Ok(named.value + EncodeRecord(AdRecord(ADV_TYPE_APPEARANCE, [0x00, 0x03])));
    assert r.value == [0x02, 0x01, 0x06, 0x05, 0x09, 0x48, 0x75, 0x47, 0x6F, 0x03, 0x19, 0x00, 0x03];
  }
}

=== FILE: ble.dfy ===
/** The BLE peripheral core of `Ble` (tools/devel/___ble.py): the power-save
    countdown, the connection set, MTU exchange with retries, routing of GATT
    writes, and the log/disconnect fan-out. The class-level state of `Ble`
    is one immutable `State`; every class method is a pure step from a state
    to a new state plus the trace of calls it makes into the radio stack, the
    planner, power management, the shell and the virtual keyboard. What those
    collaborators answer is passed in as an oracle. */
module Ble {
  import opened Wrappers
  import AdvPayload

  type ConnHandle = int
  type AttrHandle = int

  const IRQ_CENTRAL_CONNECT: int := 1
  const IRQ_CENTRAL_DISCONNECT: int := 2
  const IRQ_GATTS_WRITE: int := 3
  const IRQ_GATTS_INDICATE_DONE: int := 20
  const IRQ_MTU_EXCHANGED: int := 21

  /** Size of the radio receive buffer configured at start. */
  const BMS_MTU: nat := 256
  /** Default `interval_us` of `_advertise`. */
  const ADVERTISE_INTERVAL_US: nat := 100000
  /** Attempts at `gattc_exchange_mtu` per connection. */
  const MTU_ATTEMPTS: nat := 3

  /** The value handles `gatts_register_services` returns for the three characteristics. */
  datatype Handles = Handles(shellCommand: AttrHandle, log: AttrHandle, keyboard: AttrHandle)

  /** `power_plan.ble_plan`: the three durations, in scheduler ticks. */
  datatype BlePlan = BlePlan(initialTimeUp: nat, runningTimeUp: nat, timeDown: nat)

  /** The class attributes of `Ble`. `timeToPowerSave` is `_time_to_power_save`:
      None, 0 (power save blocked while a link is up) or a positive countdown.
      `radio` holds the characteristic handles once `_start_ble` has run. */
  datatype State = State(
    plan: BlePlan,
    timeToPowerSave: Option<nat>,
    connections: set<ConnHandle>,
    radio: Option<Handles>,
    payload: Bytes,
    shellMade: bool,
    keyboardMade: bool)

  /** Calls the core makes into its collaborators, in the order it makes them. */
  datatype Effect =
    | RegisterPlanCallback                         // PowerMgmt.register_management_change_callback
    | AddBleLogger                                 // Logging.add_logger(BleLogger())
    | PlanTick(wakeUp: bool)                       // Planner.plan(_check_time_to_power_save, wake_up)
    | PostponeTick(delay: nat, wakeUp: bool)       // Planner.postpone(delay, _check_time_to_power_save, wake_up)
    | BlockPowerSave
    | UnblockPowerSave
    | RadioCreate                                  // bluetooth.BLE()
    | RadioActive(on: bool)
    | RadioConfigRxBuf(size: nat)
    | RadioRegisterIrq
    | RegisterServices
    | GapAdvertise(intervalUs: nat, advData: Bytes)
    | GapDisconnect(conn: ConnHandle)
    | ExchangeMtu(conn: ConnHandle)
    | GattsRead(handle: AttrHandle)
    | GattsNotify(conn: ConnHandle, handle: AttrHandle, data: Bytes)
    | ShellCreate
    | ShellCommandRequest(data: Bytes)
    | KeyboardCreate
    | KeyboardInput(data: Bytes)

  /** Exceptions the core raises: `set.remove` of a handle that is not
      tracked raises KeyError; `_connections` is not a declared class
      attribute, so reading it before `_start_ble` has run raises
      AttributeError. */
  datatype Fault = KeyError(conn: ConnHandle) | AttributeError

  /** Result of one class-method call: the new attributes, the calls made,
      and the exception it raised, if any. */
  datatype Step = Step(state: State, effects: seq<Effect>, fault: Option<Fault>)

  /** One radio event: its code and the fields of `data` the handler unpacks. */
  datatype Irq = Irq(code: int, conn: ConnHandle, valueHandle: AttrHandle)

  /** What the collaborators answer during one event: the outcome of each
      `gattc_exchange_mtu` attempt (a missing entry is a failure), the bytes
      `gatts_read` returns, and what `Shell.command_request` returns. */
  datatype IrqOracle = IrqOracle(mtuOk: seq<bool>, written: Bytes, shellReply: Option<Bytes>)

  // ---------------------------------------------------------------------------
  // Enumerating the connection set

  lemma LeastExists(s: set<ConnHandle>)
    requires s != {}
    ensures exists m :: m in s && forall y | y in s :: m <= y
    decreases |s|
  {
    assert (forall z :: z !in s) ==> s == {};
    var x :| x in s;
    if s == {x} {
      assert forall y | y in s :: x <= y;
    } else {
      var rest := s - {x};
      assert |rest| == |s| - 1;
      LeastExists(rest);
      var m :| m in rest && forall y | y in rest :: m <= y;
      var least := if x < m then x else m;
      forall y | y in s
        ensures least <= y
      {
        if y != x {
          assert y in rest;
        }
      }
      assert least in s;
    }
  }

  /** The least handle of a non-empty set. */
  function Least(s: set<ConnHandle>): (m: ConnHandle)
    requires s != {}
    ensures m in s && forall y | y in s :: m <= y
  {
    LeastExists(s);
    var m :| m in s && forall y | y in s :: m <= y;
    m
  }

  /** The handles of a set, each once, in ascending order. The iteration order
      of a Python set is unspecified; every property below holds for any order. */
  function Enumerate(s: set<ConnHandle>): (r: seq<ConnHandle>)
    ensures |r| == |s|
    ensures forall x :: x in r <==> x in s
    ensures forall i, j | 0 <= i < j < |r| :: r[i] < r[j]
    decreases |s|
  {
    if s == {} then []
    else
      var m := Least(s);
      var tail := Enumerate(s - {m});
      EnumerateCons(m, tail, s);
      [m] + tail
  }

  lemma EnumerateCons(m: ConnHandle, tail: seq<ConnHandle>, s: set<ConnHandle>)
    requires m in s && forall y | y in s :: m <= y
    requires |tail| == |s - {m}|
    requires forall x :: x in tail <==> x in s - {m}
    requires forall i, j | 0 <= i < j < |tail| :: tail[i] < tail[j]
    ensures |[m] + tail| == |s|
    ensures forall x :: x in [m] + tail <==> x in s
    ensures forall i, j | 0 <= i < j < |[m] + tail| :: ([m] + tail)[i] < ([m] + tail)[j]
  {
    var r := [m] + tail;
    forall i, j | 0 <= i < j < |r|
      ensures r[i] < r[j]
    {
      if i == 0 {
        assert r[j] == tail[j - 1] && r[j] in s - {m};
      } else {
        assert r[i] == tail[i - 1] && r[j] == tail[j - 1];
      }
    }
  }

  /** `disconnect()`: one `gap_disconnect` per tracked handle. */
  function DisconnectEffects(conns: set<ConnHandle>): (effects: seq<Effect>)
    ensures |effects| == |conns|
    ensures forall e | e in effects :: e.GapDisconnect? && e.conn in conns
    ensures forall c | c in conns :: Count(effects, GapDisconnect(c)) == 1
  {
    var cs := Enumerate(conns);
    var effects := seq(|cs|, i requires 0 <= i < |cs| => GapDisconnect(cs[i]));
    DisconnectFanOut(cs, effects);
    effects
  }

  lemma DisconnectFanOut(cs: seq<ConnHandle>, effects: seq<Effect>)
    requires forall i, j | 0 <= i < j < |cs| :: cs[i] < cs[j]
    requires |effects| == |cs| && forall i | 0 <= i < |cs| :: effects[i] == GapDisconnect(cs[i])
    ensures forall e | e in effects :: e.GapDisconnect? && e.conn in cs
    ensures forall c | c in cs :: Count(effects, GapDisconnect(c)) == 1
  {
    assert forall i, j | 0 <= i < j < |effects| :: effects[i] != effects[j] by {
      forall i, j | 0 <= i < j < |effects|
        ensures effects[i] != effects[j]
      {
        assert cs[i] < cs[j];
      }
    }
    forall c | c in cs
      ensures Count(effects, GapDisconnect(c)) == 1
    {
      var i :| 0 <= i < |cs| && cs[i] == c;
      assert effects[i] == GapDisconnect(c);
      DistinctCount(effects, GapDisconnect(c));
    }
  }

  /** `notify_log(message)`: one `gatts_notify` on the log handle per tracked handle. */
  function NotifyEffects(conns: set<ConnHandle>, logHandle: AttrHandle, message: Bytes): (effects: seq<Effect>)
    ensures |effects| == |conns|
    ensures forall e | e in effects :: e.GattsNotify? && e.conn in conns && e.handle == logHandle && e.data == message
    ensures forall c | c in conns :: Count(effects, GattsNotify(c, logHandle, message)) == 1
  {
    var cs := Enumerate(conns);
    var effects := seq(|cs|, i requires 0 <= i < |cs| => GattsNotify(cs[i], logHandle, message));
    NotifyFanOut(cs, logHandle, message, effects);
    effects
  }

  lemma NotifyFanOut(cs: seq<ConnHandle>, logHandle: AttrHandle, message: Bytes, effects: seq<Effect>)
    requires forall i, j | 0 <= i < j < |cs| :: cs[i] < cs[j]
    requires |effects| == |cs| && forall i | 0 <= i < |cs| :: effects[i] == GattsNotify(cs[i], logHandle, message)
    ensures forall e | e in effects :: e.GattsNotify? && e.conn in cs && e.handle == logHandle && e.data == message
    ensures forall c | c in cs :: Count(effects, GattsNotify(c, logHandle, message)) == 1
  {
    assert forall i, j | 0 <= i < j < |effects| :: effects[i] != effects[j] by {
      forall i, j | 0 <= i < j < |effects|
        ensures effects[i] != effects[j]
      {
        assert cs[i] < cs[j];
      }
    }
    forall c | c in cs
      ensures Count(effects, GattsNotify(c, logHandle, message)) == 1
    {
      var i :| 0 <= i < |cs| && cs[i] == c;
      assert effects[i] == GattsNotify(c, logHandle, message);
      DistinctCount(effects, GattsNotify(c, logHandle, message));
    }
  }

  // ---------------------------------------------------------------------------
  // Lifecycle and the power-save countdown

  /** `_set_power_save_timeouts(power_plan)`: copies the three durations and
      restarts the countdown from `initial_time_up` unless it is exactly 0
      (a link is up); an unset countdown is restarted too. */
  function SetPowerSaveTimeouts(s: State, plan: BlePlan): (r: State)
    ensures r.plan == plan
    ensures r.timeToPowerSave == Some(0) <==> s.timeToPowerSave == Some(0) || (s.timeToPowerSave != Some(0) && plan.initialTimeUp == 0)
    ensures s.timeToPowerSave != Some(0) ==> r.timeToPowerSave == Some(plan.initialTimeUp)
    ensures r.(plan := s.plan, timeToPowerSave := s.timeToPowerSave) == s
  {
    var s1 := s.(plan := plan);
    if s.timeToPowerSave != Some(0) then s1.(timeToPowerSave := Some(plan.initialTimeUp)) else s1
  }

  /** `Ble.init()`, starting from the class attributes as declared (all None,
      no connection, no radio): subscribes to power-plan changes, seeds the
      durations from the current plan, plans the first tick with `wake_up=True`
      and installs the BLE log sink. */
  function Init(plan: BlePlan): (r: Step)
    ensures r.state.plan == plan
    ensures r.state.timeToPowerSave == Some(plan.initialTimeUp)
    ensures r.state.connections == {} && r.state.radio.None?
    ensures !r.state.shellMade && !r.state.keyboardMade
    ensures r.effects == [RegisterPlanCallback, PlanTick(true), AddBleLogger]
    ensures r.fault.None?
  {
    var declared := State(plan, None, {}, None, [], false, false);
    Step(SetPowerSaveTimeouts(declared, plan), [RegisterPlanCallback, PlanTick(true), AddBleLogger], None)
  }

  /** `_start_ble()`: a fresh radio, activated, its receive buffer configured,
      the handler installed, the service registered (yielding `registered`),
      the connection set emptied, the payload rebuilt and advertising started. */
  function StartBle(s: State, registered: Handles): (r: Step)
    ensures r.state == s.(radio := Some(registered), connections := {}, payload := AdvPayload.START_PAYLOAD)
    ensures r.effects == [RadioCreate, RadioActive(true), RadioConfigRxBuf(BMS_MTU), RadioRegisterIrq,
                          RegisterServices, GapAdvertise(ADVERTISE_INTERVAL_US, AdvPayload.START_PAYLOAD)]
    ensures r.fault.None?
  {
    var payload := AdvPayload.START_PAYLOAD;
    Step(s.(radio := Some(registered), connections := {}, payload := payload),
         [RadioCreate, RadioActive(true), RadioConfigRxBuf(BMS_MTU), RadioRegisterIrq,
          RegisterServices, GapAdvertise(ADVERTISE_INTERVAL_US, payload)],
         None)
  }

  /** `_stop_ble()`: disconnects every tracked link, then deactivates the
      radio. The connection set itself is left as it is. */
  function StopBle(conns: set<ConnHandle>): (effects: seq<Effect>)
    ensures |effects| == |conns| + 1
    ensures effects[|effects| - 1] == RadioActive(false)
    ensures forall c | c in conns :: Count(effects, GapDisconnect(c)) == 1
    ensures forall e | e in effects :: e == RadioActive(false) || (e.GapDisconnect? && e.conn in conns)
  {
    var d := DisconnectEffects(conns);
    RadioOffAppended(d, conns);
    d + [RadioActive(false)]
  }

  lemma RadioOffAppended(d: seq<Effect>, conns: set<ConnHandle>)
    requires forall c | c in conns :: Count(d, GapDisconnect(c)) == 1
    requires forall e | e in d :: e.GapDisconnect? && e.conn in conns
    ensures forall c | c in conns :: Count(d + [RadioActive(false)], GapDisconnect(c)) == 1
    ensures forall e | e in d + [RadioActive(false)] :: e == RadioActive(false) || (e.GapDisconnect? && e.conn in conns)
  {
    forall c | c in conns
      ensures Count(d + [RadioActive(false)], GapDisconnect(c)) == 1
    {
      CountAppend(d, [RadioActive(false)], GapDisconnect(c));
    }
  }

  /** `_check_time_to_power_save(wake_up)`, the scheduler tick. A wake tick
      blocks power save, arms the countdown with `running_time_up` when it is
      None or 0, starts the radio and comes back after 1 tick. Otherwise a
      positive countdown goes down by 1; reaching 0 stops the radio, unblocks
      power save and schedules a wake tick after `time_down`; if the radio
      was never started, stopping it raises before power save is unblocked. */
  function CheckTimeToPowerSave(s: State, wakeUp: bool, registered: Handles): (r: Step)
    ensures r.fault.Some? <==> !wakeUp && s.timeToPowerSave == Some(1) && s.radio.None?
    ensures r.state.shellMade == s.shellMade && r.state.keyboardMade == s.keyboardMade
    ensures ShellCreate !in r.effects && KeyboardCreate !in r.effects
  {
    if wakeUp then WakeTick(s, registered) else CountdownTick(s)
  }

  /** The wake branch of the tick. */
  function WakeTick(s: State, registered: Handles): (r: Step)
    ensures |r.effects| > 1
    ensures r.effects[0] == BlockPowerSave
    ensures r.effects[|r.effects| - 1] == PostponeTick(1, false)
    ensures r.state.connections == {}
    ensures r.state.radio == Some(registered)
    ensures r.state.timeToPowerSave ==
      (if s.timeToPowerSave.None? || s.timeToPowerSave == Some(0) then Some(s.plan.runningTimeUp) else s.timeToPowerSave)
    ensures r.state.(timeToPowerSave := s.timeToPowerSave, connections := s.connections, radio := s.radio, payload := s.payload) == s
    ensures ShellCreate !in r.effects && KeyboardCreate !in r.effects
    ensures r.effects == [BlockPowerSave] + StartBle(s, registered).effects + [PostponeTick(1, false)]
    ensures r.state.payload == AdvPayload.START_PAYLOAD
    ensures r.fault.None?
  {
    var armed := if s.timeToPowerSave.None? || s.timeToPowerSave == Some(0)
                 then s.(timeToPowerSave := Some(s.plan.runningTimeUp)) else s;
    var started := StartBle(armed, registered);
    var effects := [BlockPowerSave] + started.effects + [PostponeTick(1, false)];
    WakeEffectsKinds(started.effects, effects);
    Step(started.state, effects, None)
  }

  lemma WakeEffectsKinds(start: seq<Effect>, effects: seq<Effect>)
    requires |start| == 6 && start[0].RadioCreate? && start[1].RadioActive? && start[2].RadioConfigRxBuf?
    requires start[3].RadioRegisterIrq? && start[4].RegisterServices? && start[5].GapAdvertise?
    requires effects == [BlockPowerSave] + start + [PostponeTick(1, false)]
    ensures ShellCreate !in effects && KeyboardCreate !in effects
  {
    assert forall i | 0 <= i < |effects| :: !effects[i].ShellCreate? && !effects[i].KeyboardCreate?;
  }

  /** The countdown branch of the tick. */
  function CountdownTick(s: State): (r: Step)
    ensures s.timeToPowerSave.Some? && s.timeToPowerSave.value > 1 ==>
      r == Step(s.(timeToPowerSave := Some(s.timeToPowerSave.value - 1)), [PostponeTick(1, false)], None)
    ensures s.timeToPowerSave == Some(1) && s.radio.Some? ==>
      r == Step(s.(timeToPowerSave := Some(0)), StopBle(s.connections) + [UnblockPowerSave, PostponeTick(s.plan.timeDown, true)], None)
    ensures s.timeToPowerSave == Some(1) && s.radio.None? ==>
      r == Step(s.(timeToPowerSave := Some(0)), [], Some(AttributeError))
    ensures s.timeToPowerSave.None? || s.timeToPowerSave == Some(0) ==>
      r == Step(s, [PostponeTick(1, false)], None)
    ensures ShellCreate !in r.effects && KeyboardCreate !in r.effects
  {
    if s.timeToPowerSave.Some? && s.timeToPowerSave.value != 0 then
      var left := s.timeToPowerSave.value - 1;
      var s1 := s.(timeToPowerSave := Some(left));
      if left == 0 && s.radio.None? then
        Step(s1, [], Some(AttributeError))
      else if left == 0 then
        var effects := StopBle(s.connections) + [UnblockPowerSave, PostponeTick(s.plan.timeDown, true)];
        StopEffectsKinds(s.connections, s.plan.timeDown);
        Step(s1, effects, None)
      else
        Step(s1, [PostponeTick(1, false)], None)
    else
      Step(s, [PostponeTick(1, false)], None)
  }

  /** Stopping the radio and what follows it constructs nothing. */
  lemma StopEffectsKinds(conns: set<ConnHandle>, timeDown: nat)
    ensures var effects := StopBle(conns) + [UnblockPowerSave, PostponeTick(timeDown, true)];
      ShellCreate !in effects && KeyboardCreate !in effects
  {
    var stop := StopBle(conns);
    var effects := stop + [UnblockPowerSave, PostponeTick(timeDown, true)];
    forall i | 0 <= i < |effects|
      ensures !effects[i].ShellCreate? && !effects[i].KeyboardCreate?
    {
      if i < |stop| {
        assert effects[i] == stop[i] && stop[i] in stop;
      }
    }
  }

  // ---------------------------------------------------------------------------
  // Lazily constructed collaborators

  /** `get_shell()`: constructs the shell on first use only. */
  function GetShell(s: State): (r: Step)
    ensures r.state == s.(shellMade := true)
    ensures r.effects == if s.shellMade then [] else [ShellCreate]
    ensures r.fault.None?
  {
    if s.shellMade then Step(s, [], None) else Step(s.(shellMade := true), [ShellCreate], None)
  }

  /** `get_keyboard()`: constructs the virtual keyboard on first use only. */
  function GetKeyboard(s: State): (r: Step)
    ensures r.state == s.(keyboardMade := true)
    ensures r.effects == if s.keyboardMade then [] else [KeyboardCreate]
    ensures r.fault.None?
  {
    if s.keyboardMade then Step(s, [], None) else Step(s.(keyboardMade := true), [KeyboardCreate], None)
  }

  // ---------------------------------------------------------------------------
  // The event handler

  /** Whether MTU attempt `j` succeeds. */
  predicate MtuOk(oks: seq<bool>, j: nat) {
    j < |oks| && oks[j]
  }

  /** The retry loop around `gattc_exchange_mtu`, from attempt `i` on: the
      number of attempts made in total and whether one succeeded. */
  function ExchangeMtuLoop(oks: seq<bool>, i: nat): (r: (nat, bool))
    requires i <= MTU_ATTEMPTS
    ensures i <= r.0 <= MTU_ATTEMPTS
    ensures r.1 <==> exists j :: i <= j < MTU_ATTEMPTS && MtuOk(oks, j)
    ensures r.1 ==> i < r.0 && MtuOk(oks, r.0 - 1) && forall j :: i <= j < r.0 - 1 ==> !MtuOk(oks, j)
    ensures !r.1 ==> r.0 == MTU_ATTEMPTS
    decreases MTU_ATTEMPTS - i
  {
    if i == MTU_ATTEMPTS then (i, false)
    else if MtuOk(oks, i) then (i + 1, true)
    else ExchangeMtuLoop(oks, i + 1)
  }

  /** `n` calls of `gattc_exchange_mtu` on `conn`. */
  function MtuAttempts(conn: ConnHandle, n: nat): (tries: seq<Effect>)
    ensures |tries| == n && forall i | 0 <= i < n :: tries[i] == ExchangeMtu(conn)
  {
    if n == 0 then [] else MtuAttempts(conn, n - 1) + [ExchangeMtu(conn)]
  }

  /** Central connect: the countdown is set to 0 before anything else; the
      handle joins the set iff one of at most three MTU exchanges succeeds,
      and is otherwise disconnected once. */
  function OnConnect(s: State, conn: ConnHandle, oks: seq<bool>): (r: Step)
    ensures r.fault.None?
    ensures r.state.timeToPowerSave == Some(0)
    ensures var attempts := ExchangeMtuLoop(oks, 0).0;
      && 1 <= attempts <= MTU_ATTEMPTS
      && attempts <= |r.effects|
      && forall i | 0 <= i < attempts :: r.effects[i] == ExchangeMtu(conn)
    ensures (exists j :: 0 <= j < MTU_ATTEMPTS && MtuOk(oks, j)) ==>
      && r.state.connections == s.connections + {conn}
      && Count(r.effects, GapDisconnect(conn)) == 0
    ensures ExchangeMtuLoop(oks, 0).1 ==> |r.effects| == ExchangeMtuLoop(oks, 0).0
    ensures (forall j :: 0 <= j < MTU_ATTEMPTS ==> !MtuOk(oks, j)) ==>
      && r.state.connections == s.connections
      && |r.effects| == MTU_ATTEMPTS + 1
      && r.effects[MTU_ATTEMPTS] == GapDisconnect(conn)
      && Count(r.effects, GapDisconnect(conn)) == 1
    ensures forall e | e in r.effects :: e == ExchangeMtu(conn) || e == GapDisconnect(conn)
    ensures r.state.(timeToPowerSave := s.timeToPowerSave, connections := s.connections) == s
  {
    var blocked := s.(timeToPowerSave := Some(0));
    var (attempts, connected) := ExchangeMtuLoop(oks, 0);
    var tries := MtuAttempts(conn, attempts);
    MtuTrace(conn, tries);
    if connected then
      Step(blocked.(connections := s.connections + {conn}), tries, None)
    else
      Step(blocked, tries + [GapDisconnect(conn)], None)
  }

  /** The exchange attempts never disconnect; the one disconnect after them is counted once. */
  lemma MtuTrace(conn: ConnHandle, tries: seq<Effect>)
    requires forall i | 0 <= i < |tries| :: tries[i] == ExchangeMtu(conn)
    ensures Count(tries, GapDisconnect(conn)) == 0
    ensures Count(tries + [GapDisconnect(conn)], GapDisconnect(conn)) == 1
    ensures forall e | e in tries + [GapDisconnect(conn)] :: e == ExchangeMtu(conn) || e == GapDisconnect(conn)
  {
    assert GapDisconnect(conn) !in tries;
    CountAppend(tries, [GapDisconnect(conn)], GapDisconnect(conn));
  }

  /** Central disconnect: removes the handle (KeyError when it is not
      tracked), restarts the countdown from `running_time_up` iff no link is
      left, and advertises again. */
  function OnDisconnect(s: State, conn: ConnHandle): (r: Step)
    ensures conn !in s.connections <==> r.fault == Some(KeyError(conn))
    ensures conn !in s.connections ==> r.state == s && r.effects == []
    ensures conn in s.connections ==>
      && r.state.connections == s.connections - {conn}
      && r.state.timeToPowerSave == (if r.state.connections == {} then Some(s.plan.runningTimeUp) else s.timeToPowerSave)
      && r.effects == [GapAdvertise(ADVERTISE_INTERVAL_US, s.payload)]
    ensures r.state.(connections := s.connections, timeToPowerSave := s.timeToPowerSave) == s
  {
    if conn !in s.connections then Step(s, [], Some(KeyError(conn)))
    else
      var rest := s.connections - {conn};
      var s1 := s.(connections := rest);
      var s2 := if rest == {} then s1.(timeToPowerSave := Some(s.plan.runningTimeUp)) else s1;
      Step(s2, [GapAdvertise(ADVERTISE_INTERVAL_US, s.payload)], None)
  }

  /** Central disconnect with the removal made tolerant (`discard` in place
      of `remove`): a handle that was never tracked, such as one dropped
      after its MTU exchanges failed, no longer aborts the handler, so the
      countdown is restarted when no link is left and advertising resumes.
      On a tracked handle it is the as-written handler. */
  function OnDisconnectDiscarding(s: State, conn: ConnHandle): (r: Step)
    ensures r.fault.None?
    ensures conn in s.connections ==> r == OnDisconnect(s, conn)
    ensures r.state.connections == s.connections - {conn}
    ensures r.state.connections == {} ==> r.state.timeToPowerSave == Some(s.plan.runningTimeUp)
    ensures r.state.connections != {} ==> r.state.timeToPowerSave == s.timeToPowerSave
    ensures r.effects == [GapAdvertise(ADVERTISE_INTERVAL_US, s.payload)]
    ensures r.state.(connections := s.connections, timeToPowerSave := s.timeToPowerSave) == s
  {
    if conn in s.connections then OnDisconnect(s, conn)
    else
      var s1 := if s.connections == {} then s.(timeToPowerSave := Some(s.plan.runningTimeUp)) else s;
      Step(s1, [GapAdvertise(ADVERTISE_INTERVAL_US, s.payload)], None)
  }

  /** The shell branch of a GATT write: the shell is obtained (built on first
      use), runs the written bytes as a command, and its reply, when there is
      one, is notified back on the same connection and handle. */
  function ShellWrite(s: State, conn: ConnHandle, valueHandle: AttrHandle, o: IrqOracle): (r: Step)
    ensures r.state == s.(shellMade := true) && r.fault.None?
    ensures ShellCommandRequest(o.written) in r.effects
    ensures forall e | e in r.effects ::
      e.ShellCreate? || e == ShellCommandRequest(o.written) || (o.shellReply.Some? && e == GattsNotify(conn, valueHandle, o.shellReply.value))
    ensures o.shellReply.Some? ==> Count(r.effects, GattsNotify(conn, valueHandle, o.shellReply.value)) == 1
    ensures Count(r.effects, ShellCreate) == if s.shellMade then 0 else 1
  {
    var made := GetShell(s);
    var reply := if o.shellReply.Some? then [GattsNotify(conn, valueHandle, o.shellReply.value)] else [];
    ShellTrace(made.effects, ShellCommandRequest(o.written), reply);
    Step(made.state, made.effects + [ShellCommandRequest(o.written)] + reply, None)
  }

  /** The calls of the shell branch: at most one construction, the command,
      and at most one notification. */
  lemma ShellTrace(create: seq<Effect>, request: Effect, reply: seq<Effect>)
    requires create == [] || create == [ShellCreate]
    requires request.ShellCommandRequest?
    requires |reply| <= 1 && (|reply| == 1 ==> reply[0].GattsNotify?)
    ensures request in create + [request] + reply
    ensures forall e | e in create + [request] + reply :: e.ShellCreate? || e == request || e in reply
    ensures Count(create + [request] + reply, ShellCreate) == |create|
    ensures |reply| == 1 ==> Count(create + [request] + reply, reply[0]) == 1
  {
    var t := create + [request] + reply;
    CountAppend(create + [request], reply, ShellCreate);
    CountAppend(create, [request], ShellCreate);
    if |reply| == 1 {
      CountAppend(create + [request], reply, reply[0]);
      assert reply[0] !in create + [request];
    }
  }

  /** The keyboard branch of a GATT write: the keyboard is obtained (built on
      first use) and receives the written bytes unchanged. */
  function KeyboardWrite(s: State, o: IrqOracle): (r: Step)
    ensures r.state == s.(keyboardMade := true) && r.fault.None?
    ensures KeyboardInput(o.written) in r.effects
    ensures forall e | e in r.effects :: e.KeyboardCreate? || e == KeyboardInput(o.written)
    ensures Count(r.effects, KeyboardCreate) == if s.keyboardMade then 0 else 1
  {
    var made := GetKeyboard(s);
    CountAppend(made.effects, [KeyboardInput(o.written)], KeyboardCreate);
    Step(made.state, made.effects + [KeyboardInput(o.written)], None)
  }

  /** GATT write: reads the written value, then hands it to the shell when
      written to the shell-command handle and to the keyboard when written to
      the keyboard handle; the two tests are independent. */
  function OnWrite(s: State, h: Handles, conn: ConnHandle, valueHandle: AttrHandle, o: IrqOracle): (r: Step)
    ensures r.fault.None?
    ensures r.state.(shellMade := s.shellMade, keyboardMade := s.keyboardMade) == s
    ensures r.state.shellMade == (s.shellMade || valueHandle == h.shellCommand)
    ensures r.state.keyboardMade == (s.keyboardMade || valueHandle == h.keyboard)
    ensures |r.effects| > 0 && r.effects[0] == GattsRead(valueHandle)
    ensures Count(r.effects, ShellCreate) == if !s.shellMade && r.state.shellMade then 1 else 0
    ensures Count(r.effects, KeyboardCreate) == if !s.keyboardMade && r.state.keyboardMade then 1 else 0
  {
    var shellPart := ShellPart(s, h, conn, valueHandle, o);
    var keyboardPart := KeyboardPart(shellPart.state, h, valueHandle, o);
    WriteCreateCount(valueHandle, shellPart.effects, keyboardPart.effects, ShellCreate);
    WriteCreateCount(valueHandle, shellPart.effects, keyboardPart.effects, KeyboardCreate);
    assert Count([GattsRead(valueHandle)], ShellCreate) == 0 && Count([GattsRead(valueHandle)], KeyboardCreate) == 0;
    Step(keyboardPart.state, [GattsRead(valueHandle)] + shellPart.effects + keyboardPart.effects, None)
  }

  function ShellPart(s: State, h: Handles, conn: ConnHandle, valueHandle: AttrHandle, o: IrqOracle): (r: Step)
    ensures valueHandle != h.shellCommand ==> r == Step(s, [], None)
    ensures valueHandle == h.shellCommand ==> r == ShellWrite(s, conn, valueHandle, o)
    ensures r.state == s.(shellMade := r.state.shellMade)
    ensures r.state.shellMade == (s.shellMade || valueHandle == h.shellCommand)
    ensures KeyboardCreate !in r.effects
    ensures Count(r.effects, ShellCreate) == if !s.shellMade && valueHandle == h.shellCommand then 1 else 0
  {
    if valueHandle == h.shellCommand then ShellWrite(s, conn, valueHandle, o) else Step(s, [], None)
  }

  function KeyboardPart(s: State, h: Handles, valueHandle: AttrHandle, o: IrqOracle): (r: Step)
    ensures valueHandle != h.keyboard ==> r == Step(s, [], None)
    ensures valueHandle == h.keyboard ==> r == KeyboardWrite(s, o)
    ensures r.state == s.(keyboardMade := r.state.keyboardMade)
    ensures r.state.keyboardMade == (s.keyboardMade || valueHandle == h.keyboard)
    ensures ShellCreate !in r.effects
    ensures Count(r.effects, KeyboardCreate) == if !s.keyboardMade && valueHandle == h.keyboard then 1 else 0
  {
    if valueHandle == h.keyboard then KeyboardWrite(s, o) else Step(s, [], None)
  }

  /** Where a GATT write goes: the shell sees the written bytes iff they were
      written to the shell-command handle, a reply is notified (once, on the
      writing connection and handle) iff the shell returned one, and the
      keyboard sees the bytes unchanged iff they were written to its handle. */
  lemma WriteRouting(s: State, h: Handles, conn: ConnHandle, valueHandle: AttrHandle, o: IrqOracle)
    ensures var r := OnWrite(s, h, conn, valueHandle, o);
      && ((ShellCommandRequest(o.written) in r.effects) <==> valueHandle == h.shellCommand)
      && ((exists d :: GattsNotify(conn, valueHandle, d) in r.effects) <==> valueHandle == h.shellCommand && o.shellReply.Some?)
      && (valueHandle == h.shellCommand && o.shellReply.Some? ==>
            Count(r.effects, GattsNotify(conn, valueHandle, o.shellReply.value)) == 1)
      && ((KeyboardInput(o.written) in r.effects) <==> valueHandle == h.keyboard)
      && (forall e | e in r.effects :: e.GattsNotify? ==> e.conn == conn && e.handle == valueHandle && Some(e.data) == o.shellReply)
      && (forall e | e in r.effects :: e.KeyboardInput? ==> e.data == o.written)
  {
    var shellPart := ShellPart(s, h, conn, valueHandle, o);
    var keyboardPart := KeyboardPart(shellPart.state, h, valueHandle, o);
    WriteNotifyCount(conn, valueHandle, o, shellPart.effects, keyboardPart.effects);
    WriteEffectsShape(conn, valueHandle, o, shellPart.effects, keyboardPart.effects);
    ShellRouting(s, h, conn, valueHandle, o);
    KeyboardRouting(shellPart.state, h, valueHandle, o);
  }

  lemma ShellRouting(s: State, h: Handles, conn: ConnHandle, valueHandle: AttrHandle, o: IrqOracle)
    ensures var p := ShellPart(s, h, conn, valueHandle, o);
      && ((ShellCommandRequest(o.written) in p.effects) <==> valueHandle == h.shellCommand)
      && ((exists d :: GattsNotify(conn, valueHandle, d) in p.effects) <==> valueHandle == h.shellCommand && o.shellReply.Some?)
  {
    var p := ShellPart(s, h, conn, valueHandle, o);
    if valueHandle == h.shellCommand && o.shellReply.Some? {
      assert GattsNotify(conn, valueHandle, o.shellReply.value) in p.effects;
    }
  }

  lemma KeyboardRouting(s: State, h: Handles, valueHandle: AttrHandle, o: IrqOracle)
    ensures (KeyboardInput(o.written) in KeyboardPart(s, h, valueHandle, o).effects) <==> valueHandle == h.keyboard
  {
  }

  lemma WriteEffectsShape(conn: ConnHandle, valueHandle: AttrHandle, o: IrqOracle, shell: seq<Effect>, keyboard: seq<Effect>)
    requires forall e | e in shell ::
      e.ShellCreate? || e == ShellCommandRequest(o.written) || (o.shellReply.Some? && e == GattsNotify(conn, valueHandle, o.shellReply.value))
    requires forall e | e in keyboard :: e.KeyboardCreate? || e == KeyboardInput(o.written)
    ensures forall e | e in [GattsRead(valueHandle)] + shell + keyboard ::
      e.GattsNotify? ==> e.conn == conn && e.handle == valueHandle && Some(e.data) == o.shellReply
    ensures forall e | e in [GattsRead(valueHandle)] + shell + keyboard :: e.KeyboardInput? ==> e.data == o.written
    ensures KeyboardInput(o.written) in [GattsRead(valueHandle)] + shell + keyboard <==> KeyboardInput(o.written) in keyboard
    ensures ShellCommandRequest(o.written) in [GattsRead(valueHandle)] + shell + keyboard <==> ShellCommandRequest(o.written) in shell
    ensures forall d :: GattsNotify(conn, valueHandle, d) in [GattsRead(valueHandle)] + shell + keyboard <==> GattsNotify(conn, valueHandle, d) in shell
  {
    var all := [GattsRead(valueHandle)] + shell + keyboard;
    forall e | e in all
      ensures e.GattsNotify? ==> e.conn == conn && e.handle == valueHandle && Some(e.data) == o.shellReply
      ensures e.KeyboardInput? ==> e.data == o.written
    {
      assert e == GattsRead(valueHandle) || e in shell || e in keyboard;
    }
  }

  lemma WriteCreateCount(valueHandle: AttrHandle, shell: seq<Effect>, keyboard: seq<Effect>, x: Effect)
    ensures Count([GattsRead(valueHandle)] + shell + keyboard, x) == Count([GattsRead(valueHandle)], x) + Count(shell, x) + Count(keyboard, x)
  {
    CountAppend([GattsRead(valueHandle)] + shell, keyboard, x);
    CountAppend([GattsRead(valueHandle)], shell, x);
  }

  lemma WriteNotifyCount(conn: ConnHandle, valueHandle: AttrHandle, o: IrqOracle, shell: seq<Effect>, keyboard: seq<Effect>)
    requires forall e | e in keyboard :: !e.GattsNotify?
    ensures o.shellReply.Some? ==>
      Count([GattsRead(valueHandle)] + shell + keyboard, GattsNotify(conn, valueHandle, o.shellReply.value))
        == Count(shell, GattsNotify(conn, valueHandle, o.shellReply.value))
  {
    if o.shellReply.Some? {
      var n := GattsNotify(conn, valueHandle, o.shellReply.value);
      CountAppend([GattsRead(valueHandle)] + shell, keyboard, n);
      CountAppend([GattsRead(valueHandle)], shell, n);
      assert n !in keyboard;
    }
  }

  /** `_irq(event, data)`: dispatch on the event code. Indicate-done and
      MTU-exchanged events are accepted and ignored; an unknown code is only
      reported on the console. Before the radio has been started no handler
      is installed, so no event reaches the core. */
  function OnIrq(s: State, e: Irq, o: IrqOracle): (r: Step)
    ensures e.code !in {IRQ_CENTRAL_CONNECT, IRQ_CENTRAL_DISCONNECT, IRQ_GATTS_WRITE} ==>
      r.state == s && r.effects == [] && r.fault.None?
    ensures s.radio.None? ==> r.state == s && r.effects == [] && r.fault.None?
    ensures r.state.plan == s.plan && r.state.radio == s.radio && r.state.payload == s.payload
  {
    match s.radio
    case None => Step(s, [], None)
    case Some(h) =>
      if e.code == IRQ_CENTRAL_CONNECT then OnConnect(s, e.conn, o.mtuOk)
      else if e.code == IRQ_CENTRAL_DISCONNECT then OnDisconnect(s, e.conn)
      else if e.code == IRQ_GATTS_INDICATE_DONE then Step(s, [], None)
      else if e.code == IRQ_GATTS_WRITE then OnWrite(s, h, e.conn, e.valueHandle, o)
      else if e.code == IRQ_MTU_EXCHANGED then Step(s, [], None)
      else Step(s, [], None)
  }

  // ---------------------------------------------------------------------------
  // Public operations

  /** `disconnect()`: asks the radio to drop every tracked link; the set
      itself changes only when the disconnect events arrive. */
  function Disconnect(s: State): (r: Step)
    ensures r.state == s
    ensures s.radio.None? <==> r.fault == Some(AttributeError)
    ensures s.radio.None? ==> r.effects == []
    ensures s.radio.Some? ==> |r.effects| == |s.connections|
    ensures forall c | c in s.connections && s.radio.Some? :: Count(r.effects, GapDisconnect(c)) == 1
    ensures forall e | e in r.effects :: e.GapDisconnect? && e.conn in s.connections
  {
    if s.radio.None? then Step(s, [], Some(AttributeError))
    else Step(s, DisconnectEffects(s.connections), None)
  }

  /** `notify_log(message)`: one notification on the log characteristic per
      tracked link. */
  function NotifyLog(s: State, message: Bytes): (r: Step)
    ensures r.state == s
    ensures s.radio.None? <==> r.fault == Some(AttributeError)
    ensures s.radio.None? ==> r.effects == []
    ensures s.radio.Some? ==> |r.effects| == |s.connections|
    ensures s.radio.Some? ==> forall c | c in s.connections :: Count(r.effects, GattsNotify(c, s.radio.value.log, message)) == 1
    ensures forall e | e in r.effects :: e.GattsNotify? && e.conn in s.connections && e.data == message
  {
    match s.radio
    case None => Step(s, [], Some(AttributeError))
    case Some(h) => Step(s, NotifyEffects(s.connections, h.log, message), None)
  }
}

=== FILE: ble_props.dfy ===
/** Properties of the BLE core over arbitrary sequences of inputs: the
    connection/power-save invariant, one-time construction of the shell and
    the keyboard, and the power-save countdown. */
module BleProps {
  import opened Wrappers
  import opened Ble

  /** Everything that can drive the core: a scheduler tick, a radio event,
      a power-plan change, the log sink, and the public calls. */
  datatype Input =
    | Tick(wakeUp: bool, registered: Handles)
    | Event(irq: Irq, oracle: IrqOracle)
    | PlanChanged(plan: BlePlan)
    | NotifyLogCall(message: Bytes)
    | DisconnectCall
    | ShellRequested
    | KeyboardRequested

  function Apply(s: State, i: Input): Step {
    match i
    case Tick(wakeUp, registered) => CheckTimeToPowerSave(s, wakeUp, registered)
    case Event(irq, oracle) => OnIrq(s, irq, oracle)
    case PlanChanged(plan) => Step(SetPowerSaveTimeouts(s, plan), [], None)
    case NotifyLogCall(message) => NotifyLog(s, message)
    case DisconnectCall => Disconnect(s)
    case ShellRequested => GetShell(s)
    case KeyboardRequested => GetKeyboard(s)
  }

  /** The state after a sequence of inputs and every call made on the way.
      A raised exception ends only the call that raised it. */
  function Run(s: State, ins: seq<Input>): (State, seq<Effect>)
    decreases |ins|
  {
    if ins == [] then (s, [])
    else
      var st := Apply(s, ins[0]);
      var rest := Run(st.state, ins[1..]);
      (rest.0, st.effects + rest.1)
  }

  lemma RunCons(s: State, i: Input, ins: seq<Input>)
    ensures Run(s, [i] + ins) == (Run(Apply(s, i).state, ins).0, Apply(s, i).effects + Run(Apply(s, i).state, ins).1)
  {
    assert ([i] + ins)[0] == i && ([i] + ins)[1..] == ins;
  }

  lemma {:induction false} RunAppend(s: State, a: seq<Input>, b: seq<Input>)
    ensures Run(s, a + b).0 == Run(Run(s, a).0, b).0
    ensures Run(s, a + b).1 == Run(s, a).1 + Run(Run(s, a).0, b).1
    decreases |a|
  {
    if a == [] {
      assert a + b == b;
    } else {
      var st := Apply(s, a[0]);
      assert a == [a[0]] + a[1..];
      assert a + b == [a[0]] + (a[1..] + b);
      RunCons(s, a[0], a[1..] + b);
      RunCons(s, a[0], a[1..]);
      RunAppend(st.state, a[1..], b);
    }
  }

  // ---------------------------------------------------------------------------
  // The connection invariant

  /** A tracked link keeps power save blocked (countdown 0), and links are
      tracked only once the radio has been started. */
  predicate Inv(s: State) {
    && (s.connections != {} ==> s.timeToPowerSave == Some(0))
    && (s.radio.None? ==> s.connections == {})
  }

  lemma InitEstablishesInv(plan: BlePlan)
    ensures Inv(Init(plan).state)
  {
  }

  lemma ApplyPreservesInv(s: State, i: Input)
    requires Inv(s)
    ensures Inv(Apply(s, i).state)
  {
  }

  lemma {:induction false} RunPreservesInv(s: State, ins: seq<Input>)
    requires Inv(s)
    ensures Inv(Run(s, ins).0)
    decreases |ins|
  {
    if ins != [] {
      ApplyPreservesInv(s, ins[0]);
      RunPreservesInv(Apply(s, ins[0]).state, ins[1..]);
    }
  }

  /** In every reachable state, a live link means power save is blocked. */
  lemma ConnectedBlocksPowerSave(plan: BlePlan, ins: seq<Input>)
    ensures var s := Run(Init(plan).state, ins).0;
      s.connections != {} ==> s.timeToPowerSave == Some(0)
  {
    InitEstablishesInv(plan);
    RunPreservesInv(Init(plan).state, ins);
  }

  // ---------------------------------------------------------------------------
  // The shell and the keyboard are built at most once

  /** The shell and the keyboard are built in a step exactly when the step
      first needs them, and once built they stay built. */
  predicate BuildsOnce(before: State, after: State, effects: seq<Effect>) {
    && (before.shellMade ==> after.shellMade)
    && (before.keyboardMade ==> after.keyboardMade)
    && Count(effects, ShellCreate) == (if !before.shellMade && after.shellMade then 1 else 0)
    && Count(effects, KeyboardCreate) == (if !before.keyboardMade && after.keyboardMade then 1 else 0)
  }

  lemma EventBuildsOnce(s: State, irq: Irq, o: IrqOracle)
    ensures BuildsOnce(s, OnIrq(s, irq, o).state, OnIrq(s, irq, o).effects)
  {
    var r := OnIrq(s, irq, o);
    if s.radio.Some? && irq.code == IRQ_CENTRAL_CONNECT {
      assert ShellCreate !in r.effects && KeyboardCreate !in r.effects;
    }
  }

  lemma ApplyBuildsOnce(s: State, i: Input)
    ensures BuildsOnce(s, Apply(s, i).state, Apply(s, i).effects)
  {
    match i
    case Tick(wakeUp, registered) =>
    case Event(irq, oracle) => EventBuildsOnce(s, irq, oracle);
    case PlanChanged(_) =>
    case NotifyLogCall(message) =>
      assert ShellCreate !in NotifyLog(s, message).effects && KeyboardCreate !in NotifyLog(s, message).effects;
    case DisconnectCall =>
      assert ShellCreate !in Disconnect(s).effects && KeyboardCreate !in Disconnect(s).effects;
    case ShellRequested =>
    case KeyboardRequested =>
  }

  /** Over any run, the shell is constructed at most once, and exactly once
      if it was not built before and is built after; the same for the
      keyboard. */
  lemma {:induction false} RunBuildsOnce(s: State, ins: seq<Input>)
    ensures BuildsOnce(s, Run(s, ins).0, Run(s, ins).1)
    decreases |ins|
  {
    if ins != [] {
      var st := Apply(s, ins[0]);
      ApplyBuildsOnce(s, ins[0]);
      RunBuildsOnce(st.state, ins[1..]);
      CountAppend(st.effects, Run(st.state, ins[1..]).1, ShellCreate);
      CountAppend(st.effects, Run(st.state, ins[1..]).1, KeyboardCreate);
    }
  }

  /** From start-up, no run constructs the shell or the keyboard twice. */
  lemma ShellAndKeyboardBuiltAtMostOnce(plan: BlePlan, ins: seq<Input>)
    ensures Count(Run(Init(plan).state, ins).1, ShellCreate) <= 1
    ensures Count(Run(Init(plan).state, ins).1, KeyboardCreate) <= 1
  {
    RunBuildsOnce(Init(plan).state, ins);
  }

  // ---------------------------------------------------------------------------
  // The power-save countdown

  /** `k` scheduler ticks without the wake flag. */
  function Idle(k: nat, h: Handles): (ins: seq<Input>)
    ensures |ins| == k && forall i | 0 <= i < k :: ins[i] == Tick(false, h)
  {
    seq(k, _ => Tick(false, h))
  }

  /** While the countdown is above `k`, `k` idle ticks take exactly `k` off
      it, change nothing else, and each only reschedules itself. */
  lemma {:induction false} IdleCountdown(s: State, k: nat, h: Handles)
    requires s.timeToPowerSave.Some? && k < s.timeToPowerSave.value
    ensures Run(s, Idle(k, h)).0 == s.(timeToPowerSave := Some(s.timeToPowerSave.value - k))
    ensures Run(s, Idle(k, h)).1 == seq(k, _ => PostponeTick(1, false))
    decreases k
  {
    if k > 0 {
      var s1 := Apply(s, Tick(false, h)).state;
      assert Idle(k, h)[0] == Tick(false, h) && Idle(k, h)[1..] == Idle(k - 1, h);
      IdleCountdown(s1, k - 1, h);
      assert [PostponeTick(1, false)] + seq(k - 1, _ => PostponeTick(1, false)) == seq(k, _ => PostponeTick(1, false));
    } else {
      assert Idle(k, h) == [];
    }
  }

  /** With no link up and a countdown of `n > 0`, exactly `n` idle ticks
      reach power save: the first `n - 1` only reschedule, the last stops the
      radio without any disconnect, unblocks power save and schedules a wake
      tick after `time_down`. */
  lemma PowerSaveAfterCountdown(s: State, h: Handles)
    requires Inv(s) && s.radio.Some?
    requires s.timeToPowerSave.Some? && s.timeToPowerSave.value > 0
    ensures var n := s.timeToPowerSave.value;
      && Run(s, Idle(n, h)).0 == s.(timeToPowerSave := Some(0))
      && Run(s, Idle(n, h)).1 == seq(n - 1, _ => PostponeTick(1, false))
                                 + [RadioActive(false), UnblockPowerSave, PostponeTick(s.plan.timeDown, true)]
  {
    var n := s.timeToPowerSave.value;
    assert Idle(n, h) == Idle(n - 1, h) + [Tick(false, h)];
    RunAppend(s, Idle(n - 1, h), [Tick(false, h)]);
    IdleCountdown(s, n - 1, h);
    var s1 := s.(timeToPowerSave := Some(1));
    assert s.connections == {};
    var stop := StopBle(s1.connections);
    assert |stop| == 1;
    assert Run(s1, [Tick(false, h)]).1 == [RadioActive(false), UnblockPowerSave, PostponeTick(s.plan.timeDown, true)];
  }

  /** A countdown of 0 (a link up, or a connection attempt that failed)
      holds power save blocked for any number of idle ticks. */
  lemma {:induction false} BlockedStaysBlocked(s: State, k: nat, h: Handles)
    requires s.timeToPowerSave == Some(0)
    ensures Run(s, Idle(k, h)).0 == s
    ensures Run(s, Idle(k, h)).1 == seq(k, _ => PostponeTick(1, false))
    ensures UnblockPowerSave !in Run(s, Idle(k, h)).1
    decreases k
  {
    if k > 0 {
      assert Idle(k, h)[0] == Tick(false, h) && Idle(k, h)[1..] == Idle(k - 1, h);
      BlockedStaysBlocked(s, k - 1, h);
      assert [PostponeTick(1, false)] + seq(k - 1, _ => PostponeTick(1, false)) == seq(k, _ => PostponeTick(1, false));
    } else {
      assert Idle(k, h) == [];
    }
  }

  /** A central whose three MTU exchanges all fail is disconnected, yet the
      countdown it zeroed stays zero: power save remains blocked under idle
      ticks. The disconnect event that follows does not release it (see
      `FailedConnectStrandsPeripheral`). */
  lemma FailedConnectKeepsPowerSaveBlocked(s: State, conn: ConnHandle, oks: seq<bool>, k: nat, h: Handles)
    requires s.radio.Some?
    requires forall j :: 0 <= j < MTU_ATTEMPTS ==> !MtuOk(oks, j)
    ensures var after := OnIrq(s, Irq(IRQ_CENTRAL_CONNECT, conn, 0), IrqOracle(oks, [], None)).state;
      && after.connections == s.connections
      && UnblockPowerSave !in Run(after, Idle(k, h)).1
  {
    var after := OnIrq(s, Irq(IRQ_CENTRAL_CONNECT, conn, 0), IrqOracle(oks, [], None)).state;
    BlockedStaysBlocked(after, k, h);
  }

  /** As written, when the only central fails all three MTU exchanges, the
      disconnect event for its handle raises `KeyError` before the countdown
      is restarted or advertising resumes. The peripheral then neither
      advertises again nor reaches power save, however many idle ticks
      follow. */
  lemma FailedConnectStrandsPeripheral(s: State, conn: ConnHandle, oks: seq<bool>, k: nat, h: Handles)
    requires s.radio.Some? && s.connections == {}
    requires forall j :: 0 <= j < MTU_ATTEMPTS ==> !MtuOk(oks, j)
    ensures var o := IrqOracle(oks, [], None);
      var connected := OnIrq(s, Irq(IRQ_CENTRAL_CONNECT, conn, 0), o).state;
      OnIrq(connected, Irq(IRQ_CENTRAL_DISCONNECT, conn, 0), o).fault == Some(KeyError(conn))
    ensures var o := IrqOracle(oks, [], None);
      var run := Run(s, [Event(Irq(IRQ_CENTRAL_CONNECT, conn, 0), o), Event(Irq(IRQ_CENTRAL_DISCONNECT, conn, 0), o)] + Idle(k, h));
      && run.0.connections == {}
      && run.0.timeToPowerSave == Some(0)
      && UnblockPowerSave !in run.1
      && forall e | e in run.1 :: !e.GapAdvertise?
  {
    var o := IrqOracle(oks, [], None);
    var c := Event(Irq(IRQ_CENTRAL_CONNECT, conn, 0), o);
    var d := Event(Irq(IRQ_CENTRAL_DISCONNECT, conn, 0), o);
    var connected := Apply(s, c);
    var dropped := Apply(connected.state, d);
    assert dropped.state == connected.state && dropped.effects == [];
    RunAppend(s, [c, d], Idle(k, h));
    RunCons(s, c, [d]);
    RunCons(connected.state, d, []);
    BlockedStaysBlocked(connected.state, k, h);
  }

  /** With the tolerant disconnect handler, the same sequence recovers: the
      failed handle's disconnect restarts the countdown from
      `running_time_up` and advertises again, and when that countdown is
      positive, that many idle ticks reach power save. */
  lemma FailedConnectRecoversWhenDiscarding(s: State, conn: ConnHandle, oks: seq<bool>, h: Handles)
    requires s.radio.Some? && s.connections == {}
    requires forall j :: 0 <= j < MTU_ATTEMPTS ==> !MtuOk(oks, j)
    ensures var connected := OnIrq(s, Irq(IRQ_CENTRAL_CONNECT, conn, 0), IrqOracle(oks, [], None)).state;
      var dropped := OnDisconnectDiscarding(connected, conn);
      && dropped.state.timeToPowerSave == Some(s.plan.runningTimeUp)
      && dropped.state.connections == {}
      && dropped.effects == [GapAdvertise(ADVERTISE_INTERVAL_US, s.payload)]
      && (s.plan.runningTimeUp > 0 ==> UnblockPowerSave in Run(dropped.state, Idle(s.plan.runningTimeUp, h)).1)
  {
    var connected := OnIrq(s, Irq(IRQ_CENTRAL_CONNECT, conn, 0), IrqOracle(oks, [], None)).state;
    var dropped := OnDisconnectDiscarding(connected, conn);
    if s.plan.runningTimeUp > 0 {
      assert Inv(dropped.state);
      PowerSaveAfterCountdown(dropped.state, h);
      var n := s.plan.runningTimeUp;
      var tail := [RadioActive(false), UnblockPowerSave, PostponeTick(s.plan.timeDown, true)];
      assert (seq(n - 1, _ => PostponeTick(1, false)) + tail)[n - 1 + 1] == UnblockPowerSave;
    }
  }
}

=== FILE: block_base.dfy ===
/** The master side of the tiny-block protocol (`BlockBase` in
    tools/devel/___block_base.py): the default address, the frame
    `[type_id, command] + data` written on the bus, the type gate, reads,
    the module-version query and its classification, and the address change.
    The I2C bus is an oracle: whether each write succeeds and what each read
    returns; every bus call and every log line is recorded as an effect. */
module BlockBase {
  import opened Wrappers

  /** `i2c_block_type_id_base`: the id every block answers to. */
  const BLOCK_TYPE_ID_BASE: int := 0xFA
  const GET_MODULE_VERSION_COMMAND: int := 0xF7
  const CHANGE_I2C_ADDRESS_COMMAND: int := 0xFE
  /** `expected_length` of the version query. */
  const VERSION_LENGTH: nat := 3

  /** `BlockType(type, name)`. */
  datatype BlockType = BlockType(id: int, name: string)

  const TYPE_POWER: BlockType := BlockType(0x08, "power_block")
  const TYPE_RGB: BlockType := BlockType(0x09, "rgb_block")
  const TYPE_MOTOR_DRIVER: BlockType := BlockType(0x0a, "motor_block")
  const TYPE_DISPLAY: BlockType := BlockType(0x0b, "disp_block")
  const TYPE_SOUND: BlockType := BlockType(0x0c, "sound_block")
  const TYPE_BUTTON: BlockType := BlockType(0x0d, "button_block")
  const TYPE_POSITION: BlockType := BlockType(0x0e, "position_block")
  const TYPE_AMBIENT: BlockType := BlockType(0x0f, "ambient_block")

  /** `(block_type, pcb_version, adjustment_version)`. */
  datatype Version = Version(blockType: bv8, pcb: bv8, adjustment: bv8)

  /** The attributes of a `BlockBase` instance. */
  datatype Block = Block(typeId: int, address: int, version: Option<Version>, typeValid: bool)

  datatype BusEffect =
    | WriteTo(address: int, data: Bytes)       // i2c.writeto
    | ReadFrom(address: int, length: nat)      // i2c.readfrom
    | LogError
    | LogWarning

  /** Exceptions the master code lets escape: `int.to_bytes(1, 'big')` of a
      value outside 0..255, and indexing a version response shorter than
      three bytes. */
  datatype BlockError = OverflowError | IndexError

  /** What the bus does in one exchange: whether `writeto` succeeds, and what
      `readfrom` returns (None when it raises OSError). */
  datatype Bus = Bus(writeOk: bool, read: Option<Bytes>)

  /** What a write or read produced: the bus calls and log lines, and for a
      read the data returned. */
  datatype Transfer = Transfer(effects: seq<BusEffect>, data: Option<Bytes>)

  /** `int.to_bytes(1, 'big')`. */
  function ToByte(n: int): (r: Result<bv8, BlockError>)
    ensures r.Ok? <==> 0 <= n < 256
    ensures r.Ok? ==> r.value as int == n
  {
    if 0 <= n < 256 then ByteOfNat(n); Ok(n as bv8) else Err(OverflowError)
  }

  /** Python truthiness of an optional byte string. */
  predicate Truthy(data: Option<Bytes>) {
    data.Some? && |data.value| > 0
  }

  /** The frame `_raw_tiny_write` sends. */
  function Frame(typeId: bv8, command: bv8, data: Option<Bytes>): (f: Bytes)
    ensures |f| >= 2 && f[0] == typeId && f[1] == command
    ensures f[2..] == if Truthy(data) then data.value else []
  {
    [typeId, command] + (if Truthy(data) then data.value else [])
  }

  /** Reads a frame back into its three fields. */
  function ParseFrame(f: Bytes): Option<(bv8, bv8, Bytes)> {
    if |f| < 2 then None else Some((f[0], f[1], f[2..]))
  }

  /** A frame carries its type id, command and data, and nothing else. */
  lemma FrameRoundTrip(typeId: bv8, command: bv8, data: Option<Bytes>)
    ensures ParseFrame(Frame(typeId, command, data)) == Some((typeId, command, if Truthy(data) then data.value else []))
  {
  }

  /** `BlockBase.__init__` address choice: the given address unless it is
      None or 0, in which case the block type id. */
  function DefaultAddress(blockType: BlockType, address: Option<int>): (a: int)
    ensures address.Some? && address.value != 0 ==> a == address.value
    ensures address.None? || address == Some(0) ==> a == blockType.id
  {
    if address.Some? && address.value != 0 then address.value else blockType.id
  }

  /** `_check_type`: the second conjunct, `0xFA or block_type_valid`, is
      always true and short-circuits before reading `block_type_valid` (which
      the constructor has not yet set when it queries the version), so only
      the id matters. */
  predicate CheckType(b: Block, typeId: int) {
    (typeId == BLOCK_TYPE_ID_BASE || typeId == b.typeId) && (BLOCK_TYPE_ID_BASE != 0 || b.typeValid)
  }

  lemma CheckTypeIsMembership(b: Block, typeId: int)
    ensures CheckType(b, typeId) <==> typeId in {BLOCK_TYPE_ID_BASE, b.typeId}
  {
  }

  /** `_raw_tiny_write`: one `writeto` of the frame; a failed write is
      logged unless silent. Out-of-range ids raise before the bus is touched. */
  function RawTinyWrite(b: Block, typeId: int, command: int, data: Option<Bytes>, silent: bool, writeOk: bool): (r: Result<seq<BusEffect>, BlockError>)
    ensures r.Ok? <==> 0 <= typeId < 256 && 0 <= command < 256
    ensures r.Ok? ==> |r.value| >= 1 && r.value[0] == WriteTo(b.address, Frame(typeId as bv8, command as bv8, data))
    ensures r.Ok? ==> (LogError in r.value <==> !writeOk && !silent)
    ensures r.Ok? ==> forall e | e in r.value[1..] :: e == LogError
  {
    var t := ToByte(typeId);
    var c := ToByte(command);
    if t.Err? then Err(t.error)
    else if c.Err? then Err(c.error)
    else Ok([WriteTo(b.address, Frame(t.value, c.value, data))] + (if !writeOk && !silent then [LogError] else []))
  }

  /** `__tiny_write_common`: the write happens only when the type check passes. */
  function TinyWriteCommon(b: Block, typeId: int, command: int, data: Option<Bytes>, writeOk: bool): (r: Result<seq<BusEffect>, BlockError>)
    ensures !CheckType(b, typeId) ==> r == Ok([LogError])
    ensures CheckType(b, typeId) ==> r == RawTinyWrite(b, typeId, command, data, false, writeOk)
  {
    if CheckType(b, typeId) then RawTinyWrite(b, typeId, command, data, false, writeOk) else Ok([LogError])
  }

  /** `_tiny_write_base_id`: writes addressed to the base id always pass
      the type check. */
  function TinyWriteBaseId(b: Block, command: int, data: Option<Bytes>, writeOk: bool): (r: Result<seq<BusEffect>, BlockError>)
    ensures r.Ok? <==> 0 <= command < 256
    ensures r.Ok? ==> |r.value| >= 1 && r.value[0] == WriteTo(b.address, Frame(0xFA, command as bv8, data))
  {
    TinyWriteCommon(b, BLOCK_TYPE_ID_BASE, command, data, writeOk)
  }

  /** `_tiny_write`: writes addressed to the block's own type id. */
  function TinyWrite(b: Block, command: int, data: Option<Bytes>, writeOk: bool): (r: Result<seq<BusEffect>, BlockError>)
    ensures r.Ok? <==> 0 <= b.typeId < 256 && 0 <= command < 256
    ensures r.Ok? ==> |r.value| >= 1 && r.value[0] == WriteTo(b.address, Frame(b.typeId as bv8, command as bv8, data))
  {
    TinyWriteCommon(b, b.typeId, command, data, writeOk)
  }

  /** `__tiny_read_common`: when the type check passes, the request frame
      is written and `expected_length` bytes are read back; a failed read
      yields None (logged unless silent). A failed type check touches the bus
      not at all and yields None. */
  function TinyReadCommon(b: Block, typeId: int, command: int, inData: Option<Bytes>, expectedLength: nat, silent: bool, bus: Bus): (r: Result<Transfer, BlockError>)
    ensures !CheckType(b, typeId) ==> r == Ok(Transfer([LogError], None))
    ensures CheckType(b, typeId) ==> (r.Ok? <==> 0 <= typeId < 256 && 0 <= command < 256)
    ensures CheckType(b, typeId) && r.Ok? ==>
      && r.value.data == bus.read
      && var w := RawTinyWrite(b, typeId, command, inData, silent, bus.writeOk).value;
      && |r.value.effects| > |w|
      && r.value.effects[..|w|] == w
      && r.value.effects[|w|] == ReadFrom(b.address, expectedLength)
      && r.value.effects[|w| + 1..] == (if bus.read.None? && !silent then [LogError] else [])
  {
    if !CheckType(b, typeId) then Ok(Transfer([LogError], None))
    else
      var w := RawTinyWrite(b, typeId, command, inData, silent, bus.writeOk);
      if w.Err? then Err(w.error)
      else
        var failed := if bus.read.None? && !silent then [LogError] else [];
        var effects := w.value + [ReadFrom(b.address, expectedLength)] + failed;
        assert effects[..|w.value|] == w.value && effects[|w.value| + 1..] == failed;
        Ok(Transfer(effects, bus.read))
  }

  /** `_tiny_read_base_id`. */
  function TinyReadBaseId(b: Block, command: int, inData: Option<Bytes>, expectedLength: nat, silent: bool, bus: Bus): (r: Result<Transfer, BlockError>)
    ensures r.Ok? <==> 0 <= command < 256
    ensures r.Ok? ==> r.value.data == bus.read && ReadFrom(b.address, expectedLength) in r.value.effects
  {
    var r := TinyReadCommon(b, BLOCK_TYPE_ID_BASE, command, inData, expectedLength, silent, bus);
    assert r.Ok? ==> r.value.effects[|RawTinyWrite(b, BLOCK_TYPE_ID_BASE, command, inData, silent, bus.writeOk).value|] == ReadFrom(b.address, expectedLength);
    r
  }

  /** `_tiny_read`: reads from the block's own type id, never silent. */
  function TinyRead(b: Block, command: int, inData: Option<Bytes>, expectedLength: nat, bus: Bus): (r: Result<Transfer, BlockError>)
    ensures r.Ok? <==> 0 <= b.typeId < 256 && 0 <= command < 256
    ensures r.Ok? ==> r.value.data == bus.read && ReadFrom(b.address, expectedLength) in r.value.effects
    ensures r.Ok? ==> (LogError in r.value.effects <==> !bus.writeOk || bus.read.None?)
  {
    var r := TinyReadCommon(b, b.typeId, command, inData, expectedLength, false, bus);
    if r.Err? then r
    else
      var w := RawTinyWrite(b, b.typeId, command, inData, false, bus.writeOk).value;
      var e := r.value.effects;
      assert e == w + [e[|w|]] + e[|w| + 1..];
      r
  }

  /** `_get_block_version`: the base-id version query, silent; None when
      nothing or nothing non-empty came back, the first three bytes otherwise. */
  function GetBlockVersion(b: Block, bus: Bus): (r: Result<(seq<BusEffect>, Option<Version>), BlockError>)
    ensures r.Err? <==> bus.read.Some? && 0 < |bus.read.value| < VERSION_LENGTH
    ensures r.Err? ==> r.error == IndexError
    ensures r.Ok? ==> (r.value.1.None? <==> !Truthy(bus.read))
    ensures r.Ok? && r.value.1.Some? ==>
      var d := bus.read.value;
      r.value.1.value == Version(d[0], d[1], d[2])
    ensures r.Ok? ==> r.value.0 == [WriteTo(b.address, [0xFA, 0xF7]), ReadFrom(b.address, VERSION_LENGTH)]
  {
    var t := TinyReadCommon(b, BLOCK_TYPE_ID_BASE, GET_MODULE_VERSION_COMMAND, None, VERSION_LENGTH, true, bus);
    assert t.Ok? && t.value.data == bus.read;
    assert Frame(0xFA, 0xF7, None) == [0xFA, 0xF7];
    var effects := t.value.effects;
    if !Truthy(bus.read) then Ok((effects, None))
    else if |bus.read.value| < VERSION_LENGTH then Err(IndexError)
    else
      var d := bus.read.value;
      Ok((effects, Some(Version(d[0], d[1], d[2]))))
  }

  /** `BlockBase.__init__`: chooses the address, queries the version, and
      classifies the block as unavailable (a warning), of the wrong type
      (an error) or valid. */
  function NewBlock(blockType: BlockType, address: Option<int>, bus: Bus): (r: Result<(Block, seq<BusEffect>), BlockError>)
    ensures r.Ok? ==> r.value.0.typeId == blockType.id && r.value.0.address == DefaultAddress(blockType, address)
    ensures r.Ok? ==> (r.value.0.typeValid <==> r.value.0.version.Some? && r.value.0.version.value.blockType as int == blockType.id)
    ensures r.Ok? ==> |r.value.1| >= 2 && r.value.1[..2] == [WriteTo(r.value.0.address, [0xFA, 0xF7]), ReadFrom(r.value.0.address, VERSION_LENGTH)]
    ensures r.Ok? ==> (LogWarning in r.value.1 <==> r.value.0.version.None?)
    ensures r.Ok? ==> (LogError in r.value.1 <==> r.value.0.version.Some? && !r.value.0.typeValid)
    ensures var v := GetBlockVersion(Block(blockType.id, DefaultAddress(blockType, address), None, false), bus);
      && (r.Err? <==> v.Err?)
      && (r.Err? ==> r.error == v.error)
      && (r.Ok? ==> r.value.0.version == v.value.1 && r.value.1[..2] == v.value.0)
      && (r.Ok? ==> r.value.1 == v.value.0 + (if r.value.0.version.None? then [LogWarning]
                                             else if !r.value.0.typeValid then [LogError]
                                             else []))
  {
    var unversioned := Block(blockType.id, DefaultAddress(blockType, address), None, false);
    var v := GetBlockVersion(unversioned, bus);
    if v.Err? then Err(v.error)
    else
      var (effects, version) := v.value;
      assert LogWarning !in effects && LogError !in effects;
      var b := unversioned.(version := version);
      if version.None? then Ok((b, effects + [LogWarning]))
      else if version.value.blockType as int != blockType.id then Ok((b, effects + [LogError]))
      else Ok((b.(typeValid := true), effects))
  }

  /** `is_available`. */
  predicate IsAvailable(b: Block) {
    b.version.Some?
  }

  /** A block made by `__init__` is available exactly when the version
      read returned a non-empty answer; an empty or missing answer leaves
      it unavailable rather than failing. */
  lemma AvailableIffVersionAnswered(blockType: BlockType, address: Option<int>, bus: Bus)
    ensures var r := NewBlock(blockType, address, bus);
      && (r.Ok? ==> (IsAvailable(r.value.0) <==> Truthy(bus.read)))
      && (!Truthy(bus.read) ==> r.Ok? && !IsAvailable(r.value.0))
  {
  }

  /** `change_block_address(new_address)`: writes `[0xFA, 0xFE, n]` to the
      current address, then takes `n` as the address. A value outside
      0..255 raises before anything is written. */
  function ChangeBlockAddress(b: Block, newAddress: int, writeOk: bool): (r: Result<(Block, seq<BusEffect>), BlockError>)
    ensures r.Err? <==> !(0 <= newAddress < 256)
    ensures r.Ok? ==> r.value.0 == b.(address := newAddress)
    ensures r.Ok? ==>
      && |r.value.1| >= 1
      && r.value.1[0] == WriteTo(b.address, [0xFA, 0xFE, newAddress as bv8])
      && (newAddress as bv8) as int == newAddress
    ensures r.Ok? ==> r.value.1 == [WriteTo(b.address, [0xFA, 0xFE, newAddress as bv8])] + (if writeOk then [] else [LogError])
  {
    var n := ToByte(newAddress);
    if n.Err? then Err(n.error)
    else
      var w := TinyWriteCommon(b, BLOCK_TYPE_ID_BASE, CHANGE_I2C_ADDRESS_COMMAND, Some([n.value]), writeOk);
      assert CheckType(b, BLOCK_TYPE_ID_BASE);
      assert Frame(0xFA, 0xFE, Some([n.value])) == [0xFA, 0xFE, n.value];
      Ok((b.(address := newAddress), w.value))
  }
}

=== FILE: graphics.dfy ===
/** Text on the display (components/display/graphics.c): `_print_text`
    lays out a NUL-terminated string glyph by glyph, the 8x8 and 8x16
    variants fix the glyph size, and the point operations delegate to the
    display adapter. A layout is the sequence of glyphs it places; drawing
    them gives the sequence of `set_point` calls it makes. */
module Graphics {
  import opened Wrappers
  import S = Ssd1306

  /** One `_display->set_point(x, y, color)` call. */
  datatype PixelWrite = PixelWrite(x: int, y: int, color: bool)

  /** A font table, read at whatever offset the layout computes. */
  type Font = int -> bv8

  const NUL: bv8 := 0x00
  const NEWLINE: bv8 := 0x0A

  /** The glyph parameters of `_print_text`: the font, the glyph width in
      columns, the glyph height in pixels, and whether one blank column
      follows each glyph. */
  datatype Style = Style(font: Font, charWidth: nat, charHeight: nat, hSpace: bool)

  /** The box and the text: origin, width and height of the text area, the
      characters (read as unsigned bytes), and the colour. */
  datatype TextRequest = TextRequest(x0: int, y0: int, width: int, height: int, text: Bytes, color: bool)

  /** `char_height_byte`: the column bytes per glyph column. */
  function HeightBytes(st: Style): nat {
    st.charHeight / 8
  }

  /** How far the column moves after a drawn glyph. */
  function Advance(st: Style): nat {
    st.charWidth + (if st.hSpace then 1 else 0)
  }

  /** `set_point` calls per drawn glyph. */
  function GlyphSize(st: Style): nat {
    st.charWidth * HeightBytes(st) * 8
  }

  /** The colour of the glyph pixel `dy` rows below the glyph's top in glyph
      column `col`: `color` where the font bit is set, `!color` elsewhere. */
  function Shade(st: Style, c: bv8, col: int, dy: nat, color: bool): bool {
    var hb := HeightBytes(st);
    var columnByte := st.font(c as int * st.charWidth * hb + col * hb + dy / 8);
    if S.Bit(columnByte, dy % 8) then color else !color
  }

  /** The pixel writes `p` that glyph `c` at (x, y) makes: inside its cell,
      coloured by the font. */
  predicate InCell(p: PixelWrite, x: int, y: int, c: bv8, color: bool, st: Style) {
    && x <= p.x < x + st.charWidth
    && y <= p.y < y + 8 * HeightBytes(st)
    && p.color == Shade(st, c, p.x - x, p.y - y, color)
  }

  // ---------------------------------------------------------------------------
  // One glyph: the three nested loops of `_print_text`

  /** The innermost loop: the 8 rows of column byte `b` of glyph column `col`. */
  function Strip(x: int, y: int, c: bv8, color: bool, st: Style, col: int, b: nat): (g: seq<PixelWrite>)
    ensures |g| == 8
  {
    seq(8, r requires 0 <= r < 8 => PixelWrite(x + col, y + r + 8 * b, Shade(st, c, col, r + 8 * b, color)))
  }

  /** The middle loop: the column bytes `b..` of glyph column `col`. */
  function ColumnBytes(x: int, y: int, c: bv8, color: bool, st: Style, col: int, b: nat): (g: seq<PixelWrite>)
    ensures |g| == if b < HeightBytes(st) then (HeightBytes(st) - b) * 8 else 0
    decreases HeightBytes(st) - b
  {
    if b >= HeightBytes(st) then []
    else Strip(x, y, c, color, st, col, b) + ColumnBytes(x, y, c, color, st, col, b + 1)
  }

  /** The outer loop: glyph columns `col..`. */
  function GlyphColumns(x: int, y: int, c: bv8, color: bool, st: Style, col: nat): (g: seq<PixelWrite>)
    ensures |g| == if col < st.charWidth then (st.charWidth - col) * HeightBytes(st) * 8 else 0
    decreases st.charWidth - col
  {
    if col >= st.charWidth then []
    else
      var rest := GlyphColumns(x, y, c, color, st, col + 1);
      assert (st.charWidth - col) * HeightBytes(st) * 8 == HeightBytes(st) * 8 + (st.charWidth - col - 1) * HeightBytes(st) * 8;
      ColumnBytes(x, y, c, color, st, col, 0) + rest
  }

  /** Glyph `c` drawn with its top-left corner at (x, y). */
  function Glyph(x: int, y: int, c: bv8, color: bool, st: Style): (g: seq<PixelWrite>)
    ensures |g| == GlyphSize(st)
  {
    GlyphColumns(x, y, c, color, st, 0)
  }

  lemma StripCell(x: int, y: int, c: bv8, color: bool, st: Style, col: int, b: nat, p: PixelWrite)
    ensures p in Strip(x, y, c, color, st, col, b) <==>
      && p.x == x + col && y + 8 * b <= p.y < y + 8 * b + 8
      && p.color == Shade(st, c, col, p.y - y, color)
  {
    var g := Strip(x, y, c, color, st, col, b);
    if p.x == x + col && y + 8 * b <= p.y < y + 8 * b + 8 && p.color == Shade(st, c, col, p.y - y, color) {
      assert g[p.y - y - 8 * b] == p;
    }
  }

  lemma {:induction false} ColumnBytesCell(x: int, y: int, c: bv8, color: bool, st: Style, col: int, b: nat, p: PixelWrite)
    ensures p in ColumnBytes(x, y, c, color, st, col, b) <==>
      && p.x == x + col && y + 8 * b <= p.y < y + 8 * HeightBytes(st)
      && p.color == Shade(st, c, col, p.y - y, color)
    decreases HeightBytes(st) - b
  {
    if b < HeightBytes(st) {
      StripCell(x, y, c, color, st, col, b, p);
      ColumnBytesCell(x, y, c, color, st, col, b + 1, p);
    }
  }

  lemma {:induction false} GlyphColumnsCell(x: int, y: int, c: bv8, color: bool, st: Style, col: nat, p: PixelWrite)
    ensures p in GlyphColumns(x, y, c, color, st, col) <==>
      && x + col <= p.x < x + st.charWidth && y <= p.y < y + 8 * HeightBytes(st)
      && p.color == Shade(st, c, p.x - x, p.y - y, color)
    decreases st.charWidth - col
  {
    if col < st.charWidth {
      ColumnBytesCell(x, y, c, color, st, col, 0, p);
      GlyphColumnsCell(x, y, c, color, st, col + 1, p);
    }
  }

  /** A glyph makes exactly `char_width * char_height_byte * 8` writes, and
      they are precisely the points of its cell, each coloured by its font
      bit. */
  lemma GlyphCell(x: int, y: int, c: bv8, color: bool, st: Style, p: PixelWrite)
    ensures |Glyph(x, y, c, color, st)| == GlyphSize(st)
    ensures p in Glyph(x, y, c, color, st) <==> InCell(p, x, y, c, color, st)
  {
    GlyphColumnsCell(x, y, c, color, st, 0, p);
  }

  // ---------------------------------------------------------------------------
  // Where the glyphs go, and how a sequence of them is drawn

  /** One glyph that `_print_text` draws: character `c` with its cell's
      top-left corner at (x, y). */
  datatype Placement = Placement(x: int, y: int, c: bv8)

  /** The glyph loops run for each placement in turn. */
  function Draw(ps: seq<Placement>, color: bool, st: Style): seq<PixelWrite>
  {
    if ps == [] then [] else Glyph(ps[0].x, ps[0].y, ps[0].c, color, st) + Draw(ps[1..], color, st)
  }

  /** Each placement draws exactly one glyph's worth of writes. */
  lemma {:induction false} DrawLength(ps: seq<Placement>, color: bool, st: Style)
    ensures |Draw(ps, color, st)| == |ps| * GlyphSize(st)
  {
    if ps != [] {
      DrawLength(ps[1..], color, st);
      MulStep(|ps|, GlyphSize(st));
    }
  }

  /** Drawing two runs of placements is drawing one after the other. */
  lemma {:induction false} DrawAppend(a: seq<Placement>, b: seq<Placement>, color: bool, st: Style)
    ensures Draw(a + b, color, st) == Draw(a, color, st) + Draw(b, color, st)
  {
    if a != [] {
      assert (a + b)[0] == a[0];
      assert (a + b)[1..] == a[1..] + b;
      DrawAppend(a[1..], b, color, st);
    } else {
      assert a + b == b;
    }
  }

  /** The `k`-th glyph's worth of writes is the glyph of the `k`-th
      placement. */
  lemma DrawAt(ps: seq<Placement>, color: bool, st: Style, k: nat)
    requires k < |ps|
    ensures 0 <= k * GlyphSize(st) && k * GlyphSize(st) + GlyphSize(st) <= |Draw(ps, color, st)|
    ensures Draw(ps, color, st)[k * GlyphSize(st)..k * GlyphSize(st) + GlyphSize(st)]
         == Glyph(ps[k].x, ps[k].y, ps[k].c, color, st)
  {
    var before := Draw(ps[..k], color, st);
    var glyph := Glyph(ps[k].x, ps[k].y, ps[k].c, color, st);
    var after := Draw(ps[k + 1..], color, st);
    assert ps == ps[..k] + ps[k..];
    DrawAppend(ps[..k], ps[k..], color, st);
    DrawLength(ps[..k], color, st);
    DrawHead(ps[k..], color, st);
    assert ps[k..][0] == ps[k] && ps[k..][1..] == ps[k + 1..];
    SliceMiddle(before, glyph, after);
  }

  /** Drawing a non-empty run is drawing its first glyph, then the rest. */
  lemma DrawHead(ps: seq<Placement>, color: bool, st: Style)
    requires ps != []
    ensures Draw(ps, color, st) == Glyph(ps[0].x, ps[0].y, ps[0].c, color, st) + Draw(ps[1..], color, st)
  {
  }

  lemma SliceMiddle<T>(a: seq<T>, b: seq<T>, c: seq<T>)
    ensures (a + (b + c))[|a|..|a| + |b|] == b
  {
    assert (a + (b + c))[|a|..|a| + |b|] == (b + c)[..|b|];
  }

  /** A placement whose cell starts inside the box. */
  predicate Anchored(q: TextRequest, pl: Placement) {
    q.x0 <= pl.x < q.x0 + q.width && q.y0 <= pl.y < q.y0 + q.height
  }

  /** The layout stays within the box, overshooting right and bottom by at
      most one glyph less a pixel: glyphs start only at a column left of
      `width` and a row above `height`. */
  predicate WithinBox(q: TextRequest, st: Style, p: PixelWrite) {
    && q.x0 <= p.x < q.x0 + q.width + st.charWidth - 1
    && q.y0 <= p.y < q.y0 + q.height + 8 * HeightBytes(st) - 1
  }

  /** A glyph started inside the box draws only inside it, plus its own
      overshoot. */
  lemma GlyphWithinBox(q: TextRequest, st: Style, pl: Placement, p: PixelWrite)
    requires Anchored(q, pl)
    requires p in Glyph(pl.x, pl.y, pl.c, q.color, st)
    ensures WithinBox(q, st, p)
  {
    GlyphCell(pl.x, pl.y, pl.c, q.color, st, p);
  }

  /** Drawing placements that all start inside the box writes only within
      the box. */
  lemma {:induction false} DrawWithinBox(q: TextRequest, st: Style, ps: seq<Placement>, p: PixelWrite)
    requires forall pl | pl in ps :: Anchored(q, pl)
    requires p in Draw(ps, q.color, st)
    ensures WithinBox(q, st, p)
  {
    var head := Glyph(ps[0].x, ps[0].y, ps[0].c, q.color, st);
    if p in head {
      GlyphWithinBox(q, st, ps[0], p);
    } else {
      assert forall pl | pl in ps[1..] :: pl in ps;
      DrawWithinBox(q, st, ps[1..], p);
    }
  }

  // ---------------------------------------------------------------------------
  // `_print_text` as written

  /** The `while` loop of `_print_text` from `index` with the cursor at
      (`column`, `row`): the glyphs it draws, in order. A newline, and
      equally any character met once `column >= width`, moves to the next
      line AND is consumed; a drawable character met once `row >= height`
      ends the layout. */
  function LayoutFrom(q: TextRequest, st: Style, index: nat, column: int, row: int): seq<Placement>
    decreases |q.text| - index
  {
    if index >= |q.text| || q.text[index] == NUL then []
    else if q.text[index] == NEWLINE || column >= q.width then LayoutFrom(q, st, index + 1, 0, row + st.charHeight)
    else if row >= q.height then []
    else [Placement(q.x0 + column, q.y0 + row, q.text[index])] + LayoutFrom(q, st, index + 1, column + Advance(st), row)
  }

  /** From any character on, the as-written layout draws at most one glyph
      per remaining character. */
  lemma {:induction false} LayoutAtMostOneGlyphEach(q: TextRequest, st: Style, index: nat, column: int, row: int)
    requires index <= |q.text|
    ensures |LayoutFrom(q, st, index, column, row)| <= |q.text| - index
    decreases |q.text| - index
  {
    if index < |q.text| && q.text[index] != NUL {
      if q.text[index] == NEWLINE || column >= q.width {
        LayoutAtMostOneGlyphEach(q, st, index + 1, 0, row + st.charHeight);
      } else if row < q.height {
        LayoutAtMostOneGlyphEach(q, st, index + 1, column + Advance(st), row);
      }
    }
  }

  lemma MulStep(n: nat, g: nat)
    requires n > 0
    ensures (n - 1) * g + g == n * g
  {
  }

  /** A drawable text whose glyphs all start left of `width` on the first
      line of a box with at least one row. */
  predicate FitsOneLine(q: TextRequest, st: Style) {
    Drawable(q.text) && q.height > 0 && (|q.text| > 0 ==> (|q.text| - 1) * Advance(st) < q.width)
  }

  /** `_print_text`: every pixel it writes lies within the box, each
      character draws at most one glyph, and a text that fits one line is
      drawn in full, character `i` at `i` advances right of the origin. */
  function PrintText(q: TextRequest, st: Style): (w: seq<PixelWrite>)
    ensures forall p | p in w :: WithinBox(q, st, p)
    ensures |w| <= |q.text| * GlyphSize(st)
    ensures FitsOneLine(q, st) ==> |w| == |q.text| * GlyphSize(st)
    ensures FitsOneLine(q, st) ==> w == Draw(LinePlaces(q, st), q.color, st)
  {
    var ps := LayoutFrom(q, st, 0, 0, 0);
    LayoutAllWithinBox(q, st);
    forall p | p in Draw(ps, q.color, st) ensures WithinBox(q, st, p) {
      DrawWithinBox(q, st, ps, p);
    }
    LayoutAtMostOneGlyphEach(q, st, 0, 0, 0);
    DrawLength(ps, q.color, st);
    MulMono(|ps|, |q.text|, GlyphSize(st));
    OneLineCount(q, st);
    OneLineLayout(q, st);
    Draw(ps, q.color, st)
  }

  /** From character `index` at `column`, every character is drawable and
      starts left of `width`: the as-written layout never wraps. */
  predicate OnLine(q: TextRequest, st: Style, index: nat, column: int)
    decreases |q.text| - index
  {
    index >= |q.text| ||
    (q.text[index] != NUL && q.text[index] != NEWLINE && column < q.width && OnLine(q, st, index + 1, column + Advance(st)))
  }

  lemma {:induction false} FitsOnLine(q: TextRequest, st: Style, index: nat, column: int)
    requires Drawable(q.text) && index <= |q.text| && column >= 0
    requires index < |q.text| ==> column + (|q.text| - index - 1) * Advance(st) < q.width
    ensures OnLine(q, st, index, column)
    decreases |q.text| - index
  {
    if index < |q.text| {
      var n := |q.text| - index;
      var a := Advance(st);
      MulMono(0, n - 1, a);
      assert q.text[index] != NUL && q.text[index] != NEWLINE;
      if index + 1 < |q.text| {
        MulStep(n - 1, a);
      }
      FitsOnLine(q, st, index + 1, column + a);
    }
  }

  /** As written, a text that stays on the line on a row above `height` is
      drawn one glyph per character. */
  lemma {:induction false} OneLineFrom(q: TextRequest, st: Style, index: nat, column: int, row: int)
    requires index <= |q.text| && OnLine(q, st, index, column) && row < q.height
    ensures |LayoutFrom(q, st, index, column, row)| == |q.text| - index
    decreases |q.text| - index
  {
    if index < |q.text| {
      OneLineFrom(q, st, index + 1, column + Advance(st), row);
    }
  }

  lemma OneLineCount(q: TextRequest, st: Style)
    ensures FitsOneLine(q, st) ==> |LayoutFrom(q, st, 0, 0, 0)| == |q.text|
  {
    if FitsOneLine(q, st) {
      FitsOnLine(q, st, 0, 0);
      OneLineFrom(q, st, 0, 0, 0);
    }
  }

  /** The reference placement of a text on the first line: the glyph of
      character `i` starts `i` advances right of the origin. */
  function LinePlaces(q: TextRequest, st: Style): seq<Placement> {
    seq(|q.text|, i requires 0 <= i < |q.text| => Placement(q.x0 + i * Advance(st), q.y0, q.text[i]))
  }

  /** As written, a text that fits one line is laid out at the reference
      places: the column grows by one advance per character. */
  lemma {:induction false} OneLineIsLinePlaces(q: TextRequest, st: Style, index: nat)
    requires FitsOneLine(q, st) && index <= |q.text|
    ensures LayoutFrom(q, st, index, index * Advance(st), 0) == LinePlaces(q, st)[index..]
    decreases |q.text| - index
  {
    if index < |q.text| {
      var a := Advance(st);
      MulMono(index, |q.text| - 1, a);
      assert q.text[index] != NUL && q.text[index] != NEWLINE;
      MulStep(index + 1, a);
      OneLineIsLinePlaces(q, st, index + 1);
      assert LinePlaces(q, st)[index..] == [LinePlaces(q, st)[index]] + LinePlaces(q, st)[index + 1..];
    }
  }

  lemma OneLineLayout(q: TextRequest, st: Style)
    ensures FitsOneLine(q, st) ==> LayoutFrom(q, st, 0, 0, 0) == LinePlaces(q, st)
  {
    if FitsOneLine(q, st) {
      OneLineIsLinePlaces(q, st, 0);
    }
  }

  /** `_print_text` of a text that fits one line: the `k`-th glyph's worth
      of writes is the glyph of character `k`, drawn `k` advances right of
      the origin on the first row. */
  lemma PrintTextOneLine(q: TextRequest, st: Style)
    ensures FitsOneLine(q, st) ==>
      forall k | 0 <= k < |q.text| ::
        && 0 <= k * GlyphSize(st) && k * GlyphSize(st) + GlyphSize(st) <= |PrintText(q, st)|
        && PrintText(q, st)[k * GlyphSize(st)..k * GlyphSize(st) + GlyphSize(st)]
           == Glyph(q.x0 + k * Advance(st), q.y0, q.text[k], q.color, st)
  {
    if FitsOneLine(q, st) {
      var ps := LinePlaces(q, st);
      forall k | 0 <= k < |q.text|
        ensures && 0 <= k * GlyphSize(st) && k * GlyphSize(st) + GlyphSize(st) <= |PrintText(q, st)|
                && PrintText(q, st)[k * GlyphSize(st)..k * GlyphSize(st) + GlyphSize(st)]
                   == Glyph(q.x0 + k * Advance(st), q.y0, q.text[k], q.color, st)
      {
        DrawAt(ps, q.color, st, k);
      }
    }
  }

  /** `PrintTextOneLine` for a style whose glyph size and advance are
      known numbers. */
  lemma PrintTextOneLineSized(q: TextRequest, st: Style, g: nat, a: nat)
    requires GlyphSize(st) == g && Advance(st) == a
    ensures Drawable(q.text) && q.height > 0 && (|q.text| > 0 ==> (|q.text| - 1) * a < q.width) ==>
      forall k | 0 <= k < |q.text| ::
        && 0 <= k * g && k * g + g <= |PrintText(q, st)|
        && PrintText(q, st)[k * g..k * g + g] == Glyph(q.x0 + k * a, q.y0, q.text[k], q.color, st)
  {
    PrintTextOneLine(q, st);
  }

  /** Two layouts in the same box from the same cursor agree when the
      characters still ahead are the same. */
  lemma {:induction false} LayoutCongruent(q1: TextRequest, q2: TextRequest, st: Style, i1: nat, i2: nat, column: int, row: int)
    requires q1.(text := q2.text) == q2
    requires i1 <= |q1.text| && i2 <= |q2.text| && q1.text[i1..] == q2.text[i2..]
    ensures LayoutFrom(q1, st, i1, column, row) == LayoutFrom(q2, st, i2, column, row)
    decreases |q1.text| - i1
  {
    if i1 < |q1.text| {
      assert q1.text[i1] == q1.text[i1..][0] == q2.text[i2..][0] == q2.text[i2];
      assert q1.text[i1 + 1..] == q1.text[i1..][1..];
      assert q2.text[i2 + 1..] == q2.text[i2..][1..];
      var c := q1.text[i1];
      if c == NUL {
      } else if c == NEWLINE || column >= q1.width {
        LayoutCongruent(q1, q2, st, i1 + 1, i2 + 1, 0, row + st.charHeight);
      } else if row < q1.height {
        LayoutCongruent(q1, q2, st, i1 + 1, i2 + 1, column + Advance(st), row);
      }
    } else {
      assert |q2.text[i2..]| == 0;
    }
  }

  /** A layout that starts `d` pixels lower is the layout in the box moved
      `d` pixels down and made `d` pixels shorter. */
  lemma {:induction false} LayoutShiftDown(q: TextRequest, st: Style, index: nat, column: int, row: int, d: int)
    ensures LayoutFrom(q, st, index, column, row + d) == LayoutFrom(q.(y0 := q.y0 + d, height := q.height - d), st, index, column, row)
    decreases |q.text| - index
  {
    if index < |q.text| && q.text[index] != NUL {
      if q.text[index] == NEWLINE || column >= q.width {
        LayoutShiftDown(q, st, index + 1, 0, row + st.charHeight, d);
        assert row + d + st.charHeight == row + st.charHeight + d;
      } else if row + d < q.height {
        LayoutShiftDown(q, st, index + 1, column + Advance(st), row, d);
        assert q.y0 + (row + d) == q.y0 + d + row;
      }
    }
  }

  /** As written, a line that stays on the line, then a newline: the text
      after the newline is laid out from its first character, one glyph
      height lower. */
  lemma {:induction false} NewlineSplitsFrom(q: TextRequest, st: Style, t: Bytes, u: Bytes, index: nat, column: int)
    requires index <= |t| && OnLine(q.(text := t), st, index, column) && q.height > 0
    ensures LayoutFrom(q.(text := t + [NEWLINE] + u), st, index, column, 0)
         == LayoutFrom(q.(text := t), st, index, column, 0) + LayoutFrom(q.(text := u), st, 0, 0, st.charHeight)
    decreases |t| - index
  {
    if index < |t| {
      assert (t + [NEWLINE] + u)[index] == t[index];
      NewlineSplitsFrom(q, st, t, u, index + 1, column + Advance(st));
    } else {
      NewlineStep(q, st, t, u, column);
    }
  }

  lemma NewlineStep(q: TextRequest, st: Style, t: Bytes, u: Bytes, column: int)
    ensures LayoutFrom(q.(text := t + [NEWLINE] + u), st, |t|, column, 0) == LayoutFrom(q.(text := u), st, 0, 0, st.charHeight)
  {
    var qf := q.(text := t + [NEWLINE] + u);
    var qu := q.(text := u);
    assert qf.text[|t|] == NEWLINE;
    assert qf.text[|t| + 1..] == qu.text[0..];
    LayoutCongruent(qf, qu, st, |t| + 1, 0, 0, st.charHeight);
  }

  /** `_print_text` of a fitting line, a newline and a rest: the line is
      printed as on its own, and the rest as its own text in the box moved
      down one glyph height. */
  lemma PrintTextNewline(q: TextRequest, st: Style, t: Bytes, u: Bytes)
    requires FitsOneLine(q.(text := t), st)
    ensures PrintText(q.(text := t + [NEWLINE] + u), st)
         == PrintText(q.(text := t), st) + PrintText(q.(text := u, y0 := q.y0 + st.charHeight, height := q.height - st.charHeight), st)
  {
    FitsOnLine(q.(text := t), st, 0, 0);
    NewlineSplitsFrom(q, st, t, u, 0, 0);
    LayoutShiftDown(q.(text := u), st, 0, 0, 0, st.charHeight);
    DrawAppend(LayoutFrom(q.(text := t), st, 0, 0, 0), LayoutFrom(q.(text := u), st, 0, 0, st.charHeight), q.color, st);
  }

  /** Every glyph of the as-written layout starts inside the box. */
  lemma LayoutAllWithinBox(q: TextRequest, st: Style)
    ensures forall pl | pl in LayoutFrom(q, st, 0, 0, 0) :: Anchored(q, pl)
  {
    forall pl | pl in LayoutFrom(q, st, 0, 0, 0) ensures Anchored(q, pl) {
      LayoutWithinBox(q, st, 0, 0, 0, pl);
    }
  }

  /** Everything after the first NUL is ignored. */
  lemma {:induction false} LayoutStopsAtNul(q: TextRequest, st: Style, t: Bytes, u: Bytes, index: nat, column: int, row: int)
    requires index <= |t|
    ensures LayoutFrom(q.(text := t + [NUL] + u), st, index, column, row) == LayoutFrom(q.(text := t), st, index, column, row)
    decreases |t| - index
  {
    var full := t + [NUL] + u;
    if index < |t| {
      var c := t[index];
      assert full[index] == c;
      if c == NUL {
      } else if c == NEWLINE || column >= q.width {
        LayoutStopsAtNul(q, st, t, u, index + 1, 0, row + st.charHeight);
      } else if row < q.height {
        LayoutStopsAtNul(q, st, t, u, index + 1, column + Advance(st), row);
      }
    } else {
      assert full[index] == NUL;
    }
  }

  lemma PrintTextStopsAtNul(q: TextRequest, st: Style, t: Bytes, u: Bytes)
    ensures PrintText(q.(text := t + [NUL] + u), st) == PrintText(q.(text := t), st)
  {
    LayoutStopsAtNul(q, st, t, u, 0, 0, 0);
  }

  /** From an in-box cursor, every glyph the layout draws starts inside the
      box. */
  lemma {:induction false} LayoutWithinBox(q: TextRequest, st: Style, index: nat, column: int, row: int, pl: Placement)
    requires column >= 0 && row >= 0
    requires pl in LayoutFrom(q, st, index, column, row)
    ensures Anchored(q, pl)
    decreases |q.text| - index
  {
    if index >= |q.text| || q.text[index] == NUL {
    } else if q.text[index] == NEWLINE || column >= q.width {
      LayoutWithinBox(q, st, index + 1, 0, row + st.charHeight, pl);
    } else if row >= q.height {
    } else if pl != Placement(q.x0 + column, q.y0 + row, q.text[index]) {
      LayoutWithinBox(q, st, index + 1, column + Advance(st), row, pl);
    }
  }

  /** Drawing a single placement is drawing its glyph. */
  lemma DrawOne(pl: Placement, color: bool, st: Style)
    ensures Draw([pl], color, st) == Glyph(pl.x, pl.y, pl.c, color, st)
  {
    assert [pl][1..] == [];
  }

  /** The character that triggers an automatic line wrap is swallowed:
      with room for one glyph per line, "ab" draws the `a` alone. */
  lemma WrapDropsCharacter(q: TextRequest, st: Style, a: bv8, b: bv8)
    requires a != NUL && a != NEWLINE && b != NUL && b != NEWLINE
    requires q.text == [a, b] && q.width == Advance(st) > 0 && q.height > 0
    ensures LayoutFrom(q, st, 0, 0, 0) == [Placement(q.x0, q.y0, a)]
    ensures PrintText(q, st) == Glyph(q.x0, q.y0, a, q.color, st)
  {
    assert LayoutFrom(q, st, 1, Advance(st), 0) == LayoutFrom(q, st, 2, 0, st.charHeight) == [];
    DrawOne(Placement(q.x0, q.y0, a), q.color, st);
  }

  // ---------------------------------------------------------------------------
  // `_print_text` with the wrap keeping its character

  /** The layout as evidently intended: an automatic wrap moves to the next
      line and then draws the character there. At column 0 a box narrower
      than one column still consumes the character, as the source does, so
      the layout always ends. */
  function WrappedLayoutFrom(q: TextRequest, st: Style, index: nat, column: int, row: int): seq<Placement>
    decreases |q.text| - index, if column > 0 then 1 else 0
  {
    if index >= |q.text| || q.text[index] == NUL then []
    else if q.text[index] == NEWLINE then WrappedLayoutFrom(q, st, index + 1, 0, row + st.charHeight)
    else if column >= q.width && column > 0 then WrappedLayoutFrom(q, st, index, 0, row + st.charHeight)
    else if column >= q.width then WrappedLayoutFrom(q, st, index + 1, 0, row + st.charHeight)
    else if row >= q.height then []
    else [Placement(q.x0 + column, q.y0 + row, q.text[index])] + WrappedLayoutFrom(q, st, index + 1, column + Advance(st), row)
  }

  /** `_print_text` with the wrap corrected: every pixel it writes lies
      within the box, and a drawable text with a row for each character is
      drawn in full. */
  function PrintTextWrapped(q: TextRequest, st: Style): (w: seq<PixelWrite>)
    ensures forall p | p in w :: WithinBox(q, st, p)
    ensures Drawable(q.text) && q.width > 0 && (|q.text| > 0 ==> (|q.text| - 1) * st.charHeight < q.height) ==>
      |w| == |q.text| * GlyphSize(st)
  {
    var ps := WrappedLayoutFrom(q, st, 0, 0, 0);
    WrappedWithinBox(q, st);
    forall p | p in Draw(ps, q.color, st) ensures WithinBox(q, st, p) {
      DrawWithinBox(q, st, ps, p);
    }
    WrappedCountWhenFits(q, st);
    DrawLength(ps, q.color, st);
    Draw(ps, q.color, st)
  }

  /** Characters that are neither the terminator nor a newline. */
  predicate Drawable(t: Bytes) {
    forall i | 0 <= i < |t| :: t[i] != NUL && t[i] != NEWLINE
  }

  lemma MulMono(a: nat, b: nat, c: nat)
    requires a <= b
    ensures a * c <= b * c
  {
  }

  /** The rows the remaining characters from `index` may still need:
      one per character, plus one for a wrap before the next one. */
  predicate RowsLeft(q: TextRequest, st: Style, index: nat, column: int, row: int) {
    index < |q.text| ==> row + (|q.text| - index - 1 + (if column > 0 then 1 else 0)) * st.charHeight < q.height
  }

  lemma {:induction false} WrappedDrawsEveryCharacterFrom(q: TextRequest, st: Style, index: nat, column: int, row: int)
    requires Drawable(q.text) && q.width > 0 && index <= |q.text| && row >= 0 && column >= 0
    requires RowsLeft(q, st, index, column, row)
    ensures |WrappedLayoutFrom(q, st, index, column, row)| == |q.text| - index
    decreases |q.text| - index, if column > 0 then 1 else 0, 1
  {
    if index < |q.text| {
      if column >= q.width {
        WrapKeepsCount(q, st, index, column, row);
      } else {
        DrawKeepsCount(q, st, index, column, row);
      }
    }
  }

  lemma {:induction false} WrapKeepsCount(q: TextRequest, st: Style, index: nat, column: int, row: int)
    requires Drawable(q.text) && q.width > 0 && index < |q.text| && row >= 0 && column >= q.width
    requires RowsLeft(q, st, index, column, row)
    ensures |WrappedLayoutFrom(q, st, index, column, row)| == |q.text| - index
    decreases |q.text| - index, if column > 0 then 1 else 0, 0
  {
    var n := |q.text| - index;
    var h := st.charHeight;
    assert q.text[index] != NUL && q.text[index] != NEWLINE;
    assert WrappedLayoutFrom(q, st, index, column, row) == WrappedLayoutFrom(q, st, index, 0, row + h);
    assert (n - 1) * h + h == n * h by {
      assert n * h == (n - 1 + 1) * h;
    }
    WrappedDrawsEveryCharacterFrom(q, st, index, 0, row + h);
  }

  lemma {:induction false} DrawKeepsCount(q: TextRequest, st: Style, index: nat, column: int, row: int)
    requires Drawable(q.text) && q.width > 0 && index < |q.text| && row >= 0 && 0 <= column < q.width
    requires RowsLeft(q, st, index, column, row)
    ensures |WrappedLayoutFrom(q, st, index, column, row)| == |q.text| - index
    decreases |q.text| - index, if column > 0 then 1 else 0, 0
  {
    RowsLeftAfterDraw(q, st, index, column, row);
    assert q.text[index] != NUL && q.text[index] != NEWLINE;
    WrappedDrawsEveryCharacterFrom(q, st, index + 1, column + Advance(st), row);
  }

  /** A drawable character at an in-box cursor leaves rows for the rest. */
  lemma RowsLeftAfterDraw(q: TextRequest, st: Style, index: nat, column: int, row: int)
    requires index < |q.text| && row >= 0 && 0 <= column
    requires RowsLeft(q, st, index, column, row)
    ensures row < q.height
    ensures RowsLeft(q, st, index + 1, column + Advance(st), row)
  {
    var n := |q.text| - index;
    var h := st.charHeight;
    var k := if column > 0 then 1 else 0;
    MulMono(0, n - 1 + k, h);
    if index + 1 < |q.text| {
      var k' := if column + Advance(st) > 0 then 1 else 0;
      MulMono(n - 2 + k', n - 1 + k, h);
    }
  }

  /** With the wrap fixed, every character of a drawable text is drawn once
      the box has a row for each: the `k`-th placement carries character
      `k`, `|text|` glyphs in all. */
  lemma WrappedDrawsEveryCharacter(q: TextRequest, st: Style)
    requires Drawable(q.text) && q.width > 0
    requires |q.text| > 0 ==> (|q.text| - 1) * st.charHeight < q.height
    ensures |WrappedLayoutFrom(q, st, 0, 0, 0)| == |q.text|
    ensures forall k | 0 <= k < |q.text| :: WrappedLayoutFrom(q, st, 0, 0, 0)[k].c == q.text[k]
    ensures |PrintTextWrapped(q, st)| == |q.text| * GlyphSize(st)
  {
    WrappedDrawsEveryCharacterFrom(q, st, 0, 0, 0);
    WrappedKeepsOrder(q, st, 0, 0, 0);
  }

  /** Under the same conditions, the `k`-th glyph's worth of writes of the
      corrected `_print_text` draws character `k` at the `k`-th placement. */
  lemma WrappedGlyphAt(q: TextRequest, st: Style, k: nat)
    requires Drawable(q.text) && q.width > 0
    requires |q.text| > 0 ==> (|q.text| - 1) * st.charHeight < q.height
    requires k < |q.text|
    ensures var g := GlyphSize(st);
      && k < |WrappedLayoutFrom(q, st, 0, 0, 0)|
      && 0 <= k * g && k * g + g <= |PrintTextWrapped(q, st)|
      && PrintTextWrapped(q, st)[k * g..k * g + g]
         == Glyph(WrappedLayoutFrom(q, st, 0, 0, 0)[k].x, WrappedLayoutFrom(q, st, 0, 0, 0)[k].y, q.text[k], q.color, st)
  {
    WrappedDrawsEveryCharacter(q, st);
    DrawAt(WrappedLayoutFrom(q, st, 0, 0, 0), q.color, st, k);
  }

  /** The corrected layout keeps the text's order: its `k`-th placement
      from `index` carries character `index + k` of a drawable text. */
  lemma {:induction false} WrappedKeepsOrder(q: TextRequest, st: Style, index: nat, column: int, row: int)
    requires Drawable(q.text) && q.width > 0
    ensures CarriesFrom(WrappedLayoutFrom(q, st, index, column, row), q.text, index)
    decreases |q.text| - index, if column > 0 then 1 else 0
  {
    if index < |q.text| {
      assert q.text[index] != NUL && q.text[index] != NEWLINE;
      if column >= q.width {
        assert WrappedLayoutFrom(q, st, index, column, row) == WrappedLayoutFrom(q, st, index, 0, row + st.charHeight);
        WrappedKeepsOrder(q, st, index, 0, row + st.charHeight);
      } else if row < q.height {
        var head := Placement(q.x0 + column, q.y0 + row, q.text[index]);
        var rest := WrappedLayoutFrom(q, st, index + 1, column + Advance(st), row);
        assert WrappedLayoutFrom(q, st, index, column, row) == [head] + rest;
        WrappedKeepsOrder(q, st, index + 1, column + Advance(st), row);
        CarriesCons(head, rest, q.text, index);
      }
    }
  }

  /** Placements `ps` carry the characters of `t` from `i` on, in order. */
  predicate CarriesFrom(ps: seq<Placement>, t: Bytes, i: nat) {
    forall k | 0 <= k < |ps| :: i + k < |t| && ps[k].c == t[i + k]
  }

  /** Prepending the placement of character `i` to placements carrying the
      text from `i + 1` gives placements carrying it from `i`. */
  lemma CarriesCons(head: Placement, rest: seq<Placement>, t: Bytes, i: nat)
    requires i < |t| && head.c == t[i] && CarriesFrom(rest, t, i + 1)
    ensures CarriesFrom([head] + rest, t, i)
  {
    var ps := [head] + rest;
    forall k | 0 <= k < |ps| ensures i + k < |t| && ps[k].c == t[i + k] {
      if k > 0 {
        assert ps[k] == rest[k - 1];
      }
    }
  }

  /** The corrected layout of "ab" one glyph per line: `a`, then `b` one
      line lower. */
  lemma WrapKeepsCharacter(q: TextRequest, st: Style, a: bv8, b: bv8)
    requires a != NUL && a != NEWLINE && b != NUL && b != NEWLINE
    requires q.text == [a, b] && q.width == Advance(st) > 0 && q.height > st.charHeight
    ensures WrappedLayoutFrom(q, st, 0, 0, 0) == [Placement(q.x0, q.y0, a), Placement(q.x0, q.y0 + st.charHeight, b)]
    ensures PrintTextWrapped(q, st) == Glyph(q.x0, q.y0, a, q.color, st) + Glyph(q.x0, q.y0 + st.charHeight, b, q.color, st)
  {
    var pa := Placement(q.x0, q.y0, a);
    var pb := Placement(q.x0, q.y0 + st.charHeight, b);
    assert WrappedLayoutFrom(q, st, 1, Advance(st), 0) == WrappedLayoutFrom(q, st, 1, 0, st.charHeight);
    assert WrappedLayoutFrom(q, st, 2, Advance(st), st.charHeight) == [];
    assert [pa, pb] == [pa] + [pb];
    DrawAppend([pa], [pb], q.color, st);
    DrawOne(pa, q.color, st);
    DrawOne(pb, q.color, st);
  }

  lemma {:induction false} WrappedLayoutWithinBox(q: TextRequest, st: Style, index: nat, column: int, row: int, pl: Placement)
    requires column >= 0 && row >= 0
    requires pl in WrappedLayoutFrom(q, st, index, column, row)
    ensures Anchored(q, pl)
    decreases |q.text| - index, if column > 0 then 1 else 0
  {
    if index >= |q.text| || q.text[index] == NUL {
    } else if q.text[index] == NEWLINE {
      WrappedLayoutWithinBox(q, st, index + 1, 0, row + st.charHeight, pl);
    } else if column >= q.width && column > 0 {
      WrappedLayoutWithinBox(q, st, index, 0, row + st.charHeight, pl);
    } else if column >= q.width {
      WrappedLayoutWithinBox(q, st, index + 1, 0, row + st.charHeight, pl);
    } else if row >= q.height {
    } else if pl != Placement(q.x0 + column, q.y0 + row, q.text[index]) {
      WrappedLayoutWithinBox(q, st, index + 1, column + Advance(st), row, pl);
    }
  }

  lemma WrappedWithinBox(q: TextRequest, st: Style)
    ensures forall pl | pl in WrappedLayoutFrom(q, st, 0, 0, 0) :: Anchored(q, pl)
  {
    forall pl | pl in WrappedLayoutFrom(q, st, 0, 0, 0) ensures Anchored(q, pl) {
      WrappedLayoutWithinBox(q, st, 0, 0, 0, pl);
    }
  }

  lemma WrappedCountWhenFits(q: TextRequest, st: Style)
    ensures Drawable(q.text) && q.width > 0 && (|q.text| > 0 ==> (|q.text| - 1) * st.charHeight < q.height) ==>
      |WrappedLayoutFrom(q, st, 0, 0, 0)| == |q.text|
  {
    if Drawable(q.text) && q.width > 0 && (|q.text| > 0 ==> (|q.text| - 1) * st.charHeight < q.height) {
      WrappedDrawsEveryCharacterFrom(q, st, 0, 0, 0);
    }
  }

  // ---------------------------------------------------------------------------
  // The public entry points

  /** `hugo_graphics_print_text_8x8`: `_print_text` as written with 8x8
      glyphs packed edge to edge. */
  function PrintText8x8(x0: int, y0: int, width: int, height: int, text: Bytes, color: bool, font8x8: Font): (w: seq<PixelWrite>)
    ensures forall p | p in w :: x0 <= p.x < x0 + width + 7 && y0 <= p.y < y0 + height + 7
    ensures |w| <= 64 * |text|
    ensures Drawable(text) && height > 0 && (|text| > 0 ==> (|text| - 1) * 8 < width) ==> |w| == 64 * |text|
    ensures Drawable(text) && height > 0 && (|text| > 0 ==> (|text| - 1) * 8 < width) ==>
      forall i | 0 <= i < |text| :: w[i * 64..i * 64 + 64] == Glyph(x0 + i * 8, y0, text[i], color, Style(font8x8, 8, 8, false))
  {
    var q := TextRequest(x0, y0, width, height, text, color);
    var st := Style(font8x8, 8, 8, false);
    PrintTextOneLineSized(q, st, 64, 8);
    PrintText(q, st)
  }

  /** `hugo_graphics_print_text_8x16`: `_print_text` as written with 8x16
      glyphs and one blank column between neighbours. */
  function PrintText8x16(x0: int, y0: int, width: int, height: int, text: Bytes, color: bool, font8x16: Font): (w: seq<PixelWrite>)
    ensures forall p | p in w :: x0 <= p.x < x0 + width + 7 && y0 <= p.y < y0 + height + 15
    ensures |w| <= 128 * |text|
    ensures Drawable(text) && height > 0 && (|text| > 0 ==> (|text| - 1) * 9 < width) ==> |w| == 128 * |text|
    ensures Drawable(text) && height > 0 && (|text| > 0 ==> (|text| - 1) * 9 < width) ==>
      forall i | 0 <= i < |text| :: w[i * 128..i * 128 + 128] == Glyph(x0 + i * 9, y0, text[i], color, Style(font8x16, 8, 16, true))
  {
    var q := TextRequest(x0, y0, width, height, text, color);
    var st := Style(font8x16, 8, 16, true);
    PrintTextOneLineSized(q, st, 128, 9);
    PrintText(q, st)
  }

  /** `hugo_graphics_set_point`: the adapter's answer and effect, unchanged. */
  function SetPoint(p: S.Panel, x: int, y: int, color: bool): (r: (S.Panel, bool))
    requires S.Valid(p)
    ensures r.1 <==> S.InBounds(x, y)
    ensures S.Valid(r.0) && (r.1 ==> S.Pixel(r.0, x, y) == color)
    ensures r == S.SetPoint(p, x, y, color)
  {
    var r := S.SetPoint(p, x, y, color);
    if r.1 then S.SetThenPixel(p, x, y, color, x, y); r else r
  }

  /** `hugo_graphics_get_point`: the adapter's answer, unchanged. */
  function GetPoint(p: S.Panel, x: int, y: int): (r: Option<bool>)
    requires S.Valid(p)
    ensures r == S.GetPoint(p, x, y)
    ensures S.InBounds(x, y) ==> r.Some? && (r.value <==> p.buffer[S.BuffPos(x, y)] != 0)
  {
    S.GetPoint(p, x, y)
  }

  /** The panel after a sequence of `set_point` calls. */
  function Render(p: S.Panel, w: seq<PixelWrite>): (r: S.Panel)
    requires S.Valid(p)
    ensures S.Valid(r) && r.invert == p.invert
  {
    if w == [] then p
    else
      var last := w[|w| - 1];
      SetPoint(Render(p, w[..|w| - 1]), last.x, last.y, last.color).0
  }

  /** Whether a write targets the point (x, y). */
  predicate Hits(w: PixelWrite, x: int, y: int) {
    w.x == x && w.y == y
  }

  /** Points that no write targets keep their pixel. */
  lemma {:induction false} RenderUntouched(p: S.Panel, w: seq<PixelWrite>, x: int, y: int)
    requires S.Valid(p) && S.InBounds(x, y)
    requires forall i | 0 <= i < |w| :: !Hits(w[i], x, y)
    ensures S.Pixel(Render(p, w), x, y) == S.Pixel(p, x, y)
  {
    if w != [] {
      var init := w[..|w| - 1];
      var last := w[|w| - 1];
      assert forall i | 0 <= i < |init| :: init[i] == w[i];
      RenderUntouched(p, init, x, y);
      if S.InBounds(last.x, last.y) {
        S.SetThenPixel(Render(p, init), last.x, last.y, last.color, x, y);
      }
    }
  }

  /** Rendering shows, at an on-screen point, the colour of the last write
      to it. */
  lemma {:induction false} RenderLastWriteWins(p: S.Panel, w: seq<PixelWrite>, x: int, y: int, i: nat)
    requires S.Valid(p) && S.InBounds(x, y)
    requires i < |w| && Hits(w[i], x, y)
    requires forall j | i < j < |w| :: !Hits(w[j], x, y)
    ensures S.Pixel(Render(p, w), x, y) == w[i].color
  {
    var init := w[..|w| - 1];
    var last := w[|w| - 1];
    var before := Render(p, init);
    if i == |w| - 1 {
      S.SetThenPixel(before, x, y, last.color, x, y);
    } else {
      assert init[i] == w[i];
      assert forall j | i < j < |init| :: init[j] == w[j];
      RenderLastWriteWins(p, init, x, y, i);
      if S.InBounds(last.x, last.y) {
        S.SetThenPixel(before, last.x, last.y, last.color, x, y);
      }
    }
  }
}

=== FILE: protocol.dfy ===
/** The master and a tiny block talking over the bus: the frames the
    master side writes (tools/devel/___block_base.py), fed to the block's
    receive handler (hugo_tiny_wire.h), and the block's reply read back. */
module Protocol {
  import opened Wrappers
  import BB = BlockBase
  import TW = TinyWire
  import TWP = TinyWireProps

  /** The payload a master write carries after the type id and command. */
  function Payload(data: Option<Bytes>): Bytes {
    if BB.Truthy(data) then data.value else []
  }

  /** A master write to the block's own type reaches the block's command
      handler with the same command and the payload's size, and changes
      none of the decoder's statics. */
  lemma OwnWriteForwarded(b: BB.Block, command: int, data: Option<Bytes>, writeOk: bool,
                          cfg: TW.Config, s: TW.WireState, cb: TW.Callbacks)
    requires b.typeId == s.blockTypeId as int && 0 <= command < 256
    ensures var w := BB.TinyWrite(b, command, data, writeOk);
      && w.Ok?
      && TW.Receive(cfg, s, w.value[0].data, cb) == TW.Received(s, 2, [TW.ProcessCommand(command as bv8, TW.U8(|Payload(data)|))])
  {
    var w := BB.TinyWrite(b, command, data, writeOk);
    var f := w.value[0].data;
    assert f[0] == s.blockTypeId;
    assert |f| - 2 == |Payload(data)|;
    TWP.OwnFrameForwarded(cfg, s, f, cb);
  }

  /** `change_block_address(n)` end to end: the block stores `n` in EEPROM
      and resets, the master now addresses `n`, and after the reset the
      block listens on `n` unless `n` is the EEPROM's erased value, in which
      case it falls back to its type id. */
  lemma ChangeAddressEndToEnd(b: BB.Block, n: int, writeOk: bool, cfg: TW.Config, s: TW.WireState,
                              cb: TW.Callbacks, eepromDefault: bv8)
    requires 0 <= n < 256
    requires TW.CommandsDistinct(cfg.commands) && s.blockTypeId != TW.BLOCK_TYPE_ID_BASE
    ensures var r := BB.ChangeBlockAddress(b, n, writeOk);
      && r.Ok? && r.value.0.address == n
      && var rcv := TW.Receive(cfg, s, r.value.1[0].data, cb);
      && rcv.Received? && rcv.effects == [TW.EepromWriteAddress(n as bv8), TW.WatchdogReset]
      && var restarted := TW.Initialize(cfg, s.blockTypeId, s.extAddresses, n as bv8, eepromDefault);
      && (n as bv8 != eepromDefault ==> restarted.address as int == n)
      && (n as bv8 == eepromDefault ==> restarted.address == s.blockTypeId)
  {
    var r := BB.ChangeBlockAddress(b, n, writeOk);
    assert r.value.1[0].data == TWP.BaseFrame(TW.COMMAND_CHANGE_I2C_ADDRESS, [n as bv8]);
    TWP.ChangeAddressNeedsPayload(cfg, s, [n as bv8], cb);
  }

  /** Construction of the master-side object against a block that answers
      its version query: the query is the base-id `GET_MODULE_VERSION`
      frame, the block replies with its three version bytes, and the master
      records them, counts the block available, and accepts its type iff the
      first byte equals the expected type id. */
  lemma VersionExchange(bt: BB.BlockType, address: Option<int>, cfg: TW.Config, s: TW.WireState, cb: TW.Callbacks)
    requires TW.CommandsDistinct(cfg.commands) && s.blockTypeId != TW.BLOCK_TYPE_ID_BASE
    requires |cb.moduleVersion| == 3
    ensures var rcv := TW.Receive(cfg, s, [0xFA, 0xF7], cb);
      && rcv.Received?
      && var reply := TW.Request(rcv.state).1;
      && reply == Some(cb.moduleVersion)
      && var nb := BB.NewBlock(bt, address, BB.Bus(true, reply));
      && nb.Ok?
      && nb.value.1[0] == BB.WriteTo(BB.DefaultAddress(bt, address), [0xFA, 0xF7])
      && nb.value.0.version == Some(BB.Version(cb.moduleVersion[0], cb.moduleVersion[1], cb.moduleVersion[2]))
      && BB.IsAvailable(nb.value.0)
      && (nb.value.0.typeValid <==> cb.moduleVersion[0] as int == bt.id)
  {
    assert [0xFA, 0xF7] == TWP.BaseFrame(TW.COMMAND_GET_MODULE_VERSION, []);
    TWP.VersionQueryRoundTrip(cfg, s, [], cb);
    var nb := BB.NewBlock(bt, address, BB.Bus(true, Some(cb.moduleVersion)));
    assert nb.value.1[..2][0] == nb.value.1[0];
  }

  /** A block that does not answer is recorded as unavailable, with a
      warning, and its type is not accepted. */
  lemma SilentBlockUnavailable(bt: BB.BlockType, address: Option<int>, writeOk: bool)
    ensures var nb := BB.NewBlock(bt, address, BB.Bus(writeOk, None));
      && nb.Ok? && !BB.IsAvailable(nb.value.0) && !nb.value.0.typeValid
      && BB.LogWarning in nb.value.1 && BB.LogError !in nb.value.1
  {
  }

  /** Whether the version check accepted the block never gates a write:
      the master writes to a block of the wrong type just the same. */
  lemma WritesIgnoreTypeValidity(b: BB.Block, command: int, data: Option<Bytes>, writeOk: bool)
    ensures BB.TinyWrite(b, command, data, writeOk) == BB.TinyWrite(b.(typeValid := !b.typeValid), command, data, writeOk)
  {
  }
}

=== FILE: ssd1306.dfy ===
/** The SSD1306 OLED driver (components/display/ssd1306.c): a 128x64
    monochrome framebuffer of 8 pages of 128 column bytes, bit `y % 8` of
    byte `(y / 8) * 128 + x` holding pixel (x, y); the I2C writes that
    initialise the panel and flush the buffer; and the event wiring done at
    start-up. The I2C bus and the event loop are recorded as effects. */
module Ssd1306 {
  import opened Wrappers

  const COLUMNS: int := 128
  const PAGES: int := 8
  const PAGE_SIZE: int := 8
  const BUFFER_SIZE: int := COLUMNS * PAGES

  const OLED_I2C_ADDRESS: bv8 := 0x3C
  const OLED_CONTROL_BYTE_CMD_SINGLE: bv8 := 0x80
  const OLED_CONTROL_BYTE_CMD_STREAM: bv8 := 0x00
  const OLED_CONTROL_BYTE_DATA_STREAM: bv8 := 0x40
  const OLED_CMD_SET_CHARGE_PUMP: bv8 := 0x8D
  const OLED_CMD_SET_SEGMENT_REMAP: bv8 := 0xA1
  const OLED_CMD_SET_COM_SCAN_MODE: bv8 := 0xC8
  const OLED_CMD_DISPLAY_ON: bv8 := 0xAF

  /** The driver's statics `_buffer` and `_invert`. */
  datatype Panel = Panel(buffer: Bytes, invert: bool)

  /** `_buffer` is a fixed array of `BUFFER_SIZE` bytes. */
  predicate Valid(p: Panel) {
    |p.buffer| == BUFFER_SIZE
  }

  /** One `hugo_i2c_write_command_with_data(address, control, data, size)`. */
  datatype I2cWrite = I2cWrite(address: bv8, control: bv8, data: Bytes)

  /** What `hugo_ssd1306_init` hands to the graphics layer. */
  datatype Adapter = Adapter(width: int, height: int)

  // ---------------------------------------------------------------------------
  // Bits of a column byte

  function Mask(k: nat): (m: bv8)
    requires k < 8
  {
    (1 as bv8) << k
  }

  /** Whether bit `k` of `b` is set. */
  predicate Bit(b: bv8, k: nat)
    requires k < 8
  {
    (b >> k) & 1 == 1
  }

  lemma SetBitFrame(b: bv8, j: nat, k: nat)
    requires j < 8 && k < 8
    ensures Bit(b | Mask(j), k) == (k == j || Bit(b, k))
  {
  }

  lemma ClearBitFrame(b: bv8, j: nat, k: nat)
    requires j < 8 && k < 8
    ensures Bit(b & !Mask(j), k) == (k != j && Bit(b, k))
  {
  }

  /** `b` with bit `j` set (`|=`) or cleared (`&= ~`). */
  function WriteBit(b: bv8, j: nat, on: bool): bv8
    requires j < 8
  {
    if on then b | Mask(j) else b & !Mask(j)
  }

  lemma WriteBitFrame(b: bv8, j: nat, on: bool)
    requires j < 8
    ensures Bit(WriteBit(b, j, on), j) == on
    ensures forall k: nat | k < 8 && k != j :: Bit(WriteBit(b, j, on), k) == Bit(b, k)
  {
    forall k: nat | k < 8
      ensures Bit(WriteBit(b, j, on), k) == if k == j then on else Bit(b, k)
    {
      if on {
        SetBitFrame(b, j, k);
      } else {
        ClearBitFrame(b, j, k);
      }
    }
  }

  /** A byte is zero exactly when none of its eight bits is set. */
  lemma ZeroIffNoBit(b: bv8)
    ensures b != 0 <==> exists k: nat | k < 8 :: Bit(b, k)
  {
    if b != 0 {
      if !Bit(b, 0) && !Bit(b, 1) && !Bit(b, 2) && !Bit(b, 3) && !Bit(b, 4) && !Bit(b, 5) && !Bit(b, 6) {
        assert Bit(b, 7);
      }
    }
  }

  // ---------------------------------------------------------------------------
  // Addressing

  /** C's `/` on `int`, which truncates toward zero. */
  function CDiv(a: int, b: int): (q: int)
    requires b > 0
    ensures a >= 0 ==> q == a / b
    ensures a < 0 ==> q == -((-a) / b)
  {
    if a >= 0 then a / b else -((-a) / b)
  }

  predicate InBounds(x: int, y: int) {
    0 <= x < COLUMNS && 0 <= y < PAGES * PAGE_SIZE
  }

  /** `_get_buff_pos`. */
  function BuffPos(x: int, y: int): (pos: int)
    ensures InBounds(x, y) ==> 0 <= pos < BUFFER_SIZE && pos % COLUMNS == x && pos / COLUMNS == y / PAGE_SIZE
  {
    CDiv(y, PAGE_SIZE) * COLUMNS + x
  }

  /** Distinct in-bounds points share a byte exactly when they lie in the
      same column and the same page. */
  lemma BuffPosShared(x1: int, y1: int, x2: int, y2: int)
    requires InBounds(x1, y1) && InBounds(x2, y2)
    ensures BuffPos(x1, y1) == BuffPos(x2, y2) <==> x1 == x2 && y1 / PAGE_SIZE == y2 / PAGE_SIZE
  {
  }

  // ---------------------------------------------------------------------------
  // Drawing

  /** `_clean_buffer`: every byte 0xFF when inverted, 0x00 otherwise. */
  function Clean(p: Panel): (r: Panel)
    ensures Valid(r) && r.invert == p.invert
    ensures forall i | 0 <= i < BUFFER_SIZE :: r.buffer[i] == if p.invert then 0xFF else 0x00
  {
    p.(buffer := seq(BUFFER_SIZE, _ => if p.invert then 0xFF else 0x00))
  }

  /** `_set_point`: out of bounds it refuses (false) and changes nothing;
      in bounds it sets bit `y % 8` of the point's byte when the colour
      differs from the inversion flag, clears it otherwise, and answers
      true. */
  function SetPoint(p: Panel, x: int, y: int, color: bool): (r: (Panel, bool))
    requires Valid(p)
    ensures Valid(r.0) && r.0.invert == p.invert
    ensures r.1 <==> InBounds(x, y)
    ensures !r.1 ==> r.0 == p
    ensures forall i | 0 <= i < BUFFER_SIZE && i != BuffPos(x, y) :: r.0.buffer[i] == p.buffer[i]
  {
    if !InBounds(x, y) then (p, false)
    else
      var pos := BuffPos(x, y);
      (p.(buffer := p.buffer[pos := WriteBit(p.buffer[pos], y % PAGE_SIZE, color != p.invert)]), true)
  }

  /** An in-bounds `_set_point` changes exactly one bit: bit `y % 8` of the
      point's byte becomes `color != invert`, every other bit of that byte
      and every other byte stays as it was. */
  lemma SetPointBits(p: Panel, x: int, y: int, color: bool)
    requires Valid(p) && InBounds(x, y)
    ensures var q := SetPoint(p, x, y, color).0;
      var pos := BuffPos(x, y);
      && Bit(q.buffer[pos], y % PAGE_SIZE) == (color != p.invert)
      && forall k: nat | k < 8 && k != y % PAGE_SIZE :: Bit(q.buffer[pos], k) == Bit(p.buffer[pos], k)
  {
    var pos := BuffPos(x, y);
    var on := color != p.invert;
    assert SetPoint(p, x, y, color).0.buffer[pos] == WriteBit(p.buffer[pos], y % PAGE_SIZE, on);
    WriteBitFrame(p.buffer[pos], y % PAGE_SIZE, on);
  }

  /** `_get_point`: the C code converts the whole column byte to `bool`, so
      the answer is whether ANY of the eight pixels of that page column is
      set. Positions outside the array are undefined behaviour (None);
      out-of-range coordinates that still land inside the array read
      whatever byte they land on. */
  function GetPoint(p: Panel, x: int, y: int): (r: Option<bool>)
    requires Valid(p)
    ensures r.None? <==> !(0 <= BuffPos(x, y) < BUFFER_SIZE)
    ensures r.Some? ==> (r.value <==> exists k: nat | k < 8 :: Bit(p.buffer[BuffPos(x, y)], k))
  {
    var pos := BuffPos(x, y);
    if 0 <= pos < BUFFER_SIZE then ZeroIffNoBit(p.buffer[pos]); Some(p.buffer[pos] != 0) else None
  }

  /** The pixel bit `_set_point` writes, read back with the inversion undone. */
  function Pixel(p: Panel, x: int, y: int): (c: bool)
    requires Valid(p) && InBounds(x, y)
  {
    Bit(p.buffer[BuffPos(x, y)], y % PAGE_SIZE) != p.invert
  }

  /** Drawing a point and reading its pixel back gives the colour drawn,
      and no other pixel changes. */
  lemma SetThenPixel(p: Panel, x: int, y: int, color: bool, x2: int, y2: int)
    requires Valid(p) && InBounds(x, y) && InBounds(x2, y2)
    ensures Pixel(SetPoint(p, x, y, color).0, x, y) == color
    ensures (x2, y2) != (x, y) ==> Pixel(SetPoint(p, x, y, color).0, x2, y2) == Pixel(p, x2, y2)
  {
    SetPointBits(p, x, y, color);
    if (x2, y2) != (x, y) && BuffPos(x2, y2) == BuffPos(x, y) {
      BuffPosShared(x, y, x2, y2);
      assert y2 % PAGE_SIZE != y % PAGE_SIZE;
    }
  }

  /** A cleaned panel shows the background colour (false) everywhere, and
      `_get_point` reports exactly the inversion flag. */
  lemma CleanShowsBackground(p: Panel, x: int, y: int)
    requires InBounds(x, y)
    ensures !Pixel(Clean(p), x, y)
    ensures GetPoint(Clean(p), x, y) == Some(p.invert)
  {
  }

  /** `_get_point` reads a byte, not a bit: with one pixel of a page column
      set, its neighbour in that column reads as set too. */
  lemma GetPointSeesWholeColumn(p: Panel)
    requires Valid(p) && !p.invert
    ensures var q := SetPoint(Clean(p), 0, 1, true).0;
      GetPoint(q, 0, 0) == Some(true) && !Pixel(q, 0, 0)
  {
    var q := SetPoint(Clean(p), 0, 1, true).0;
    SetPointBits(Clean(p), 0, 1, true);
    SetThenPixel(Clean(p), 0, 1, true, 0, 0);
    CleanShowsBackground(p, 0, 0);
  }

  // ---------------------------------------------------------------------------
  // I2C traffic

  /** `init_sequence`: the display mode, charge pump on, segment remap, COM
      scan direction, column range 0..127, display on. */
  function InitSequence(invert: bool): (s: Bytes)
    ensures |s| == 9
  {
    [if invert then 0xA7 else 0xA6, OLED_CMD_SET_CHARGE_PUMP, 0x14, OLED_CMD_SET_SEGMENT_REMAP,
     OLED_CMD_SET_COM_SCAN_MODE, 0x21, 0x00, 0x7F, OLED_CMD_DISPLAY_ON]
  }

  /** `_init_ssd1306_event_action`: one command stream. */
  function InitAction(p: Panel): (w: seq<I2cWrite>)
    ensures |w| == 1 && w[0].address == OLED_I2C_ADDRESS && w[0].control == OLED_CONTROL_BYTE_CMD_STREAM
    ensures |w[0].data| == 9
    ensures w[0].data[0] == (if p.invert then 0xA7 else 0xA6)
  {
    [I2cWrite(OLED_I2C_ADDRESS, OLED_CONTROL_BYTE_CMD_STREAM, InitSequence(p.invert))]
  }

  /** The normal and the inverted sequence differ in the mode byte only,
      which selects the panel's inverse display (0xA7) or not (0xA6). */
  lemma InitSequencesDifferInModeOnly()
    ensures InitSequence(true)[1..] == InitSequence(false)[1..]
    ensures InitSequence(true)[0] == 0xA7 && InitSequence(false)[0] == 0xA6
  {
  }

  /** The bytes a trace streams to display RAM, in order. */
  function Streamed(w: seq<I2cWrite>): Bytes {
    if w == [] then []
    else Streamed(w[..|w| - 1]) + (if w[|w| - 1].control == OLED_CONTROL_BYTE_DATA_STREAM then w[|w| - 1].data else [])
  }

  lemma StreamedAppend(w: seq<I2cWrite>, a: I2cWrite)
    ensures Streamed(w + [a]) == Streamed(w) + (if a.control == OLED_CONTROL_BYTE_DATA_STREAM then a.data else [])
  {
    assert (w + [a])[..|w|] == w;
  }

  /** The single command selecting page `row`. */
  function SelectPage(row: int): I2cWrite
    requires 0 <= row < PAGES
  {
    I2cWrite(OLED_I2C_ADDRESS, OLED_CONTROL_BYTE_CMD_SINGLE, [0xB0 | row as bv8])
  }

  /** The data stream carrying page `row`'s 128 column bytes. */
  function PageWrite(p: Panel, row: int): (w: I2cWrite)
    requires Valid(p) && 0 <= row < PAGES
  {
    I2cWrite(OLED_I2C_ADDRESS, OLED_CONTROL_BYTE_DATA_STREAM, p.buffer[row * COLUMNS..row * COLUMNS + COLUMNS])
  }

  /** `_flush_event_action`: for each page in order, select it and stream
      its 128 column bytes. The streamed data is the whole buffer. */
  method Flush(p: Panel) returns (w: seq<I2cWrite>)
    requires Valid(p)
    ensures |w| == 2 * PAGES
    ensures forall r | 0 <= r < PAGES :: w[2 * r] == SelectPage(r) && w[2 * r + 1] == PageWrite(p, r)
    ensures Streamed(w) == p.buffer
  {
    w := [];
    var row := 0;
    while row < PAGES
      invariant 0 <= row <= PAGES
      invariant |w| == 2 * row
      invariant forall r | 0 <= r < row :: w[2 * r] == SelectPage(r) && w[2 * r + 1] == PageWrite(p, r)
      invariant Streamed(w) == p.buffer[..row * COLUMNS]
    {
      FlushStep(p, w, row);
      w := w + [SelectPage(row), PageWrite(p, row)];
      row := row + 1;
    }
    assert p.buffer[..PAGES * COLUMNS] == p.buffer;
  }

  /** One iteration of the flush loop keeps its invariant. */
  lemma FlushStep(p: Panel, w: seq<I2cWrite>, row: int)
    requires Valid(p) && 0 <= row < PAGES
    requires |w| == 2 * row
    requires forall r | 0 <= r < row :: w[2 * r] == SelectPage(r) && w[2 * r + 1] == PageWrite(p, r)
    requires Streamed(w) == p.buffer[..row * COLUMNS]
    ensures var w' := w + [SelectPage(row), PageWrite(p, row)];
      && (forall r | 0 <= r < row + 1 :: w'[2 * r] == SelectPage(r) && w'[2 * r + 1] == PageWrite(p, r))
      && Streamed(w') == p.buffer[..(row + 1) * COLUMNS]
  {
    StreamStep(p, w, row);
    var w' := w + [SelectPage(row), PageWrite(p, row)];
    forall r | 0 <= r < row + 1
      ensures w'[2 * r] == SelectPage(r) && w'[2 * r + 1] == PageWrite(p, r)
    {
      if r < row {
        assert w'[2 * r] == w[2 * r] && w'[2 * r + 1] == w[2 * r + 1];
      }
    }
  }

  /** Selecting page `row` and streaming it extends the streamed data by that page. */
  lemma StreamStep(p: Panel, w: seq<I2cWrite>, row: int)
    requires Valid(p) && 0 <= row < PAGES
    requires Streamed(w) == p.buffer[..row * COLUMNS]
    ensures Streamed(w + [SelectPage(row), PageWrite(p, row)]) == p.buffer[..(row + 1) * COLUMNS]
  {
    var select := SelectPage(row);
    var page := PageWrite(p, row);
    StreamedAppend(w, select);
    StreamedAppend(w + [select], page);
    assert p.buffer[..(row + 1) * COLUMNS] == p.buffer[..row * COLUMNS] + page.data;
    assert w + [select] + [page] == w + [select, page];
  }

  // ---------------------------------------------------------------------------
  // Start-up

  /** The peripheral event loop as the driver uses it. */
  datatype Action = InitDisplay | FlushDisplay
  datatype EventEffect =
    | AddEventAction(id: int, action: Action)   // hugo_add_event_action
    | RaiseEvent(id: int)                       // hugo_raise_event

  /** The driver's statics: the panel and the two event ids, -1 until
      registered. */
  datatype Driver = Driver(panel: Panel, initEventId: int, flushEventId: int)

  /** Fresh ids handed out by `hugo_get_new_event_id`. */
  datatype EventIds = EventIds(initId: int, flushId: int)

  /** The statics before `hugo_ssd1306_init` runs. */
  const BOOT: Driver := Driver(Panel(seq(BUFFER_SIZE, _ => 0x00), false), -1, -1)

  const ADAPTER: Adapter := Adapter(COLUMNS, PAGE_SIZE * PAGES)

  /** The ids that have an action registered in a trace. */
  function Registered(e: seq<EventEffect>): set<int> {
    set i | 0 <= i < |e| && e[i].AddEventAction? :: e[i].id
  }

  /** Every event raised in the trace had an action registered before it. */
  predicate RaisesOnlyRegistered(e: seq<EventEffect>) {
    forall i | 0 <= i < |e| && e[i].RaiseEvent? :: e[i].id in Registered(e[..i])
  }

  /** `hugo_ssd1306_init` as written: it cleans the buffer and raises the
      flush event (`_showtime`) BEFORE `_register_events` has given the
      flush action an id, so the first raise carries the flush id the
      statics hold at that moment (-1 on the first call). */
  function InitAsWritten(d: Driver, invert: bool, ids: EventIds): (r: (Driver, Adapter, seq<EventEffect>))
    ensures r.0.panel == Clean(d.panel.(invert := invert))
    ensures r.1 == ADAPTER
    ensures |r.2| == 4 && r.2[0] == RaiseEvent(d.flushEventId)
    ensures r.0.initEventId == ids.initId && r.0.flushEventId == ids.flushId
    ensures r.2[1..] == [AddEventAction(ids.initId, InitDisplay), AddEventAction(ids.flushId, FlushDisplay), RaiseEvent(ids.initId)]
    ensures r.0 == Init(d, invert, ids).0 && r.2[1..] == Init(d, invert, ids).2[..3]
  {
    var panel := Clean(d.panel.(invert := invert));
    (Driver(panel, ids.initId, ids.flushId),
     ADAPTER,
     [RaiseEvent(d.flushEventId), AddEventAction(ids.initId, InitDisplay), AddEventAction(ids.flushId, FlushDisplay), RaiseEvent(ids.initId)])
  }

  /** Whatever the driver state and the ids, the as-written start-up first
      raises the flush event under the id held before this call, which this
      call's own events have not registered; on the first call after boot
      that id is -1. */
  lemma InitRaisesUnregisteredEvent(d: Driver, invert: bool, ids: EventIds)
    ensures !RaisesOnlyRegistered(InitAsWritten(d, invert, ids).2)
    ensures InitAsWritten(BOOT, invert, ids).2[0] == RaiseEvent(-1)
  {
    var e := InitAsWritten(d, invert, ids).2;
    assert e[..0] == [];
    assert e[0].RaiseEvent? && e[0].id !in Registered(e[..0]);
  }

  /** `hugo_ssd1306_init` with the evident intent: register both actions,
      send the init sequence, then flush the cleaned buffer. */
  function Init(d: Driver, invert: bool, ids: EventIds): (r: (Driver, Adapter, seq<EventEffect>))
    ensures r.0.panel == Clean(d.panel.(invert := invert))
    ensures r.0.initEventId == ids.initId && r.0.flushEventId == ids.flushId
    ensures r.1 == ADAPTER
    ensures RaisesOnlyRegistered(r.2)
    ensures RaiseEvent(ids.initId) in r.2 && RaiseEvent(ids.flushId) in r.2
  {
    var panel := Clean(d.panel.(invert := invert));
    var e := [AddEventAction(ids.initId, InitDisplay), AddEventAction(ids.flushId, FlushDisplay), RaiseEvent(ids.initId), RaiseEvent(ids.flushId)];
    assert e[..2] <= e[..3];
    assert ids.initId in Registered(e[..2]) && ids.flushId in Registered(e[..2]) by {
      assert e[..2][0].AddEventAction? && e[..2][1].AddEventAction?;
    }
    assert Registered(e[..2]) <= Registered(e[..3]) by {
      forall i | 0 <= i < 2 ensures e[..3][i] == e[..2][i] { }
    }
    (Driver(panel, ids.initId, ids.flushId), ADAPTER, e)
  }

  /** After start-up the adapter reports a 128x64 panel, every pixel of
      which shows the background. */
  lemma InitShowsBlankPanel(d: Driver, invert: bool, ids: EventIds, x: int, y: int)
    ensures var r := Init(d, invert, ids);
      && r.1.width == 128 && r.1.height == 64
      && (InBounds(x, y) <==> 0 <= x < r.1.width && 0 <= y < r.1.height)
      && (InBounds(x, y) ==> !Pixel(r.0.panel, x, y))
  {
    if InBounds(x, y) {
      CleanShowsBackground(d.panel.(invert := invert), x, y);
    }
  }
}

=== FILE: tiny_wire.dfy ===
/** The I2C slave side of a tiny block (hugo_tiny_wire.h): the frame decoder
    run on every receive, the reply buffer drained on every request, and the
    start-up address choice. `Wire`, EEPROM, the watchdog, the sleep
    controller and the `.ino` callbacks are recorded as effects; the bytes
    of one receive are a sequence, and `Wire.read()` past its end yields
    -1, which is 0xFF once stored in a `uint8_t`. */
module TinyWire {
  import opened Wrappers

  /** Block-type id addressing every block (the `BASE` id). */
  const BLOCK_TYPE_ID_BASE: bv8 := 0xFA
  const COMMAND_GET_MODULE_VERSION: bv8 := 0xF7
  const COMMAND_CHANGE_I2C_ADDRESS: bv8 := 0xFE
  /** Power-save levels as the header's comment on `HugoTinyWirePowerSave`
      lists them (no power save 0, deep power save 2). */
  const POWER_SAVE_NONE: bv8 := 0
  const POWER_SAVE_DEEP: bv8 := 2
  /** `Wire.read()` with nothing left returns -1, stored as this byte. */
  const NO_BYTE: bv8 := 0xFF

  /** The three compile-time configurations: without extensions,
      `HUGO_TINY_ONE_EXTENSION` and `HUGO_TINY_EXTENSIONS`. */
  datatype Build = NoExtension | OneExtension | Extensions

  /** Command codes of the base id that hugo_defines.h assigns; that header
      is not part of this model, so the codes are a parameter. */
  datatype Commands = Commands(
    getExtCount: bv8, activateExtension: bv8, getExtAddress: bv8, changeExtAddress: bv8,
    getExtAddrCount: bv8, getExtAddrList: bv8, setPowerSave: bv8)

  /** The `case` labels of one `switch` are distinct. */
  predicate CommandsDistinct(c: Commands) {
    var codes := [c.getExtCount, c.activateExtension, c.getExtAddress, c.changeExtAddress,
                  c.getExtAddrCount, c.getExtAddrList, c.setPowerSave,
                  COMMAND_GET_MODULE_VERSION, COMMAND_CHANGE_I2C_ADDRESS];
    forall i, j | 0 <= i < j < |codes| :: codes[i] != codes[j]
  }

  /** The pairwise form of `CommandsDistinct`. */
  lemma CommandsPairwise(c: Commands)
    requires CommandsDistinct(c)
    ensures c.getExtCount != c.activateExtension && c.getExtCount != c.getExtAddress && c.getExtCount != c.changeExtAddress && c.getExtCount != c.getExtAddrCount && c.getExtCount != c.getExtAddrList && c.getExtCount != c.setPowerSave && c.getExtCount != COMMAND_GET_MODULE_VERSION && c.getExtCount != COMMAND_CHANGE_I2C_ADDRESS
    ensures c.activateExtension != c.getExtAddress && c.activateExtension != c.changeExtAddress && c.activateExtension != c.getExtAddrCount && c.activateExtension != c.getExtAddrList && c.activateExtension != c.setPowerSave && c.activateExtension != COMMAND_GET_MODULE_VERSION && c.activateExtension != COMMAND_CHANGE_I2C_ADDRESS
    ensures c.getExtAddress != c.changeExtAddress && c.getExtAddress != c.getExtAddrCount && c.getExtAddress != c.getExtAddrList && c.getExtAddress != c.setPowerSave && c.getExtAddress != COMMAND_GET_MODULE_VERSION && c.getExtAddress != COMMAND_CHANGE_I2C_ADDRESS
    ensures c.changeExtAddress != c.getExtAddrCount && c.changeExtAddress != c.getExtAddrList && c.changeExtAddress != c.setPowerSave && c.changeExtAddress != COMMAND_GET_MODULE_VERSION && c.changeExtAddress != COMMAND_CHANGE_I2C_ADDRESS
    ensures c.getExtAddrCount != c.getExtAddrList && c.getExtAddrCount != c.setPowerSave && c.getExtAddrCount != COMMAND_GET_MODULE_VERSION && c.getExtAddrCount != COMMAND_CHANGE_I2C_ADDRESS
    ensures c.getExtAddrList != c.setPowerSave && c.getExtAddrList != COMMAND_GET_MODULE_VERSION && c.getExtAddrList != COMMAND_CHANGE_I2C_ADDRESS
    ensures c.setPowerSave != COMMAND_GET_MODULE_VERSION && c.setPowerSave != COMMAND_CHANGE_I2C_ADDRESS
    ensures COMMAND_GET_MODULE_VERSION != COMMAND_CHANGE_I2C_ADDRESS
  {
    var codes := [c.getExtCount, c.activateExtension, c.getExtAddress, c.changeExtAddress,
                  c.getExtAddrCount, c.getExtAddrList, c.setPowerSave,
                  COMMAND_GET_MODULE_VERSION, COMMAND_CHANGE_I2C_ADDRESS];
    assert codes[0] == c.getExtCount && codes[1] == c.activateExtension && codes[2] == c.getExtAddress;
    assert codes[3] == c.changeExtAddress && codes[4] == c.getExtAddrCount && codes[5] == c.getExtAddrList;
    assert codes[6] == c.setPowerSave && codes[7] == COMMAND_GET_MODULE_VERSION && codes[8] == COMMAND_CHANGE_I2C_ADDRESS;
  }

  /** Compile-time choices: the build, `__AVR_ATtiny412__`,
      `AUTO_DEEP_SLEEP_DISABLED`, and the command codes. `bufferCapacity` is
      the length of the `data` array of `s_buffer`, whose type
      `wire_buffer_t` is declared in hugo_defines.h (not part of this
      model). */
  datatype Config = Config(build: Build, attiny412: bool, autoDeepSleepDisabled: bool, commands: Commands, bufferCapacity: nat)

  /** The file-level statics. `extAddresses` are the lists of
      `s_ext_addresses` before its NULL terminator, each list still carrying
      its own 0x00 terminator; `active` is `s_active_extension`, None when it
      is NULL. */
  datatype WireState = WireState(
    blockTypeId: bv8,
    buffer: Bytes,
    extAddresses: seq<Bytes>,
    active: Option<Bytes>,
    deepSleepOn: bool)

  /** Calls out of the decoder. */
  datatype WireEffect =
    | ProcessCommand(command: bv8, payloadSize: bv8)  // HugoTinyWireProcessCommand
    | ReadExtAddress                                  // HugoTinyWireGetExtAddress
    | ChangeExtAddress(address: bv8)                  // HugoTinyWireChangeExtAddress
    | FillModuleVersion                               // HugoTinyWireFillModuleVersion
    | EepromWriteAddress(address: bv8)                // EEPROM.write(EEPROM_I2C_ADDRESS_POS, _)
    | WatchdogReset                                   // wdt_enable(WDTO_15MS) and spin until reset
    | PowerSave(level: bv8)                           // HugoTinyWirePowerSave
    | ShieldPower(on: bool)                           // digitalWrite(HUGO_PIN_SHIELD_POWER, _)
    | SleepCpu

  /** What the `.ino` callbacks answer: the active extension's address and
      the three version bytes written into the reply buffer. */
  datatype Callbacks = Callbacks(extAddress: bv8, moduleVersion: Bytes)

  /** The outcome of one receive: the new statics, how many times
      `Wire.read()` was called, and the calls made; or behaviour C leaves
      undefined (an index past the extension array, a NULL or unterminated
      active list, a copy past the end of the reply buffer). */
  datatype Received =
    | Received(state: WireState, readCalls: nat, effects: seq<WireEffect>)
    | Undefined

  /** `Wire.read()` for the `i`-th call of a receive. */
  function ReadByte(rx: Bytes, i: nat): (b: bv8)
    ensures i < |rx| ==> b == rx[i]
    ensures i >= |rx| ==> b == NO_BYTE
  {
    if i < |rx| then rx[i] else NO_BYTE
  }

  /** A `uint8_t` holding the non-negative int `n`. */
  function U8(n: nat): (b: bv8)
    ensures b as int == n % 256
  {
    ByteOfNat(n % 256);
    (n % 256) as bv8
  }

  // ---------------------------------------------------------------------------
  // 0x00-terminated address lists

  /** Position of the first 0x00 of a list. */
  function TerminatorIndex(l: Bytes): (n: nat)
    requires 0 in l
    ensures n < |l| && l[n] == 0
    ensures forall j | 0 <= j < n :: l[j] != 0
  {
    if l[0] == 0 then 0
    else
      assert 0 in l[1..] by {
        var k :| 0 <= k < |l| && l[k] == 0;
        assert l[1..][k - 1] == 0;
      }
      1 + TerminatorIndex(l[1..])
  }

  /** The list ends with a 0x00 that a `uint8_t` index reaches. */
  predicate Terminated(l: Bytes) {
    0 in l && TerminatorIndex(l) < 256
  }

  /** The entries of a terminated list, before its terminator. */
  function Entries(l: Bytes): (e: Bytes)
    requires 0 in l
    ensures |e| == TerminatorIndex(l)
    ensures forall j | 0 <= j < |e| :: e[j] == l[j] && e[j] != 0
  {
    l[..TerminatorIndex(l)]
  }

  /** Incrementing a `uint8_t` below 255 does not wrap. */
  lemma NextByte(b: bv8, bound: int)
    requires b as int < bound <= 255
    ensures (b + 1) as int == b as int + 1
  {
  }

  /** The loop of `GET_EXT_ADDR_COUNT`, written as the C code runs it. */
  method CountEntries(l: Bytes) returns (index: bv8)
    requires Terminated(l)
    ensures index as int == TerminatorIndex(l)
    ensures index as int == |Entries(l)|
  {
    var t := TerminatorIndex(l);
    index := 0;
    ghost var n: nat := 0;
    while l[index as int] != 0x00
      invariant index as int == n <= t
      decreases t - n
    {
      NextByte(index, t);
      index := index + 1;
      n := n + 1;
    }
  }

  /** The loop of `GET_EXT_ADDR_LIST`, written as the C code runs it: copies
      entries into the reply until the terminator. A write at or past
      `capacity`, the end of `s_buffer.data`, is undefined (None). */
  method CopyEntries(l: Bytes, capacity: nat) returns (data: Option<Bytes>)
    requires Terminated(l)
    ensures data.Some? <==> TerminatorIndex(l) <= capacity
    ensures data.Some? ==> data.value == Entries(l)
  {
    var t := TerminatorIndex(l);
    var copied: Bytes := [];
    var size: nat := 0;
    while l[size] != 0x00
      invariant size <= t && size <= capacity
      invariant copied == l[..size]
      decreases t - size
    {
      if size == capacity {
        return None;
      }
      copied := copied + [l[size]];
      size := size + 1;
    }
    return Some(copied);
  }

  // ---------------------------------------------------------------------------
  // The receive handler

  /** `i2c_receive_data(count)` for a receive of the bytes `rx`
      (`count == |rx|`): short frames are ignored, frames for another block
      are drained, frames for this block's type go to the block's own
      handler, and base-id frames run the common commands. */
  function Receive(cfg: Config, s: WireState, rx: Bytes, cb: Callbacks): (r: Received)
    ensures r.Received? ==> r.state.blockTypeId == s.blockTypeId && r.state.extAddresses == s.extAddresses
    ensures r.Received? && (|rx| < 2 || rx[0] != BLOCK_TYPE_ID_BASE || rx[0] == s.blockTypeId) ==> r.state == s
    ensures r.Received? && r.state.active != s.active ==> r.state.active.None? || r.state.active.value in s.extAddresses
    ensures r.Undefined? ==> |rx| >= 2 && rx[0] == BLOCK_TYPE_ID_BASE && cfg.build != NoExtension
    ensures |rx| >= 2 && rx[0] == BLOCK_TYPE_ID_BASE != s.blockTypeId && cfg.build == Extensions && rx[1] == cfg.commands.getExtCount ==>
      (r.Undefined? <==> |s.extAddresses| >= 256)
    ensures (|rx| == 2 && rx[0] == BLOCK_TYPE_ID_BASE != s.blockTypeId && cfg.build == Extensions &&
             rx[1] == cfg.commands.activateExtension != cfg.commands.getExtCount) ==> r.Undefined?
  {
    if |rx| < 2 then Received(s, 0, [])
    else if rx[0] != BLOCK_TYPE_ID_BASE && rx[0] != s.blockTypeId then
      Received(s, 1 + (|rx| - 1) % 256, [])
    else if rx[0] == s.blockTypeId then
      Received(s, 2, [ProcessCommand(rx[1], U8(|rx| - 2))])
    else
      BaseCommand(cfg, s.(buffer := []), rx, cb)
  }

  /** The `switch` on a base-id command, entered with the reply buffer
      already emptied. */
  function BaseCommand(cfg: Config, s: WireState, rx: Bytes, cb: Callbacks): (r: Received)
    requires |rx| >= 2
    ensures r.Received? ==> r.state.blockTypeId == s.blockTypeId && r.state.extAddresses == s.extAddresses
    ensures r.Received? && r.state.active != s.active ==> cfg.build == Extensions && rx[1] == cfg.commands.activateExtension
    ensures r.Received? && r.state.active != s.active ==> r.state.active.None? || r.state.active.value in s.extAddresses
    ensures r.Undefined? ==> cfg.build != NoExtension
    ensures cfg.build == Extensions && rx[1] == cfg.commands.getExtCount ==>
      (r.Undefined? <==> |s.extAddresses| >= 256)
    ensures cfg.build == Extensions && rx[1] == cfg.commands.activateExtension && rx[1] != cfg.commands.getExtCount && |rx| < 3 ==>
      r.Undefined?
  {
    var cmd := rx[1];
    if IsExtensionCommand(cfg, cmd) then
      ExtensionCommand(cfg, s, rx, cb)
    else if cmd == COMMAND_CHANGE_I2C_ADDRESS then
      if |rx| > 2 then Received(s, 3, [EepromWriteAddress(rx[2]), WatchdogReset])
      else Received(s, 2, [])
    else if cmd == COMMAND_GET_MODULE_VERSION then
      Received(s.(buffer := cb.moduleVersion), 2, [FillModuleVersion])
    else if cmd == cfg.commands.setPowerSave then
      SetPowerSave(cfg, s, ReadByte(rx, 2))
    else
      Received(s, 2 + (|rx| - 2) % 256, [])
  }

  /** Whether `cmd` selects one of the `case`s that `build` compiles in under
      `HUGO_TINY_EXTENSIONS` or `HUGO_TINY_ONE_EXTENSION`; in the `switch`
      they all precede the common cases. */
  predicate IsExtensionCommand(cfg: Config, cmd: bv8)
  {
    var c := cfg.commands;
    (cfg.build == Extensions && (cmd == c.getExtCount || cmd == c.activateExtension))
    || (cfg.build == OneExtension && cmd == c.getExtCount)
    || (cfg.build != NoExtension
        && (cmd == c.getExtAddress || cmd == c.changeExtAddress || cmd == c.getExtAddrCount || cmd == c.getExtAddrList))
  }

  /** The extension `case`s of the base-block `switch`, in their order. */
  function ExtensionCommand(cfg: Config, s: WireState, rx: Bytes, cb: Callbacks): (r: Received)
    requires |rx| >= 2 && IsExtensionCommand(cfg, rx[1])
    ensures cfg.build != NoExtension
    ensures r.Received? ==> r.state.blockTypeId == s.blockTypeId && r.state.extAddresses == s.extAddresses
    ensures r.Received? && r.state.active != s.active ==> cfg.build == Extensions && rx[1] == cfg.commands.activateExtension
    ensures r.Received? && r.state.active != s.active ==> r.state.active.None? || r.state.active.value in s.extAddresses
    ensures cfg.build == Extensions && rx[1] == cfg.commands.getExtCount ==>
      (r.Undefined? <==> |s.extAddresses| >= 256)
    ensures cfg.build == Extensions && rx[1] == cfg.commands.activateExtension && rx[1] != cfg.commands.getExtCount && |rx| < 3 ==>
      r.Undefined?
  {
    var c := cfg.commands;
    var cmd := rx[1];
    if cfg.build == Extensions && cmd == c.getExtCount then
      // the `uint8_t` index wraps before reaching index 256, so with 256 or
      // more lists the loop never meets the NULL terminator
      if |s.extAddresses| < 256 then Received(s.(buffer := [U8(|s.extAddresses|)]), 2, []) else Undefined
    else if cfg.build == OneExtension && cmd == c.getExtCount then
      Received(s.(buffer := [1]), 2, [])
    else if cfg.build == Extensions && cmd == c.activateExtension then
      // the -1 of an empty `Wire.read()` indexes the array directly
      if |rx| < 3 then Undefined else ActivateExtension(s, rx[2])
    else if cmd == c.getExtAddress then
      Received(s.(buffer := [cb.extAddress]), 2, [ReadExtAddress])
    else if cmd == c.changeExtAddress then
      Received(s, 3, [ChangeExtAddress(ReadByte(rx, 2))])
    else if cmd == c.getExtAddrCount then
      match s.active
      case Some(l) => if Terminated(l) then Received(s.(buffer := [U8(TerminatorIndex(l))]), 2, []) else Undefined
      case None => Undefined
    else
      // `GET_EXT_ADDR_LIST` copies with no bound on `s_buffer.data`
      match s.active
      case Some(l) =>
        if Terminated(l) && TerminatorIndex(l) <= cfg.bufferCapacity then Received(s.(buffer := Entries(l)), 2, [])
        else Undefined
      case None => Undefined
  }

  /** `ACTIVATE_EXTENSION` with index `i`: the statement at line 104 lacks
      its semicolon; the evident intent, an unchecked index into the
      NULL-terminated array, is modelled. Index `|extAddresses|` reads the
      NULL terminator; a larger one reads past the array. */
  function ActivateExtension(s: WireState, i: bv8): (r: Received)
    ensures (i as int) < |s.extAddresses| ==> r == Received(s.(active := Some(s.extAddresses[i])), 3, [])
    ensures (i as int) == |s.extAddresses| ==> r == Received(s.(active := None), 3, [])
    ensures (i as int) > |s.extAddresses| <==> r.Undefined?
  {
    if (i as int) < |s.extAddresses| then Received(s.(active := Some(s.extAddresses[i])), 3, [])
    else if (i as int) == |s.extAddresses| then Received(s.(active := None), 3, [])
    else Undefined
  }

  /** `SET_POWER_SAVE` with `level`. Off the ATtiny412, deep power save
      switches the shield off first and remembers it; leaving to level NONE
      switches it back on; the level always reaches the block. Unless
      automatic deep sleep is disabled, a deep level then sleeps the CPU. */
  function SetPowerSave(cfg: Config, s: WireState, level: bv8): (r: Received)
    ensures r.Received? && r.readCalls == 3
    ensures Count(r.effects, PowerSave(level)) == 1
    ensures cfg.attiny412 ==> r.state == s
    ensures !cfg.attiny412 && level == POWER_SAVE_DEEP ==>
      r.state == s.(deepSleepOn := true) && ShieldPower(false) in r.effects && ShieldPower(true) !in r.effects
    ensures !cfg.attiny412 && level == POWER_SAVE_NONE && s.deepSleepOn ==>
      r.state == s.(deepSleepOn := false) && ShieldPower(true) in r.effects && ShieldPower(false) !in r.effects
    ensures !cfg.attiny412 && level != POWER_SAVE_DEEP && !(level == POWER_SAVE_NONE && s.deepSleepOn) ==>
      r.state == s && ShieldPower(true) !in r.effects && ShieldPower(false) !in r.effects
    ensures SleepCpu in r.effects <==> !cfg.autoDeepSleepDisabled && level == POWER_SAVE_DEEP
  {
    var step :=
      if cfg.attiny412 then (s, [PowerSave(level)])
      else if level == POWER_SAVE_DEEP then (s.(deepSleepOn := true), [PowerSave(level), ShieldPower(false)])
      else if level == POWER_SAVE_NONE && s.deepSleepOn then (s.(deepSleepOn := false), [ShieldPower(true), PowerSave(level)])
      else (s, [PowerSave(level)]);
    var sleep := if !cfg.autoDeepSleepDisabled && level == POWER_SAVE_DEEP then [SleepCpu] else [];
    SleepAppended(step.1, sleep, level);
    Received(step.0, 3, step.1 + sleep)
  }

  /** Appending the optional CPU sleep adds no other call. */
  lemma SleepAppended(pre: seq<WireEffect>, sleep: seq<WireEffect>, level: bv8)
    requires sleep == [] || sleep == [SleepCpu]
    ensures Count(pre + sleep, PowerSave(level)) == Count(pre, PowerSave(level))
    ensures forall e :: e in pre + sleep <==> e in pre || e in sleep
  {
    CountAppend(pre, sleep, PowerSave(level));
  }

  // ---------------------------------------------------------------------------
  // The request handler and start-up

  /** `i2c_request_event()`: sends the reply buffer when it is not empty,
      then the buffer is empty. Returns the bytes written, if any. */
  function Request(s: WireState): (r: (WireState, Option<Bytes>))
    ensures r.0 == s.(buffer := [])
    ensures r.1.Some? <==> |s.buffer| > 0
    ensures r.1.Some? ==> r.1.value == s.buffer
  {
    if |s.buffer| > 0 then (s.(buffer := []), Some(s.buffer)) else (s, None)
  }

  /** `HugoTinyWireInitialize`: the statics and the I2C address the block
      listens on, given what EEPROM holds at the address position. */
  datatype Initialized = Initialized(state: WireState, address: bv8)

  function Initialize(cfg: Config, blockTypeId: bv8, extAddresses: seq<Bytes>, eepromAddress: bv8, eepromDefault: bv8): (r: Initialized)
    ensures r.state.blockTypeId == blockTypeId && r.state.buffer == []
    ensures !r.state.deepSleepOn
    ensures cfg.build != NoExtension ==>
      r.state.extAddresses == extAddresses && r.state.active == (if |extAddresses| > 0 then Some(extAddresses[0]) else None)
    ensures r.address == (if eepromAddress == eepromDefault then blockTypeId else eepromAddress)
  {
    var ext := if cfg.build != NoExtension then extAddresses else [];
    var active := if |ext| > 0 then Some(ext[0]) else None;
    var address := if eepromAddress == eepromDefault then blockTypeId else eepromAddress;
    Initialized(WireState(blockTypeId, [], ext, active, false), address)
  }
}

=== FILE: tiny_wire_props.dfy ===
/** Properties of the tiny-block frame decoder: what each kind of frame
    reads, changes and calls, the agreement of the two extension-list
    replies, and receive/request exchanges as the master sees them. */
module TinyWireProps {
  import opened Wrappers
  import opened TinyWire

  /** The statics as start-up leaves them and every receive keeps them:
      fewer than 256 extension lists, each 0x00-terminated within reach of
      a `uint8_t` index, and an active list that is one of them or NULL. */
  predicate WellFormed(s: WireState) {
    && |s.extAddresses| < 256
    && (forall i | 0 <= i < |s.extAddresses| :: Terminated(s.extAddresses[i]))
    && (s.active.Some? ==> s.active.value in s.extAddresses)
  }

  lemma InitializeWellFormed(cfg: Config, blockTypeId: bv8, ext: seq<Bytes>, eepromAddress: bv8, eepromDefault: bv8)
    requires |ext| < 256 && forall i | 0 <= i < |ext| :: Terminated(ext[i])
    ensures WellFormed(Initialize(cfg, blockTypeId, ext, eepromAddress, eepromDefault).state)
  {
  }

  lemma ReceivePreservesWellFormed(cfg: Config, s: WireState, rx: Bytes, cb: Callbacks)
    requires WellFormed(s)
    ensures Receive(cfg, s, rx, cb).Received? ==> WellFormed(Receive(cfg, s, rx, cb).state)
  {
  }

  /** The base-id frame `[BASE, command] + payload`. */
  function BaseFrame(command: bv8, payload: Bytes): Bytes {
    [BLOCK_TYPE_ID_BASE, command] + payload
  }

  /** A frame shorter than two bytes is not read at all and changes nothing. */
  lemma ShortFrameIgnored(cfg: Config, s: WireState, rx: Bytes, cb: Callbacks)
    requires |rx| < 2
    ensures Receive(cfg, s, rx, cb) == Received(s, 0, [])
  {
  }

  /** A frame for another block type is drained: every byte after the
      block id is read (the `uint8_t` count wraps above 256) and nothing
      changes, the reply buffer included. */
  lemma ForeignFrameDrained(cfg: Config, s: WireState, rx: Bytes, cb: Callbacks)
    requires |rx| >= 2 && rx[0] != BLOCK_TYPE_ID_BASE && rx[0] != s.blockTypeId
    ensures var r := Receive(cfg, s, rx, cb);
      && r.Received? && r.state == s && r.effects == []
      && (|rx| <= 256 ==> r.readCalls == |rx|)
  {
  }

  /** A frame for this block's own type goes to the block's handler with
      the command and the payload size, and leaves the reply buffer alone. */
  lemma OwnFrameForwarded(cfg: Config, s: WireState, rx: Bytes, cb: Callbacks)
    requires |rx| >= 2 && rx[0] == s.blockTypeId
    ensures var r := Receive(cfg, s, rx, cb);
      && r.Received? && r.state == s && r.readCalls == 2
      && r.effects == [ProcessCommand(rx[1], U8(|rx| - 2))]
      && ((r.effects[0].payloadSize as int) == |rx| - 2 || |rx| - 2 >= 256)
  {
  }

  /** Every defined base-id frame starts from an empty reply buffer: the
      reply afterwards is the one the command fills, or nothing. */
  lemma BaseFrameDropsOldReply(cfg: Config, s: WireState, command: bv8, payload: Bytes, cb: Callbacks)
    requires s.blockTypeId != BLOCK_TYPE_ID_BASE
    requires command != COMMAND_GET_MODULE_VERSION
    requires !(cfg.build != NoExtension && command in {cfg.commands.getExtCount, cfg.commands.getExtAddress,
                                                      cfg.commands.getExtAddrCount, cfg.commands.getExtAddrList})
    ensures var r := Receive(cfg, s, BaseFrame(command, payload), cb);
      r.Received? ==> r.state.buffer == []
  {
  }

  /** A base-id command the build does not know drains its payload and
      leaves the reply buffer empty. */
  lemma UnknownBaseCommandDrains(cfg: Config, s: WireState, command: bv8, payload: Bytes, cb: Callbacks)
    requires s.blockTypeId != BLOCK_TYPE_ID_BASE && |payload| < 256
    requires command !in {COMMAND_GET_MODULE_VERSION, COMMAND_CHANGE_I2C_ADDRESS, cfg.commands.setPowerSave}
    requires cfg.build != NoExtension ==>
      command !in {cfg.commands.getExtCount, cfg.commands.getExtAddress, cfg.commands.changeExtAddress,
                   cfg.commands.getExtAddrCount, cfg.commands.getExtAddrList}
    requires cfg.build == Extensions ==> command != cfg.commands.activateExtension
    ensures Receive(cfg, s, BaseFrame(command, payload), cb) == Received(s.(buffer := []), 2 + |payload|, [])
  {
    assert BaseFrame(command, payload)[0] == BLOCK_TYPE_ID_BASE && BaseFrame(command, payload)[1] == command;
  }

  /** In the one-extension build, `GET_EXT_COUNT` answers 1. */
  lemma OneExtensionCount(cfg: Config, s: WireState, payload: Bytes, cb: Callbacks)
    requires cfg.build == OneExtension && CommandsDistinct(cfg.commands)
    requires s.blockTypeId != BLOCK_TYPE_ID_BASE
    ensures Receive(cfg, s, BaseFrame(cfg.commands.getExtCount, payload), cb) == Received(s.(buffer := [1]), 2, [])
  {
    assert BaseFrame(cfg.commands.getExtCount, payload)[1] == cfg.commands.getExtCount;
    CommandsPairwise(cfg.commands);
  }

  /** In the many-extension build, `GET_EXT_COUNT` answers the number of lists. */
  lemma ExtensionsCount(cfg: Config, s: WireState, payload: Bytes, cb: Callbacks)
    requires cfg.build == Extensions && CommandsDistinct(cfg.commands) && WellFormed(s)
    requires s.blockTypeId != BLOCK_TYPE_ID_BASE
    ensures var r := Receive(cfg, s, BaseFrame(cfg.commands.getExtCount, payload), cb);
      r.Received? && |r.state.buffer| == 1 && r.state.buffer[0] as int == |s.extAddresses|
  {
    var rx := BaseFrame(cfg.commands.getExtCount, payload);
    assert rx[0] == BLOCK_TYPE_ID_BASE && rx[1] == cfg.commands.getExtCount;
    assert Receive(cfg, s, rx, cb) == Received(s.(buffer := [U8(|s.extAddresses|)]), 2, []);
  }

  /** `GET_EXT_ADDR_COUNT` and `GET_EXT_ADDR_LIST` agree: the count reply is
      one byte holding the length of the list reply, and the list reply,
      defined exactly when the entries fit `s_buffer.data`, is the active
      list up to its terminator, in order. */
  lemma {:induction false} AddrCountMatchesList(cfg: Config, s: WireState, pc: Bytes, pl: Bytes, cb: Callbacks)
    requires cfg.build != NoExtension && CommandsDistinct(cfg.commands)
    requires s.blockTypeId != BLOCK_TYPE_ID_BASE && WellFormed(s) && s.active.Some?
    ensures var count := Receive(cfg, s, BaseFrame(cfg.commands.getExtAddrCount, pc), cb);
      var list := Receive(cfg, s, BaseFrame(cfg.commands.getExtAddrList, pl), cb);
      && count.Received? && |count.state.buffer| == 1
      && (list.Received? <==> count.state.buffer[0] as int <= cfg.bufferCapacity)
      && (list.Received? ==>
            && count.state.buffer[0] as int == |list.state.buffer|
            && list.state.buffer + [0] <= s.active.value
            && (forall j | 0 <= j < |list.state.buffer| :: list.state.buffer[j] != 0))
  {
    var l := s.active.value;
    assert Terminated(l) by {
      var k :| 0 <= k < |s.extAddresses| && s.extAddresses[k] == l;
    }
    AddrCountReply(cfg, s, pc, cb);
    AddrListReply(cfg, s, pl, cb);
    EntriesPrefix(l);
  }

  /** The entries of a terminated list, followed by the terminator, are a
      prefix of it, and a `uint8_t` counts them exactly. */
  lemma EntriesPrefix(l: Bytes)
    requires Terminated(l)
    ensures Entries(l) + [0] <= l
    ensures U8(TerminatorIndex(l)) as int == |Entries(l)|
  {
    var t := TerminatorIndex(l);
    assert t < 256;
    assert t % 256 == t;
    assert Entries(l) == l[..t];
    assert l[..t] + [l[t]] == l[..t + 1];
  }

  lemma AddrCountReply(cfg: Config, s: WireState, pc: Bytes, cb: Callbacks)
    requires cfg.build != NoExtension && CommandsDistinct(cfg.commands)
    requires s.blockTypeId != BLOCK_TYPE_ID_BASE && s.active.Some? && Terminated(s.active.value)
    ensures Receive(cfg, s, BaseFrame(cfg.commands.getExtAddrCount, pc), cb)
         == Received(s.(buffer := [U8(TerminatorIndex(s.active.value))]), 2, [])
  {
    var c := cfg.commands;
    var rx := BaseFrame(c.getExtAddrCount, pc);
    assert rx[0] == BLOCK_TYPE_ID_BASE && rx[1] == c.getExtAddrCount;
    CommandsPairwise(c);
  }

  lemma AddrListReply(cfg: Config, s: WireState, pl: Bytes, cb: Callbacks)
    requires cfg.build != NoExtension && CommandsDistinct(cfg.commands)
    requires s.blockTypeId != BLOCK_TYPE_ID_BASE && s.active.Some? && Terminated(s.active.value)
    ensures Receive(cfg, s, BaseFrame(cfg.commands.getExtAddrList, pl), cb)
         == if TerminatorIndex(s.active.value) <= cfg.bufferCapacity then Received(s.(buffer := Entries(s.active.value)), 2, [])
            else Undefined
  {
    var c := cfg.commands;
    var rx := BaseFrame(c.getExtAddrList, pl);
    assert rx[0] == BLOCK_TYPE_ID_BASE && rx[1] == c.getExtAddrList;
    CommandsPairwise(c);
  }

  /** `CHANGE_I2C_ADDRESS` writes the new address to EEPROM and resets the
      block iff the frame carries an address byte. */
  lemma ChangeAddressNeedsPayload(cfg: Config, s: WireState, payload: Bytes, cb: Callbacks)
    requires CommandsDistinct(cfg.commands) && s.blockTypeId != BLOCK_TYPE_ID_BASE
    ensures var r := Receive(cfg, s, BaseFrame(COMMAND_CHANGE_I2C_ADDRESS, payload), cb);
      && r.Received? && r.state == s.(buffer := [])
      && (|payload| > 0 ==> r.effects == [EepromWriteAddress(payload[0]), WatchdogReset])
      && (|payload| == 0 <==> r.effects == [])
  {
    var c := cfg.commands;
    assert BaseFrame(COMMAND_CHANGE_I2C_ADDRESS, payload)[1] == COMMAND_CHANGE_I2C_ADDRESS;
    CommandsPairwise(c);
    if |payload| > 0 {
      assert BaseFrame(COMMAND_CHANGE_I2C_ADDRESS, payload)[2] == payload[0];
    }
  }

  /** `SET_POWER_SAVE` off the ATtiny412: the level always reaches the block;
      DEEP turns the shield off and remembers it, NONE after DEEP turns it
      back on and forgets it. A missing level byte reads as 0xFF. */
  lemma SetPowerSaveFrame(cfg: Config, s: WireState, payload: Bytes, cb: Callbacks)
    requires CommandsDistinct(cfg.commands) && s.blockTypeId != BLOCK_TYPE_ID_BASE && !cfg.attiny412
    ensures var level := if |payload| > 0 then payload[0] else NO_BYTE;
      var r := Receive(cfg, s, BaseFrame(cfg.commands.setPowerSave, payload), cb);
      && r.Received?
      && Count(r.effects, PowerSave(level)) == 1
      && (level == POWER_SAVE_DEEP ==> r.state.deepSleepOn && ShieldPower(false) in r.effects)
      && (level == POWER_SAVE_NONE && s.deepSleepOn ==> !r.state.deepSleepOn && ShieldPower(true) in r.effects)
      && (level != POWER_SAVE_DEEP && !(level == POWER_SAVE_NONE && s.deepSleepOn) ==>
            r.state.deepSleepOn == s.deepSleepOn && ShieldPower(true) !in r.effects && ShieldPower(false) !in r.effects)
  {
    var c := cfg.commands;
    var rx := BaseFrame(c.setPowerSave, payload);
    assert rx[1] == c.setPowerSave;
    CommandsPairwise(c);
    if |payload| > 0 {
      assert rx[2] == payload[0];
    }
  }

  /** The master's version query: a base-id `GET_MODULE_VERSION` frame
      followed by a request sends back exactly the bytes the block filled in,
      and leaves the reply buffer empty. */
  lemma VersionQueryRoundTrip(cfg: Config, s: WireState, payload: Bytes, cb: Callbacks)
    requires CommandsDistinct(cfg.commands) && s.blockTypeId != BLOCK_TYPE_ID_BASE
    requires |cb.moduleVersion| > 0
    ensures var r := Receive(cfg, s, BaseFrame(COMMAND_GET_MODULE_VERSION, payload), cb);
      && r.Received? && r.effects == [FillModuleVersion]
      && Request(r.state) == (s.(buffer := []), Some(cb.moduleVersion))
  {
    var c := cfg.commands;
    assert BaseFrame(COMMAND_GET_MODULE_VERSION, payload)[1] == COMMAND_GET_MODULE_VERSION;
    CommandsPairwise(c);
  }

  /** A request answers each reply once: a second request sends nothing. */
  lemma RequestOnce(s: WireState)
    ensures Request(Request(s).0).1 == None
    ensures Request(s).1.Some? <==> |s.buffer| > 0
  {
  }
}

=== FILE: wrappers.dfy ===
/** Failure-carrying datatypes shared by every module of the model. */
module Wrappers {

  /** A value that may be absent: Python's `None`, or C's `NULL`. */
  datatype Option<+T> = None | Some(value: T)

  /** The outcome of an operation that can raise: its value, or the error it raised. */
  datatype Result<+T, +E> = Ok(value: T) | Err(error: E)

  /** The raw bytes of a buffer, a payload or a bus transfer. */
  type Bytes = seq<bv8>

  lemma ByteOfNat(n: int)
    requires 0 <= n < 256
    ensures (n as bv8) as int == n
  {
  }

  lemma NatOfByte(b: bv8)
    ensures (b as int) as bv8 == b
  {
  }

  /** Number of occurrences of `x` in `s`. */
  function Count<T(==)>(s: seq<T>, x: T): (n: nat)
    ensures n <= |s|
    ensures n == 0 <==> x !in s
  {
    if s == [] then 0 else (if s[0] == x then 1 else 0) + Count(s[1..], x)
  }

  lemma {:induction false} CountAppend<T>(a: seq<T>, b: seq<T>, x: T)
    ensures Count(a + b, x) == Count(a, x) + Count(b, x)
  {
    if a == [] {
      assert a + b == b;
    } else {
      assert (a + b)[1..] == a[1..] + b;
      CountAppend(a[1..], b, x);
    }
  }

  /** In a sequence without repetitions every element occurs exactly once. */
  lemma {:induction false} DistinctCount<T>(s: seq<T>, x: T)
    requires forall i, j | 0 <= i < j < |s| :: s[i] != s[j]
    ensures Count(s, x) == if x in s then 1 else 0
  {
    if s != [] {
      DistinctCount(s[1..], x);
      if s[0] == x {
        assert x !in s[1..] by {
          forall k | 0 <= k < |s[1..]|
            ensures s[1..][k] != x
          {
            assert s[1..][k] == s[k + 1];
          }
        }
      } else {
        assert x in s <==> x in s[1..];
      }
    }
  }
}
